=== FILE: README.md ===
# Green Cottage booking core, modelled in Dafny

Green Cottage is a small holiday-cottage booking site. This project models its
server-side core and its content scripts, and proves properties about that model.

- **Availability.** Whether a date range of a cottage is free, judged against
  PENDING/PAID bookings and availability blocks. Also the temporary lock taken at
  checkout and its expiry.
- **Checkout.** Validation, then the availability check, then lock, PENDING
  booking and session id, in that order. Also the price of a stay.
- **Payment webhook.** The PENDING → PAID transition, removal of the lock, and
  creation of at most one invoice.
- **Invoicing.** The per-year counter, the `GC-YYYY-NNNNNN` number, and the
  line items of the invoice document.
- **Calendars.** iCalendar feed import (replace-all of a cottage's ICAL blocks)
  and export of blocks as VEVENTs with deterministic UIDs. UID follows section
  3.8.4.7 of RFC 5545; VERSION, PRODID and CALSCALE follow sections 3.7.4, 3.7.3
  and 3.7.1.
- **Reviews.** The static review collection (lookup, average, ordering, best
  rated, slugs) and the public reviews API (comment sanitiser, client address,
  per-address rate limit, GET and POST outcomes).
- **Cottage content.** JSON-to-record mapping, the `NNhMM` time parser, the
  listing, and lookup by slug with the store fallback.
- **Build scripts.**
  - The `.env` parser and environment merge of `build-with-env.mjs`, reused by
    `migrate-vercel.mjs`.
  - The database URL choice and `sslmode` rewrite, the Prisma command and the
    exit codes.
  - Image-URL normalisation and record building of the scraper.
  - Kebab-case, categories, variants and the manifest of the image optimiser.
  - Extension extraction and local path rewriting of the image downloader.

## How the model is built

- **Store.** The database is one class, `Store.Database`. It holds the tables as
  sequences (bookings, blocks, invoices, cottages, reviews, feeds), the invoice
  counters as a map, the users as a set, and one shared id counter.
- **Handlers.** Each request handler is a method that `modifies` the store. Its
  contract states the response status and the whole new state.
- **Query functions.** The queries the handlers run are functions over the
  tables, for example `Availability.IsFree`, `StripeWebhook.Decide` and
  `ICal.FeedBlocks`. Lemmas prove the properties of the system about these
  functions.
- **Loops.**
  - Each loop of the source is a `while` loop in a method. The exception is
    `extractImages` (apps/web/scripts/scrape-cottages.mjs:53-118): its four adding loops
    become one `while` loop over the four candidate lists joined together, in
    the same order.
  - Each such method is proved equal to a function on its inputs, for example
    `ParseEnv`, `ExtractImages`, `OptimizePhotos` and `DownloadGallery`.
- **Dates** are integer milliseconds, as JavaScript `Date.getTime()` gives them.
  This makes `Math.ceil` of the night count meaningful.
- **Money** is `real`. `Math.round` is rounding half up.
- **Strings** are `seq<char>`. JavaScript `trim` uses its own whitespace set.
- **External systems become inputs.** The outcome of each interaction is a
  parameter:
  - the Stripe session, a signature check, or an unconfigured provider
  - the fetched iCalendar document
  - a page the scraper loaded or failed to load
  - whether an image conversion or a download succeeded
  - file existence and contents, and a child process's result
  - the current time

## Model

| member | source | states |
|---|---|---|
| Availability.ClausesAreOverlap | apps/web/src/lib/availability.ts:17-36 | for non-empty stored and requested ranges, the three OR-ed clauses of both conflict queries hold exactly when the half-open ranges overlap (both directions) |
| Availability.TouchingDoesNotConflict | apps/web/src/lib/availability.ts:17-36 | a stored range ending at the requested start, or starting at the requested end, matches none of the clauses |
| Availability.EmptyRecordStillMatches | apps/web/src/lib/availability.ts:30-35 | a zero-length stored range at the requested start fails the first clause but matches the third although it overlaps nothing, which is why the equivalence needs non-empty ranges |
| Availability.CheckAvailability | apps/web/src/lib/availability.ts:4-77 | the answer is true iff no PENDING/PAID booking of the cottage (other than the excluded one) and no block of the cottage matches the clauses; the store is not changed |
| Availability.CancelledNeverBlocks | apps/web/src/lib/availability.ts:14-16 | adding a CANCELLED booking never turns a free request into an unavailable one |
| Availability.ActiveBookingBlocks | apps/web/src/lib/availability.ts:11-43 | an overlapping PENDING or PAID booking makes the request unavailable whatever the blocks are (so also after its lock is gone), unless it is the excluded booking |
| Availability.EveryBlockBlocks | apps/web/src/lib/availability.ts:46-74 | every overlapping block, INTERNAL or ICAL, makes the request unavailable, whatever booking is excluded |
| Availability.ExcludeSkipsOnlyThatBooking | apps/web/src/lib/availability.ts:37 | asking with an excluded booking id gives the same answer as asking without exclusion over the bookings with other ids and the same blocks |
| Availability.DisjointIsFree | apps/web/src/lib/availability.ts:72-76 | when every active booking and every block of the cottage lies wholly before or after the request (touching allowed), the request is free |
| Availability.BookedWeekScenario | apps/web/src/lib/availability.ts:17-36 | a booking of days 10 to 15 leaves days 5 to 10 and 15 to 20 free and makes 12 to 20 unavailable |
| Availability.TempLockRef | apps/web/src/lib/availability.ts:93 | the lock's source reference starts with `temp-lock-` |
| Availability.RemoveBlock | apps/web/src/lib/availability.ts:100-102 | a block survives a delete by id exactly when it was there and has another id |
| Availability.AddedBlockBlocks | apps/web/src/lib/availability.ts:87-95 | after a block is added, every overlapping request for its cottage is unavailable |
| Availability.RemoveAddedBlock | apps/web/src/lib/availability.ts:98-102 | deleting a block that was just added gives back the previous blocks |
| Availability.RemoveMissingBlock | apps/web/src/lib/availability.ts:103-105 | deleting an id that is not present changes nothing, so a late expiry is a no-op |
| Availability.LockLifecycle | apps/web/src/lib/availability.ts:79-109 | while a lock is present, overlapping requests are refused; once it is deleted, every request gets the answer it had before the lock |
| Availability.CreateTemporaryLock | apps/web/src/lib/availability.ts:79-109 | appends exactly one INTERNAL block with the cottage, the dates and `temp-lock-<now>` under a fresh id, which it returns; nothing else changes; afterwards every overlapping request on that cottage is unavailable |
| Availability.ExpireLock | apps/web/src/lib/availability.ts:98-106 | deletes exactly the block with the lock id, if any, and changes nothing else |
| Store.Nights | apps/web/src/app/api/bookings/checkout/route.ts:45-47 | the night count is the ceiling of the stay length in days |
| Store.Round | apps/web/src/app/api/bookings/checkout/route.ts:98 | `Math.round`: the result is within one half of x, halves rounded up |
| Store.CottageById | apps/web/src/app/api/bookings/checkout/route.ts:36-38 | the returned cottage has the id; when none is returned, no cottage has it |
| Store.CottageBySlug | apps/web/src/app/api/reviews/route.ts:44-47 | the returned cottage has the slug; when none is returned, no cottage has it (also the lookup at apps/web/src/lib/cottages.ts:105-107) |
| Store.Database.AddBlock | apps/web/src/lib/availability.ts:87-95 | appends one block under a fresh id, keeping the store's key constraints; other tables unchanged |
| Store.Database.AddReview | apps/web/src/app/api/reviews/route.ts:99-108 | appends one review under the next id; other tables unchanged |
| Checkout.PriceStay | apps/web/src/app/api/bookings/checkout/route.ts:45-52 | nights = ceil(days); base = price·nights; cleaning fee only when wanted and the fee is set and non-zero; tax = subtotal·rate/100; total = subtotal + tax |
| Checkout.DefaultRateTotal | apps/web/src/app/api/bookings/checkout/route.ts:50-52 | with no configured rate, the total is the subtotal times 1.025 |
| Checkout.NightsOfWholeDays | apps/web/src/app/api/bookings/checkout/route.ts:45-47 | n whole days are charged n nights, and one millisecond more is charged n + 1 |
| Checkout.ReversedDatesChargeNoNights | apps/web/src/app/api/bookings/checkout/route.ts:45-47 | an end date not after the start gives zero or fewer nights (the route does not reject it) |
| Checkout.AmountInCents | apps/web/src/app/api/bookings/checkout/route.ts:98 | the charged amount is total·100 rounded to the nearest cent |
| Checkout.PendingBooking | apps/web/src/app/api/bookings/checkout/route.ts:58-71 | the created booking is PENDING, has no session or payment intent, and carries the quote's subtotal, tax and total |
| Checkout.InvoiceAddsUpToTotal | apps/web/src/lib/invoice.ts:93-118 | for a booking priced at checkout, the invoice's line amounts add up to the charged total |
| Checkout.SchemaValid | apps/web/src/app/api/bookings/checkout/route.ts:9-15 | the cottage id is a string; both dates are strings (turned into dates, possibly invalid); guests is an integer of at least 1; options is missing or a record |
| Checkout.Checkout | apps/web/src/app/api/bookings/checkout/route.ts:17-130 | 401 without a user, 400 on a schema failure or unavailable dates, 404 for a missing or inactive cottage, all with the store unchanged; otherwise exactly one lock block, then one PENDING booking; 503 without Stripe leaves both in place and sends no session request; otherwise the session request charges round(total·100) cents with metadata bookingId = the new booking's id and lockId = the lock's id; 200 sets the session id on the booking and returns it, and a failed session or attach gives 500 |
| Checkout.CreateBooking | apps/web/src/app/api/bookings/checkout/route.ts:58-71 | appends the booking under the next id; other tables unchanged |
| Checkout.AttachSession | apps/web/src/app/api/bookings/checkout/route.ts:114-117 | sets the session id on the new booking exactly when no booking already uses it (the unique constraint) |
| StripeWebhook.FindBySession | apps/web/src/app/api/stripe/webhook/route.ts:59-62 | finds a booking whose session id is the given one, or reports that none has it |
| StripeWebhook.SessionLookupUnique | apps/web/src/app/api/stripe/webhook/route.ts:59-62 | under the unique session constraint, the lookup returns the one booking with that session |
| StripeWebhook.Decide | apps/web/src/app/api/stripe/webhook/route.ts:58-92 | not-found exactly when no booking has the session; already-paid only for a PAID booking; otherwise marks the found booking |
| StripeWebhook.MarkPaid | apps/web/src/app/api/stripe/webhook/route.ts:73-82 | the booking becomes PAID with the session's payment intent (string, object id or none), every other field kept |
| StripeWebhook.RemoveLock | apps/web/src/app/api/stripe/webhook/route.ts:84-89 | without a lock id nothing is deleted; otherwise exactly the INTERNAL blocks whose id is the lock id are removed |
| StripeWebhook.RemoveLockById | apps/web/src/app/api/stripe/webhook/route.ts:84-89 | for a lock id taken from a block id, only that INTERNAL block goes; ICAL blocks always stay |
| StripeWebhook.PaymentIsIdempotent | apps/web/src/app/api/stripe/webhook/route.ts:69-71 | after a booking is marked paid, a repeated delivery of the same session is decided as already paid |
| StripeWebhook.PaidBookingBlocksItsDates | apps/web/src/app/api/stripe/webhook/route.ts:73-89 | after payment and lock removal, the paid booking still makes its overlapping dates unavailable |
| StripeWebhook.InvoiceOf | apps/web/src/app/api/stripe/webhook/route.ts:95 | finds the invoice of a booking, or reports there is none |
| StripeWebhook.DownloadUrl | apps/web/src/app/api/stripe/webhook/route.ts:108 | the PDF URL has the form `/api/invoices/<id>/download` |
| StripeWebhook.CreateInvoice | apps/web/src/app/api/stripe/webhook/route.ts:103-117 | the invoice row is inserted exactly when neither its booking nor its number is already invoiced; a duplicate is a no-op, not an error |
| StripeWebhook.IssueInvoiceAsWritten | apps/web/src/app/api/stripe/webhook/route.ts:95-110 | as written: the counter advances by 2, and the stored row carries number c+1 while its PDF prints c+2 |
| StripeWebhook.AsWrittenNumbersDisagree | apps/web/src/lib/invoice.ts:42 | the two numbers drawn as written are always different |
| StripeWebhook.IssueInvoice | apps/web/src/app/api/stripe/webhook/route.ts:95-110 | corrected: one number per invoice, the counter advances by 1, and the stored row and its PDF carry the same number |
| StripeWebhook.RecordPayment | apps/web/src/app/api/stripe/webhook/route.ts:73-89 | the transaction: the booking is replaced by its paid version and the lock removed; keys stay valid |
| StripeWebhook.HandleWebhook | apps/web/src/app/api/stripe/webhook/route.ts:16-132 | as written: 503 without Stripe or the secret, 400 without a valid signature, and 200 for other event types, all with the store unchanged; an unknown session gives 404, and an already paid booking gives 200, both unchanged; otherwise the booking is paid and the lock removed; a booking that had an invoice keeps invoices and counters unchanged; one without an invoice whose cottage and user exist gets 200, the counter advanced by 2 and exactly one row added (number c+1, PDF printing c+2, the download URL) unless a unique constraint refuses it; a missing cottage or user gives 500 with the counter advanced by 1 and no row |
| StripeWebhook.HandleWebhookCorrected | apps/web/src/app/api/stripe/webhook/route.ts:16-132 | the same handler with the corrected invoice step: the counter advances by 1 and the added row and its PDF carry the same number c+1 |
| ICal.ParseICalFeed | apps/web/src/lib/ical.ts:5-36 | fails exactly when the fetch or parse fails; otherwise one event per VEVENT, in order, with its start, end and uid |
| ICal.SourceRef | apps/web/src/lib/ical.ts:57 | an event's uid becomes the block's source reference; a missing or empty uid gives none |
| ICal.FeedBlocks | apps/web/src/lib/ical.ts:50-60 | one ICAL block per event, in event order, with its dates, consecutive fresh ids and the uid reference |
| ICal.KeepOthers | apps/web/src/lib/ical.ts:42-47 | keeps exactly the blocks that are not ICAL blocks of the cottage |
| ICal.StampFeeds | apps/web/src/lib/ical.ts:63-71 | only feeds matching both the cottage and the import URL get the new sync time; the rest are unchanged |
| ICal.CreateFeedBlocks | apps/web/src/lib/ical.ts:50-60 | the creation loop appends exactly the feed's blocks |
| ICal.SyncICalFeed | apps/web/src/lib/ical.ts:38-72 | a failed fetch or parse leaves the store unchanged; otherwise blocks become the kept blocks followed by the feed's blocks, and the matching feeds are stamped |
| ICal.SyncedBlocksAreTheFeed | apps/web/src/lib/ical.ts:42-60 | after a sync the cottage's ICAL blocks are exactly the feed's blocks, in event order, duplicates kept |
| ICal.SyncKeepsOtherBlocks | apps/web/src/lib/ical.ts:42-47 | a sync never removes an INTERNAL block or a block of another cottage |
| ICal.SyncedEventBlocks | apps/web/src/lib/ical.ts:50-60 | every synced event makes its overlapping dates unavailable |
| ICal.EventUid | apps/web/src/lib/ical.ts:85 | the UID has the form `green-cottage-<id>@green-cottage.com` |
| ICal.EventUidInjective | apps/web/src/lib/ical.ts:85 | equal UIDs come from equal block ids |
| ICal.GenerateICalExport | apps/web/src/lib/ical.ts:74-95 | VERSION 2.0, the fixed PRODID and GREGORIAN; one event per block in order, with its UID, dates and the constant summary and description; no source filter |
| ICal.ExportUidsDistinct | apps/web/src/lib/ical.ts:80-92 | blocks with distinct ids give events with distinct UIDs |
| Invoicing.FormatInvoiceNumber | apps/web/src/lib/invoice.ts:25 | the number starts with `GC-` |
| Invoicing.InvoiceNumberRoundTrip | apps/web/src/lib/invoice.ts:25 | parsing a formatted number gives back its year and counter |
| Invoicing.InvoiceNumbersDistinct | apps/web/src/lib/invoice.ts:25 | different (year, counter) pairs give different numbers |
| Invoicing.FirstNumberOfYear | apps/web/src/lib/invoice.ts:9-25 | the first number of a year is `GC-<year>-000001` |
| Invoicing.LargeCounterNotTruncated | apps/web/src/lib/invoice.ts:25 | a counter of seven or more digits is written out in full |
| Invoicing.GenerateInvoiceNumber | apps/web/src/lib/invoice.ts:5-27 | the year's counter (0 when absent) is increased by exactly 1 and the new value formatted; other years and tables unchanged |
| Invoicing.InvoiceLines | apps/web/src/lib/invoice.ts:93-110 | the stay line comes first with ceil nights and base amount, and only once; a cleaning line iff cleaning was asked and the fee is set, second, for the fee; a tax line iff the tax is positive, last, for the tax; nothing else |
| Invoicing.GenerateInvoicePdf | apps/web/src/lib/invoice.ts:29-42 | fails with nothing changed when the cottage or the user is missing; reuses a non-empty existing number without touching the counter, otherwise draws a new one |
| Reviews.GetReviewsBySlug | apps/web/src/lib/reviews.ts:20-23 | the stored list of the slug, or empty when the slug is absent or not a list |
| Reviews.ComputeAverageRating | apps/web/src/lib/reviews.ts:28-36 | (0, 0) for no reviews; otherwise the count and the mean rounded to one decimal: a whole number of tenths, within 0.05 of the mean (the half-open bound of Math.round) |
| Reviews.AverageWithinRatings | apps/web/src/lib/reviews.ts:33-34 | the rounded average lies between the lowest and highest rating |
| Reviews.Tag | apps/web/src/lib/reviews.ts:48 | each review is paired with its slug, in order |
| Reviews.FlattenMembership | apps/web/src/lib/reviews.ts:43-50 | a tagged review is collected iff it is in the list stored under its slug |
| Reviews.AppendTagged | apps/web/src/lib/reviews.ts:48 | the inner push loop appends the slug's tagged reviews |
| Reviews.CollectReviews | apps/web/src/lib/reviews.ts:44-50 | the push loops produce every review tagged, in key order |
| Reviews.GetAllReviewsWithSlug | apps/web/src/lib/reviews.ts:43-54 | a permutation of all tagged reviews, sorted by creation date descending |
| Reviews.GetBestRatedReviews | apps/web/src/lib/reviews.ts:59-73 | sorted by rating then date descending; a sub-multiset of all reviews, of length min(limit, total); every review left out ranks no higher than any review taken |
| Reviews.GetBestRatedReviewsDefault | apps/web/src/lib/reviews.ts:59 | with the default limit 6: min(6, total) reviews, sorted by rating then date descending, a sub-multiset of all reviews |
| Reviews.GetSlugsWithReviews | apps/web/src/lib/reviews.ts:76-80 | lists no more slugs than the collection has keys |
| Reviews.SlugsAppend | apps/web/src/lib/reviews.ts:76-80 | the slugs keep the key order: the slugs of a concatenation are those of the first part followed by those of the second |
| Reviews.SlugsDistinct | apps/web/src/lib/reviews.ts:76-80 | when the keys are distinct, no slug is listed twice |
| Reviews.SlugsWithReviewsExact | apps/web/src/lib/reviews.ts:76-80 | a slug is listed iff its lookup gives a non-empty list |
| Reviews.SlugsAreKeys | apps/web/src/lib/reviews.ts:76-80 | every listed slug is a key of the collection |
| ReviewApi.EscapingAfterTruncation | apps/web/src/app/api/reviews/route.ts:17-23 | the cut to 800 characters comes before escaping, so 800 `<` are stored as 3200 characters |
| ReviewApi.SanitizeComment | apps/web/src/app/api/reviews/route.ts:17-24 | the comment is first cut to its first 800 characters; only then are `<`, `>` and `"` escaped, in that order, and the result trimmed, so it is its own trim |
| ReviewApi.ValidBody | apps/web/src/app/api/reviews/route.ts:5-13 | the slug is a non-empty string; the rating is an integer from 1 to 5; the author is missing, null or a string of at most 120 characters; the comment is a string of 1 to 800 characters, so sanitising a valid comment never cuts it |
| ReviewApi.SanitizedHasNoMarkup | apps/web/src/app/api/reviews/route.ts:17-24 | the sanitised comment contains no `<`, `>` or `"` |
| ReviewApi.PlainCommentUnchanged | apps/web/src/app/api/reviews/route.ts:17-24 | a comment within 800 characters without those characters or outer blanks is left as it is |
| ReviewApi.GetClientIp | apps/web/src/app/api/reviews/route.ts:30-36 | the trimmed first `x-forwarded-for` entry when non-empty, and then comma-free and at the head of the header; when the header is absent or its first entry blank, a non-empty `x-real-ip`, else `unknown`; never empty |
| ReviewApi.ListedAddressWins | apps/web/src/app/api/reviews/route.ts:32 | a header holding a trimmed address before its first comma, or alone, gives that address |
| ReviewApi.BlankFirstEntryFallsBack | apps/web/src/app/api/reviews/route.ts:32-34 | a header with only white space before its first comma (`, 1.2.3.4`) or throughout falls back to `x-real-ip` or `unknown` |
| ReviewApi.FirstAddressIsPrefix | apps/web/src/app/api/reviews/route.ts:32 | the chosen forwarded address contains no comma and begins the header after leading blanks |
| ReviewApi.BlankFirstAddress | apps/web/src/app/api/reviews/route.ts:32 | white space up to the first comma (a header starting with a comma included) or up to the end gives an empty first entry |
| ReviewApi.Judge | apps/web/src/app/api/reviews/route.ts:70-125 | rate-limited gives 429 first; a review is accepted iff not limited, the body is valid, the cottage exists and the insert succeeds; an unreadable body gives 500, a schema failure 400, an unknown slug 404, a missing table 503 and any other insert failure 500; the accepted review is PUBLISHED with the sanitised comment, the rating and the author or null |
| ReviewApi.PublishedFor | apps/web/src/app/api/reviews/route.ts:51-54 | exactly the cottage's PUBLISHED reviews |
| ReviewApi.ToView | apps/web/src/app/api/reviews/route.ts:56-62 | the author is shown, or `Anonyme` when missing |
| ReviewApi.Views | apps/web/src/app/api/reviews/route.ts:56-62 | one view per review, in order |
| ReviewApi.Get | apps/web/src/app/api/reviews/route.ts:38-68 | 400 without a slug, 404 for an unknown cottage; otherwise 200 with exactly the cottage's published reviews, newest first |
| ReviewApi.RateLimiter.Post | apps/web/src/app/api/reviews/route.ts:70-111 | a refused request changes neither the store nor the rate-limit map; an accepted one appends the review and only then records the address's time |
| ReviewApi.RateLimiter.StampedIsLimited | apps/web/src/app/api/reviews/route.ts:72-80 | an address stamped at `now` is `Limited` at every instant of the next 60 000 ms (Post stamps exactly the accepted address) |
| Cottages.MatchAt | apps/web/src/lib/cottages.ts:21 | a match is 1–2 digits, `h`, 2 digits |
| Cottages.FirstMatch | apps/web/src/lib/cottages.ts:21 | the leftmost match, or none when no position matches |
| Cottages.ParseTime | apps/web/src/lib/cottages.ts:19-23 | always `DD:DD`; `17:00` for missing or empty text or when nothing matches; otherwise the hour and minutes of the leftmost match, a one-digit hour padded with `0` |
| Cottages.ParseTimePadsHour | apps/web/src/lib/cottages.ts:22 | `9h30` becomes `09:30` |
| Cottages.ParseTimeInSentence | apps/web/src/lib/cottages.ts:21-22 | `Arrivée 16h00` becomes `16:00` |
| Cottages.ParseTimeNoRangeCheck | apps/web/src/lib/cottages.ts:22 | `99h99` becomes `99:99`: values are not range-checked |
| Cottages.ParseTimeNoMatch | apps/web/src/lib/cottages.ts:22 | text without a time gives `17:00` |
| Cottages.ListedImages | apps/web/src/lib/cottages.ts:26 | exactly the non-empty entries of hero followed by gallery |
| Cottages.CottageFromJsonToDb | apps/web/src/lib/cottages.ts:25-47 | slug and name carried; capacity 4, base price 100, cleaning fee 30 and active by default; the images, or the single placeholder; address, latitude and longitude carried; the amenities, or the default list when they are missing or empty; times parsed |
| Cottages.GetCottagesForListing | apps/web/src/lib/cottages.ts:64-74 | one item per JSON entry, in order, with id = slug and image = hero, else first gallery image, else empty |
| Cottages.ListingAgreesWithRow | apps/web/src/lib/cottages.ts:64-74 | a listing item agrees with the mapped record on id, price, capacity and first image |
| Cottages.FindJson | apps/web/src/lib/cottages.ts:101 | the JSON entry with the slug, or none |
| Cottages.FallbackPage | apps/web/src/lib/cottages.ts:122-142 | the page built from the JSON under the slug as id, with a null summary when the JSON's is missing or empty |
| Cottages.GetCottageBySlug | apps/web/src/lib/cottages.ts:100-144 | null for a slug absent from the JSON, whatever the store; an unreachable store gives the fallback page from the JSON; an existing row, active or not, is returned and the store is unchanged; a missing row is created from the JSON and returned |
| Cottages.CreateCottage | apps/web/src/lib/cottages.ts:111-115 | the upsert's create: appends one row under the next id |
| BuildWithEnv.StripQuotes | apps/web/scripts/build-with-env.mjs:27-29 | a matching outer pair of `"` or `'` is removed, nothing else |
| BuildWithEnv.ParseLine | apps/web/scripts/build-with-env.mjs:23-29 | a line defines a key iff it has `=` not at position 0 and is not a comment; the key has no `=` and no outer blanks |
| BuildWithEnv.SplitsAtFirstEquals | apps/web/scripts/build-with-env.mjs:25-26 | the key is the trimmed text before the first `=`; the trimmed rest, later `=` included, is the value |
| BuildWithEnv.ParseEnv | apps/web/scripts/build-with-env.mjs:20-32 | the line loop computes the env of the file's lines |
| BuildWithEnv.LoadEnvFile | apps/web/scripts/build-with-env.mjs:18-33 | a missing file gives the empty env |
| BuildWithEnv.EnvKeys | apps/web/scripts/build-with-env.mjs:22-31 | a key is in the env iff some line defines it |
| BuildWithEnv.LastLineWins | apps/web/scripts/build-with-env.mjs:30 | for a repeated key, the value of the last defining line wins |
| BuildWithEnv.ProcessEnvKeys | apps/web/scripts/build-with-env.mjs:37-42 | the process env keeps exactly the defined values whose names do not start with `npm_config_` |
| BuildWithEnv.MergeEnv | apps/web/scripts/build-with-env.mjs:37-45 | the merge is process env, overridden by `.env`, then by `.env.local` |
| BuildWithEnv.MergePrecedence | apps/web/scripts/build-with-env.mjs:43-45 | each merged value comes from `.env.local` if it has the key, else `.env`, else the process |
| BuildWithEnv.FillDatabaseUrl | apps/web/scripts/build-with-env.mjs:47-55 | exits 1 iff none of the three URLs is set; a set DATABASE_URL is kept; otherwise it is filled from PRISMA_DATABASE_URL, else POSTGRES_URL |
| BuildWithEnv.BuildExitCode | apps/web/scripts/build-with-env.mjs:70-95 | a failed generate stops with its status (1 if none); otherwise the exit is the build's status (1 if none), the migrate result ignored |
| BuildWithEnv.Build | apps/web/scripts/build-with-env.mjs:37-95 | the whole script: merge, fill, then the exit code of the steps |
| MigrateVercel.ChooseDatabaseUrl | apps/web/scripts/migrate-vercel.mjs:36-40 | PRISMA_DATABASE_URL, else POSTGRES_URL, else DATABASE_URL; none iff none is set |
| MigrateVercel.WithSslMode | apps/web/scripts/migrate-vercel.mjs:42-46 | `prisma+` URLs, URLs with `sslmode=` and URLs without `?` are unchanged; otherwise the first `?` becomes `?sslmode=require&` |
| MigrateVercel.SslModeIdempotent | apps/web/scripts/migrate-vercel.mjs:43-46 | rewriting twice equals rewriting once |
| MigrateVercel.PrismaCommand | apps/web/scripts/migrate-vercel.mjs:52-58 | the web binary, else the root binary, with `migrate deploy`; otherwise `npx prisma migrate deploy` |
| MigrateVercel.ExitCode | apps/web/scripts/migrate-vercel.mjs:70-84 | 1 on a spawn error or signal; the child's status otherwise; 0 exactly when neither happened and the status is 0 or absent |
| MigrateVercel.Migrate | apps/web/scripts/migrate-vercel.mjs:18-84 | exits 1 without `.env.local` or without a URL; otherwise runs the command with DATABASE_URL set to the rewritten URL and exits with its code |
| ScrapeCottages.NormalizeImageUrl | apps/web/scripts/scrape-cottages.mjs:20-50 | null for empty, `data:` and `blob:`; `//` gets `https:`; `/` and other relative URLs are joined to the base without an image check; an absolute URL is kept only with an image extension or word |
| ScrapeCottages.SrcsetUrls | apps/web/scripts/scrape-cottages.mjs:68 | one URL per comma-separated entry, none containing a comma |
| ScrapeCottages.EntryUrl | apps/web/scripts/scrape-cottages.mjs:68 | the first blank-free word of the trimmed entry |
| ScrapeCottages.CollectedDistinct | apps/web/scripts/scrape-cottages.mjs:54 | the collected image set holds no URL twice |
| ScrapeCottages.CollectedMembership | apps/web/scripts/scrape-cottages.mjs:53-118 | a URL is collected iff some candidate normalises to it |
| ScrapeCottages.ExtractImages | apps/web/scripts/scrape-cottages.mjs:53-118 | the adding loops compute the collected set of the candidates in page order |
| ScrapeCottages.ScrapeCottageFacts | apps/web/scripts/scrape-cottages.mjs:212-279 | hero = first image (or empty) and gallery = the rest in order; name = title or `Gîte <slug>`; a failed page gives the minimal record |
| ScrapeCottages.ScrapeAll | apps/web/scripts/scrape-cottages.mjs:282-293 | one record per page id 1..4, in order, with its slug |
| OptimizeImages.MaxWidth | apps/web/scripts/optimize-images.mjs:21-27 | every width lies between 400 and 1920 |
| OptimizeImages.SplitCamel | apps/web/scripts/optimize-images.mjs:32 | adds only dashes, never leaves a lower-case letter before an upper-case one, keeps the first character |
| OptimizeImages.SplitCamelAddsOnlyDashes | apps/web/scripts/optimize-images.mjs:32 | without dashes, the split text is the input |
| OptimizeImages.CollapseSeparators | apps/web/scripts/optimize-images.mjs:33 | blanks and underscores are replaced by dashes only |
| OptimizeImages.CollapsedRunsAreSingle | apps/web/scripts/optimize-images.mjs:33 | on dash-free input, no two dashes end up adjacent: each run became one dash |
| OptimizeImages.KebabCase | apps/web/scripts/optimize-images.mjs:30-36 | the output holds only `a-z`, `0-9` and `-` |
| OptimizeImages.KebabCaseKeepsKebab | apps/web/scripts/optimize-images.mjs:30-36 | a name already in kebab case is unchanged |
| OptimizeImages.OptimizedName | apps/web/scripts/optimize-images.mjs:41-42 | the output file name ends in `.webp` |
| OptimizeImages.BaseName | apps/web/scripts/optimize-images.mjs:101 | a prefix of the file name; for an image file, non-empty and shorter than the name |
| OptimizeImages.CategoryOf | apps/web/scripts/optimize-images.mjs:106-111 | hero iff `bandeau` or `accueil`; else gallery iff `landscape`, `forest` or `cropped`; else cards |
| OptimizeImages.Variants | apps/web/scripts/optimize-images.mjs:116-149 | hero files get the hero size; others get gallery, cards, thumbs in decreasing width |
| OptimizeImages.ConvertedFacts | apps/web/scripts/optimize-images.mjs:116-149 | every result is a successful conversion to a listed size with its width, and there are none iff every conversion failed |
| OptimizeImages.PhotoEntryFacts | apps/web/scripts/optimize-images.mjs:151-154 | a file makes an entry iff one of its conversions succeeded, keyed by its base name |
| OptimizeImages.ConvertSizes | apps/web/scripts/optimize-images.mjs:116-149 | the per-size loop collects the successful conversions, in order |
| OptimizeImages.ConvertPhoto | apps/web/scripts/optimize-images.mjs:99-149 | the results of one file are its successful conversions |
| OptimizeImages.OptimizePhotos | apps/web/scripts/optimize-images.mjs:98-155 | the photo loop builds the manifest of the entries |
| OptimizeImages.Optimize | apps/web/scripts/optimize-images.mjs:77-170 | only image files are processed; the logo entry is added when it exists and converts |
| OptimizeImages.PhotoManifestKeys | apps/web/scripts/optimize-images.mjs:151-154 | a key is in the manifest iff some file with that base name converted; its list is non-empty |
| OptimizeImages.ManifestEntries | apps/web/scripts/optimize-images.mjs:77-79 | only `.jpg/.jpeg/.png` non-dotfiles with a successful conversion contribute keys |
| OptimizeImages.ConvertingFileEnters | apps/web/scripts/optimize-images.mjs:151-154 | a file that converts puts its key in the manifest |
| DownloadImages.ExtensionAtFacts | apps/web/scripts/download-cottage-images.mjs:51 | a match at a position is one of the alternatives (case-insensitive), right after a `.`, followed by `?` or the end |
| DownloadImages.FirstExtension | apps/web/scripts/download-cottage-images.mjs:51 | the leftmost matching position, or none |
| DownloadImages.GetExtensionFacts | apps/web/scripts/download-cottage-images.mjs:50-53 | the leftmost match with its case preserved, else `jpg`; always an allowed extension |
| DownloadImages.PlainUrlExtension | apps/web/scripts/download-cottage-images.mjs:50-53 | a query-free URL ending in `.<ext>` gives back that extension |
| DownloadImages.LocalGallery | apps/web/scripts/download-cottage-images.mjs:96-115 | the gallery keeps its length |
| DownloadImages.LocalGalleryAt | apps/web/scripts/download-cottage-images.mjs:96-115 | entry i becomes `gallery-<i+1>.<ext>` on success and keeps its URL on failure |
| DownloadImages.LocalizedKeepsFields | apps/web/scripts/download-cottage-images.mjs:74-120 | only hero and gallery change; the hero becomes local iff it is set and its download succeeds |
| DownloadImages.NothingFetchedNothingChanges | apps/web/scripts/download-cottage-images.mjs:74-120 | when every download fails, the record is unchanged |
| DownloadImages.GalleryPathsDistinct | apps/web/scripts/download-cottage-images.mjs:101 | two gallery indices give the same local path only when they are equal |
| DownloadImages.DownloadGallery | apps/web/scripts/download-cottage-images.mjs:96-115 | the gallery loop produces the localised gallery |
| DownloadImages.LocalizeCottage | apps/web/scripts/download-cottage-images.mjs:68-120 | one cottage's record becomes its localised version |
| DownloadImages.DownloadAll | apps/web/scripts/download-cottage-images.mjs:55-129 | an empty list writes nothing; otherwise one localised record per cottage, in order |

## Left out

- Floating point: money is `real` and the rating average is exact. JavaScript doubles, their rounding and `toFixed` are not modelled.
- Strings are sequences of code points. UTF-16 units are not modelled, and `toLowerCase` is modelled on ASCII letters only.
- Concurrency is not modelled: the check-then-lock race, parallel webhook deliveries, and the non-atomic find-then-create of the invoice counter. Executions are sequential.
- Timers and clocks are not modelled. The lock's `setTimeout` is the separate `Availability.ExpireLock` method, and the current time and year are parameters. `expiresAt` is never stored by the source, so it has no counterpart.
- Stripe is not modelled. Signature verification, session creation and the lazy client are inputs (`Delivery`, `StripeOutcome`). The webhook reads the session's metadata as an input; the checkout states what it sends (`SessionRequest`) but not the product name, description, URLs or customer e-mail of that request, nor the `url` of the response.
- DownloadImages.LocalizedKeepsFields: the record is the scraper's `ScrapedCottage`. The fields the app's cottages.json entries also carry (`address`, `location`, `practicalInfo`) are kept by `{...cottage, images}` but are not part of the model's record, so "only hero and gallery change" is proved for the scraper's fields only.
- ical.js text parsing and serialisation are not modelled. A feed is a list of `(start, end, uid)` events and the export is a record of events, not text.
- pdfkit drawing is not modelled. The invoice document is its number, its nights, its line items and its total.
- Playwright is not modelled. Each page is loaded-with-content or failed. The CSS `url(...)` extraction and `extractContent` (title, facts and amenities regexes) are not part of this model.
- sharp conversion and https downloads, redirects included, are not modelled. Each becomes a success/failure oracle, `ok(file, size)` or `fetched(url, path)`.
- File-system writes (manifest, JSON, images), directory creation and console output are not modelled.
- `spawnSync` and the shell are not modelled. A child process is its `SpawnResult`.
- `process.exit(null)` is read as exit code 0.
- Windows path and `prisma.cmd` variants are not modelled.
- The migrate step's status in `build-with-env.mjs` is ignored, as the script ignores it.
- Prisma behaviour beyond the tables' unique constraints is not modelled: an invalid `Date` from a malformed date string, and a non-numeric tax rate (NaN), are not modelled. `DatesValid` stands for the dates parsing.
- Reviews.GetAllReviewsWithSlug: the order among reviews with equal dates is not stated. JavaScript's sort is stable; the model's insertion sort is stable too, but that is not proved.
- Reviews.GetBestRatedReviews: the same holds for ties in rating and date.
- OptimizeImages.Optimize: two source files with the same base name share one manifest key, and the later one wins. The contract states membership, not which file wins.
- Availability.CheckAvailability: a booking query and a block query run one after the other. Only their combined answer is stated.
- React pages, the admin and list routes, the middleware, `seed.ts`, `next.config.js` and the favicon script are not part of this model.

## Findings

| source | as written | input that shows it | evidently intended | confidence | as-written member | corrected member |
|---|---|---|---|---|---|---|
| apps/web/src/app/api/stripe/webhook/route.ts:97-102 | The handler draws an invoice number, then calls `generateInvoicePDF` with `invoice: null`, which draws a second number for the PDF (apps/web/src/lib/invoice.ts:42). The stored invoice has number c+1, its PDF prints c+2, and the year's counter advances by 2. | Any first payment of a booking whose cottage and user exist, e.g. counter 0 in 2025: row `GC-2025-000001`, PDF `GC-2025-000002`. | One number per invoice: the drawn number is handed to the PDF, and the counter advances by 1. | not executed | StripeWebhook.IssueInvoiceAsWritten | StripeWebhook.IssueInvoice |

`StripeWebhook.HandleWebhook` runs the invoice step as written; `StripeWebhook.HandleWebhookCorrected` is the same handler running the corrected step.

=== FILE: availability.dfy ===
/** Whether a date range is free for a cottage, and the temporary lock a checkout
    holds on it (`lib/availability.ts`). */
module Availability {
  import opened Wrappers
  import opened Text
  import opened Seqs
  import opened Store

  /** The three OR-ed clauses both conflict queries use, for a stored range
      [s, e) against the requested range [start, end). */
  predicate ClausesMatch(s: Instant, e: Instant, start: Instant, end: Instant) {
    || (s <= start && e > start)
    || (s < end && e >= end)
    || (s >= start && e <= end)
  }

  /** Overlap of the half-open ranges [s, e) and [start, end). */
  predicate Overlaps(s: Instant, e: Instant, start: Instant, end: Instant) {
    s < end && start < e
  }

  /** For non-empty ranges the three clauses are exactly half-open overlap. */
  lemma ClausesAreOverlap(s: Instant, e: Instant, start: Instant, end: Instant)
    requires s < e && start < end
    ensures ClausesMatch(s, e, start, end) <==> Overlaps(s, e, start, end)
  {
  }

  /** A stored range that ends where the request starts, or starts where it
      ends, does not conflict. */
  lemma TouchingDoesNotConflict(s: Instant, e: Instant, start: Instant, end: Instant)
    requires s < e && start < end
    requires e == start || s == end
    ensures !ClausesMatch(s, e, start, end)
  {
  }

  /** A zero-length stored range [p, p) at the start of the request still
      matches the clauses (the third one, not the first), although it
      overlaps nothing. */
  lemma EmptyRecordStillMatches(p: Instant, start: Instant, end: Instant)
    requires p == start <= end
    ensures ClausesMatch(p, p, start, end)
    ensures !(p <= start && p > start) && (p >= start && p <= end)
    ensures !Overlaps(p, p, start, end)
  {
  }

  /** The booking query: same cottage, PENDING or PAID, matching clauses, and
      not the excluded booking. */
  predicate BookingConflicts(b: Booking, cottageId: Id, start: Instant, end: Instant, exclude: Option<Id>) {
    && b.cottageId == cottageId
    && (b.status == Pending || b.status == Paid)
    && ClausesMatch(b.startDate, b.endDate, start, end)
    && (exclude.Some? ==> b.id != exclude.value)
  }

  /** The block query: same cottage and matching clauses, whatever the source. */
  predicate BlockConflicts(k: Block, cottageId: Id, start: Instant, end: Instant) {
    k.cottageId == cottageId && ClausesMatch(k.startDate, k.endDate, start, end)
  }

  /** The answer `checkAvailability` must give: no conflicting booking and no
      conflicting block. */
  predicate IsFree(bookings: seq<Booking>, blocks: seq<Block>, cottageId: Id, start: Instant, end: Instant, exclude: Option<Id>) {
    && (forall i :: 0 <= i < |bookings| ==> !BookingConflicts(bookings[i], cottageId, start, end, exclude))
    && (forall i :: 0 <= i < |blocks| ==> !BlockConflicts(blocks[i], cottageId, start, end))
  }

  /** `checkAvailability`: a first-match query on bookings, then one on blocks.
      It changes nothing in the store. */
  method CheckAvailability(db: Database, cottageId: Id, start: Instant, end: Instant, exclude: Option<Id>)
    returns (available: bool)
    ensures available <==> IsFree(db.bookings, db.blocks, cottageId, start, end, exclude)
  {
    var conflictingBooking := FindFirst(db.bookings, b => BookingConflicts(b, cottageId, start, end, exclude));
    if conflictingBooking.Some? {
      return false;
    }
    var conflictingBlock := FindFirst(db.blocks, k => BlockConflicts(k, cottageId, start, end));
    if conflictingBlock.Some? {
      return false;
    }
    return true;
  }

  /** A cancelled booking never makes a range unavailable. */
  lemma CancelledNeverBlocks(bookings: seq<Booking>, blocks: seq<Block>, b: Booking,
                             cottageId: Id, start: Instant, end: Instant, exclude: Option<Id>)
    requires b.status == Cancelled
    ensures IsFree(bookings + [b], blocks, cottageId, start, end, exclude)
        <==> IsFree(bookings, blocks, cottageId, start, end, exclude)
  {
    var all := bookings + [b];
    if IsFree(bookings, blocks, cottageId, start, end, exclude) {
      forall i | 0 <= i < |all|
        ensures !BookingConflicts(all[i], cottageId, start, end, exclude)
      {
        if i < |bookings| { assert all[i] == bookings[i]; }
      }
    } else if IsFree(all, blocks, cottageId, start, end, exclude) {
      forall i | 0 <= i < |bookings|
        ensures !BookingConflicts(bookings[i], cottageId, start, end, exclude)
      {
        assert all[i] == bookings[i];
      }
    }
  }

  /** A PENDING or PAID booking that overlaps the request makes it unavailable,
      whatever the blocks are (so a PENDING booking keeps blocking after its
      lock is gone), unless it is the excluded booking. */
  lemma ActiveBookingBlocks(bookings: seq<Booking>, blocks: seq<Block>, i: nat,
                            start: Instant, end: Instant, exclude: Option<Id>)
    requires i < |bookings|
    requires bookings[i].status == Pending || bookings[i].status == Paid
    requires bookings[i].startDate < bookings[i].endDate && start < end
    requires Overlaps(bookings[i].startDate, bookings[i].endDate, start, end)
    requires exclude.None? || exclude.value != bookings[i].id
    ensures !IsFree(bookings, blocks, bookings[i].cottageId, start, end, exclude)
  {
    assert BookingConflicts(bookings[i], bookings[i].cottageId, start, end, exclude);
  }

  /** Every overlapping block makes the request unavailable, INTERNAL or ICAL,
      and no booking exclusion lifts it. */
  lemma EveryBlockBlocks(bookings: seq<Booking>, blocks: seq<Block>, i: nat,
                         start: Instant, end: Instant, exclude: Option<Id>)
    requires i < |blocks|
    requires blocks[i].startDate < blocks[i].endDate && start < end
    requires Overlaps(blocks[i].startDate, blocks[i].endDate, start, end)
    ensures !IsFree(bookings, blocks, blocks[i].cottageId, start, end, exclude)
  {
    assert BlockConflicts(blocks[i], blocks[i].cottageId, start, end);
  }

  /** Excluding a booking id is the same as asking without that booking: the
      exclusion never reaches the blocks. */
  lemma {:induction false} ExcludeSkipsOnlyThatBooking(bookings: seq<Booking>, blocks: seq<Block>,
                                                       cottageId: Id, start: Instant, end: Instant, x: Id)
    ensures IsFree(bookings, blocks, cottageId, start, end, Some(x))
        <==> IsFree(Filter(bookings, (b: Booking) => b.id != x), blocks, cottageId, start, end, None)
  {
    var kept := Filter(bookings, (b: Booking) => b.id != x);
    if IsFree(bookings, blocks, cottageId, start, end, Some(x)) {
      forall j | 0 <= j < |kept|
        ensures !BookingConflicts(kept[j], cottageId, start, end, None)
      {
        assert kept[j] in bookings;
        var i :| 0 <= i < |bookings| && bookings[i] == kept[j];
        assert !BookingConflicts(bookings[i], cottageId, start, end, Some(x));
      }
    }
    if IsFree(kept, blocks, cottageId, start, end, None) {
      forall i | 0 <= i < |bookings|
        ensures !BookingConflicts(bookings[i], cottageId, start, end, Some(x))
      {
        if bookings[i].id != x {
          assert bookings[i] in kept;
          var j :| 0 <= j < |kept| && kept[j] == bookings[i];
          assert !BookingConflicts(kept[j], cottageId, start, end, None);
        }
      }
    }
  }

  /** When every PENDING/PAID booking and every block of the cottage lies
      entirely before or entirely after the request (touching allowed), the
      request is free. */
  lemma DisjointIsFree(bookings: seq<Booking>, blocks: seq<Block>, cottageId: Id, start: Instant, end: Instant)
    requires start < end
    requires forall i :: 0 <= i < |bookings| && bookings[i].cottageId == cottageId ==>
      bookings[i].startDate < bookings[i].endDate
      && (bookings[i].endDate <= start || bookings[i].startDate >= end)
    requires forall i :: 0 <= i < |blocks| && blocks[i].cottageId == cottageId ==>
      blocks[i].startDate < blocks[i].endDate
      && (blocks[i].endDate <= start || blocks[i].startDate >= end)
    ensures IsFree(bookings, blocks, cottageId, start, end, None)
  {
  }

  /** The `sourceRef` a lock carries: `temp-lock-<now>`. */
  function TempLockRef(now: nat): (r: string)
    ensures StartsWith(r, "temp-lock-")
  {
    "temp-lock-" + NatToString(now)
  }

  /** The blocks left after deleting the block with this id. */
  function RemoveBlock(blocks: seq<Block>, id: Id): (r: seq<Block>)
    ensures forall k :: k in r <==> k in blocks && k.id != id
  {
    Filter(blocks, (k: Block) => k.id != id)
  }

  /** A block added to the store makes every overlapping request on its
      cottage unavailable. */
  lemma AddedBlockBlocks(bookings: seq<Booking>, blocks: seq<Block>, k: Block,
                         start: Instant, end: Instant, exclude: Option<Id>)
    requires k.startDate < k.endDate && start < end
    requires Overlaps(k.startDate, k.endDate, start, end)
    ensures !IsFree(bookings, blocks + [k], k.cottageId, start, end, exclude)
  {
    EveryBlockBlocks(bookings, blocks + [k], |blocks|, start, end, exclude);
  }

  /** Deleting a lock that was just added gives back the blocks as they were. */
  lemma {:induction false} RemoveAddedBlock(blocks: seq<Block>, k: Block)
    requires forall i :: 0 <= i < |blocks| ==> blocks[i].id != k.id
    ensures RemoveBlock(blocks + [k], k.id) == blocks
  {
    var p := (b: Block) => b.id != k.id;
    FilterAppend(blocks, [k], p);
    FilterKeepsAll(blocks, p);
  }

  /** Deleting an id that is not there (a lock already gone) changes nothing. */
  lemma {:induction false} RemoveMissingBlock(blocks: seq<Block>, id: Id)
    requires forall i :: 0 <= i < |blocks| ==> blocks[i].id != id
    ensures RemoveBlock(blocks, id) == blocks
  {
    FilterKeepsAll(blocks, (b: Block) => b.id != id);
  }

  /** Lock lifecycle: while the lock is there an overlapping request is
      refused; once it expires, every request gets the answer it had before
      the lock was taken. */
  lemma LockLifecycle(bookings: seq<Booking>, blocks: seq<Block>, k: Block,
                      start: Instant, end: Instant, exclude: Option<Id>)
    requires forall i :: 0 <= i < |blocks| ==> blocks[i].id != k.id
    requires k.startDate < k.endDate && start < end
    ensures Overlaps(k.startDate, k.endDate, start, end) ==>
      !IsFree(bookings, blocks + [k], k.cottageId, start, end, exclude)
    ensures IsFree(bookings, RemoveBlock(blocks + [k], k.id), k.cottageId, start, end, exclude)
        == IsFree(bookings, blocks, k.cottageId, start, end, exclude)
  {
    if Overlaps(k.startDate, k.endDate, start, end) {
      AddedBlockBlocks(bookings, blocks, k, start, end, exclude);
    }
    RemoveAddedBlock(blocks, k);
  }

  /** `createTemporaryLock`: inserts one INTERNAL block for the cottage and the
      dates and returns its id. The expiry time it computes is never stored;
      expiry is `ExpireLock`. */
  method CreateTemporaryLock(db: Database, cottageId: Id, start: Instant, end: Instant, now: nat)
    returns (lockId: Id)
    requires db.Valid()
    modifies db
    ensures db.Valid()
    ensures lockId == old(db.nextId) && db.nextId == old(db.nextId) + 1
    ensures forall i :: 0 <= i < |old(db.blocks)| ==> old(db.blocks)[i].id != lockId
    ensures db.blocks == old(db.blocks) + [Block(lockId, cottageId, start, end, Internal, Some(TempLockRef(now)))]
    ensures db.bookings == old(db.bookings) && db.invoices == old(db.invoices)
    ensures db.counters == old(db.counters) && db.feeds == old(db.feeds)
    ensures db.cottages == old(db.cottages) && db.users == old(db.users) && db.reviews == old(db.reviews)
    ensures start < end ==> forall s, e, x {:trigger IsFree(db.bookings, db.blocks, cottageId, s, e, x)} ::
      s < e && Overlaps(start, end, s, e) ==> !IsFree(db.bookings, db.blocks, cottageId, s, e, x)
  {
    lockId := db.nextId;
    var lock := Block(lockId, cottageId, start, end, Internal, Some(TempLockRef(now)));
    db.blocks := db.blocks + [lock];
    db.nextId := db.nextId + 1;
    if start < end {
      forall s, e, x | s < e && Overlaps(start, end, s, e)
        ensures !IsFree(db.bookings, db.blocks, cottageId, s, e, x)
      {
        AddedBlockBlocks(db.bookings, old(db.blocks), lock, s, e, x);
      }
    }
  }

  /** The timer that fires when the lock's time is up: deletes exactly that
      block, and does nothing if it is already gone. */
  method ExpireLock(db: Database, lockId: Id)
    requires db.Valid()
    modifies db
    ensures db.Valid()
    ensures db.blocks == RemoveBlock(old(db.blocks), lockId)
    ensures db.nextId == old(db.nextId)
    ensures db.bookings == old(db.bookings) && db.invoices == old(db.invoices)
    ensures db.counters == old(db.counters) && db.feeds == old(db.feeds)
    ensures db.cottages == old(db.cottages) && db.users == old(db.users) && db.reviews == old(db.reviews)
  {
    FilterKeepsIds(db.blocks, (k: Block) => k.id != lockId, db.nextId);
    db.blocks := RemoveBlock(db.blocks, lockId);
  }

  /** Deleting blocks, whatever the condition, keeps the block keys valid. */
  lemma {:induction false} FilterKeepsIds(blocks: seq<Block>, p: Block -> bool, next: Id)
    requires BlockIdsBelow(blocks, next) && BlockIdsDistinct(blocks)
    ensures BlockIdsBelow(Filter(blocks, p), next) && BlockIdsDistinct(Filter(blocks, p))
  {
    if blocks != [] {
      FilterKeepsIds(blocks[1..], p, next);
      var rest := Filter(blocks[1..], p);
      if p(blocks[0]) {
        assert Filter(blocks, p) == [blocks[0]] + rest;
        forall j | 0 <= j < |rest| ensures rest[j].id != blocks[0].id {
          assert rest[j] in blocks[1..];
        }
      } else {
        assert Filter(blocks, p) == rest;
      }
    }
  }

  /** Concrete scenario: a booking from day 10 to day 15 leaves days 5 to 10
      and 15 to 20 free and makes 12 to 20 unavailable. */
  lemma BookedWeekScenario(b: Booking)
    requires b.cottageId == 1 && b.status == Paid
    requires b.startDate == 10 * MS_PER_DAY && b.endDate == 15 * MS_PER_DAY
    ensures IsFree([b], [], 1, 5 * MS_PER_DAY, 10 * MS_PER_DAY, None)
    ensures !IsFree([b], [], 1, 12 * MS_PER_DAY, 20 * MS_PER_DAY, None)
    ensures IsFree([b], [], 1, 15 * MS_PER_DAY, 20 * MS_PER_DAY, None)
  {
    assert BookingConflicts([b][0], 1, 12 * MS_PER_DAY, 20 * MS_PER_DAY, None);
  }
}

=== FILE: build_env.dfy ===
/** The build wrapper script: it loads `.env` files with a small line parser,
    merges them over the process environment, makes sure `DATABASE_URL` is
    set, and then runs `prisma generate`, `prisma migrate deploy` and
    `next build`, turning their statuses into its own exit code. */
module BuildWithEnv {
  import opened Wrappers
  import opened Text

  /** A JavaScript object of environment variables. */
  type Env = map<string, string>

  const DATABASE_URL: string := "DATABASE_URL"
  const PRISMA_DATABASE_URL: string := "PRISMA_DATABASE_URL"
  const POSTGRES_URL: string := "POSTGRES_URL"
  const NPM_CONFIG_PREFIX: string := "npm_config_"

  predicate IsQuote(c: char) { c == '"' || c == '\'' }

  /** A line whose first non-blank character is `#`. */
  predicate IsComment(line: string) {
    StartsWith(TrimStart(line), "#")
  }

  /** Removes one matching outer pair of `"` or `'`; `slice(1, -1)` of a lone
      quote is the empty string. Anything else is kept as it is. */
  function StripQuotes(v: string): (r: string)
    ensures |v| >= 2 && IsQuote(v[0]) && v[|v| - 1] == v[0] ==> r == v[1..|v| - 1]
    ensures |v| == 1 && IsQuote(v[0]) ==> r == ""
    ensures !(v != [] && IsQuote(v[0]) && v[|v| - 1] == v[0]) ==> r == v
  {
    if v != [] && IsQuote(v[0]) && v[|v| - 1] == v[0] then
      (if |v| >= 2 then v[1..|v| - 1] else "")
    else v
  }

  /** One line of an env file: the trimmed text before the first `=` is the
      key, the trimmed and unquoted rest is the value. Lines without `=`, lines
      starting with `=` and comment lines give nothing. */
  function ParseLine(line: string): (r: Option<(string, string)>)
    ensures r.Some? <==> '=' in line && line[0] != '=' && !IsComment(line)
    ensures r.Some? ==> '=' !in r.value.0
    ensures r.Some? ==> r.value.0 == [] || (!IsSpace(r.value.0[0]) && !IsSpace(r.value.0[|r.value.0| - 1]))
  {
    match IndexOfChar(line, '=')
    case None => None
    case Some(idx) =>
      if idx == 0 || IsComment(line) then None
      else Some((Trim(line[..idx]), StripQuotes(Trim(line[idx + 1..]))))
  }

  /** The split happens at the FIRST `=`: any later `=` stays in the value. */
  lemma SplitsAtFirstEquals(k: string, v: string)
    requires k != [] && '=' !in k
    requires !IsComment(k + "=" + v)
    ensures ParseLine(k + "=" + v) == Some((Trim(k), StripQuotes(Trim(v))))
  {
    var line := k + "=" + v;
    assert line[..|k|] == k;
    assert line[|k| + 1..] == v;
    FirstEqualsAt(k, v);
  }

  lemma FirstEqualsAt(k: string, v: string)
    requires '=' !in k
    ensures IndexOfChar(k + "=" + v, '=') == Some(|k|)
  {
    var line := k + "=" + v;
    assert line[|k|] == '=';
    var idx := IndexOfChar(line, '=').value;
    assert line[..|k|] == k;
  }

  /** The variables the lines define, read top to bottom: a later line
      overwrites an earlier one with the same key. */
  function EnvFromLines(lines: seq<string>): (env: Env)
  {
    if lines == [] then map[] else Assign(EnvFromLines(lines[..|lines| - 1]), lines[|lines| - 1])
  }

  /** `env[key] = value` for a line that defines a variable. */
  function Assign(env: Env, line: string): Env {
    match ParseLine(line)
    case None => env
    case Some(kv) => env[kv.0 := kv.1]
  }

  lemma AssignOther(env: Env, line: string, k: string)
    requires !Defines(line, k)
    ensures k in Assign(env, line) <==> k in env
    ensures k in env ==> Assign(env, line)[k] == env[k]
  {
  }

  /** `loadEnvFile`'s loop: the object it builds from the file's lines. */
  method ParseEnv(raw: string) returns (env: Env)
    ensures env == EnvFromLines(Split(raw, '\n'))
  {
    var lines := Split(raw, '\n');
    env := map[];
    var i := 0;
    while i < |lines|
      invariant 0 <= i <= |lines|
      invariant env == EnvFromLines(lines[..i])
    {
      assert lines[..i + 1][..i] == lines[..i];
      var parsed := ParseLine(lines[i]);
      if parsed.Some? {
        env := env[parsed.value.0 := parsed.value.1];
      }
      assert env == Assign(EnvFromLines(lines[..i]), lines[i]);
      i := i + 1;
    }
    assert lines[..|lines|] == lines;
  }

  /** `loadEnvFile`: a missing file defines nothing. */
  method LoadEnvFile(exists_: bool, raw: string) returns (env: Env)
    ensures !exists_ ==> env == map[]
    ensures exists_ ==> env == EnvFromLines(Split(raw, '\n'))
  {
    if !exists_ {
      return map[];
    }
    env := ParseEnv(raw);
  }

  /** A key is defined exactly when some line parses to it. */
  lemma {:induction false} EnvKeys(lines: seq<string>, k: string)
    ensures k in EnvFromLines(lines) <==> exists i :: 0 <= i < |lines| && Defines(lines[i], k)
  {
    if lines != [] {
      var init := lines[..|lines| - 1];
      var last := lines[|lines| - 1];
      EnvKeys(init, k);
      if Defines(last, k) {
        assert k in EnvFromLines(lines);
      } else {
        AssignOther(EnvFromLines(init), last, k);
        if k in EnvFromLines(init) {
          var i :| 0 <= i < |init| && Defines(init[i], k);
          assert lines[i] == init[i];
        }
        if exists i :: 0 <= i < |lines| && Defines(lines[i], k) {
          var i :| 0 <= i < |lines| && Defines(lines[i], k);
          assert init[i] == lines[i];
        }
      }
    }
  }

  /** For a repeated key, the value on the last line defining it wins. */
  lemma {:induction false} LastLineWins(lines: seq<string>, i: nat, k: string, v: string)
    requires i < |lines| && ParseLine(lines[i]) == Some((k, v))
    requires forall j :: i < j < |lines| ==> !Defines(lines[j], k)
    ensures k in EnvFromLines(lines) && EnvFromLines(lines)[k] == v
  {
    var init := lines[..|lines| - 1];
    if i < |lines| - 1 {
      AssignOther(EnvFromLines(init), lines[|lines| - 1], k);
      forall j | i < j < |init|
        ensures !Defines(init[j], k)
      {
        assert init[j] == lines[j];
      }
      assert init[i] == lines[i];
      LastLineWins(init, i, k, v);
    }
  }

  /** The line sets variable `k`. */
  predicate Defines(line: string, k: string) {
    ParseLine(line).Some? && ParseLine(line).value.0 == k
  }

  /** The process variables the script keeps, read in order: those with a
      value whose name does not start with `npm_config_`. */
  function ProcessEnv(entries: seq<(string, Option<string>)>): (env: Env)
  {
    if entries == [] then map[]
    else
      var env := ProcessEnv(entries[..|entries| - 1]);
      var (k, v) := entries[|entries| - 1];
      if v.None? || StartsWith(k, NPM_CONFIG_PREFIX) then env else env[k := v.value]
  }

  lemma {:induction false} ProcessEnvKeys(entries: seq<(string, Option<string>)>, k: string)
    ensures k in ProcessEnv(entries) <==>
      !StartsWith(k, NPM_CONFIG_PREFIX) && exists i :: 0 <= i < |entries| && entries[i].0 == k && entries[i].1.Some?
  {
    if entries != [] {
      var init := entries[..|entries| - 1];
      ProcessEnvKeys(init, k);
      if exists i :: 0 <= i < |init| && init[i].0 == k && init[i].1.Some? {
        var i :| 0 <= i < |init| && init[i].0 == k && init[i].1.Some?;
        assert entries[i] == init[i];
      }
      if exists i :: 0 <= i < |entries| && entries[i].0 == k && entries[i].1.Some? {
        var i :| 0 <= i < |entries| && entries[i].0 == k && entries[i].1.Some?;
        if i < |entries| - 1 {
          assert init[i] == entries[i];
        }
      }
    }
  }

  /** The merge: the filtered process environment, then `Object.assign` of
      `.env`, then of `.env.local`. */
  method MergeEnv(entries: seq<(string, Option<string>)>, dotEnv: Env, dotEnvLocal: Env) returns (env: Env)
    ensures env == ProcessEnv(entries) + dotEnv + dotEnvLocal
  {
    env := map[];
    var i := 0;
    while i < |entries|
      invariant 0 <= i <= |entries|
      invariant env == ProcessEnv(entries[..i])
    {
      assert entries[..i + 1][..i] == entries[..i];
      var (k, v) := entries[i];
      if v.Some? && !StartsWith(k, NPM_CONFIG_PREFIX) {
        env := env[k := v.value];
      }
      i := i + 1;
    }
    assert entries[..|entries|] == entries;
    env := env + dotEnv;
    env := env + dotEnvLocal;
  }

  /** `.env.local` overrides `.env`, which overrides the process; an
      `npm_config_` name can only come from a file. */
  lemma MergePrecedence(entries: seq<(string, Option<string>)>, dotEnv: Env, dotEnvLocal: Env, k: string)
    ensures var env := ProcessEnv(entries) + dotEnv + dotEnvLocal;
      && (k in dotEnvLocal ==> k in env && env[k] == dotEnvLocal[k])
      && (k !in dotEnvLocal && k in dotEnv ==> k in env && env[k] == dotEnv[k])
      && (k !in dotEnvLocal && k !in dotEnv ==>
            (k in env <==> !StartsWith(k, NPM_CONFIG_PREFIX) && exists i :: 0 <= i < |entries| && entries[i].0 == k && entries[i].1.Some?))
  {
    ProcessEnvKeys(entries, k);
  }

  /** A JavaScript truthiness test of `env[k]`: defined and not empty. */
  predicate IsSet(env: Env, k: string) {
    k in env && env[k] != ""
  }

  /** An unset `DATABASE_URL` is taken from `PRISMA_DATABASE_URL`, else from
      `POSTGRES_URL`; when none of the three is set the script exits with 1. */
  function FillDatabaseUrl(env: Env): (r: Result<Env, int>)
    ensures r.Err? <==> !IsSet(env, DATABASE_URL) && !IsSet(env, PRISMA_DATABASE_URL) && !IsSet(env, POSTGRES_URL)
    ensures r.Err? ==> r.error == 1
    ensures r.Ok? ==> IsSet(r.value, DATABASE_URL)
    ensures r.Ok? && IsSet(env, DATABASE_URL) ==> r.value == env
    ensures r.Ok? && !IsSet(env, DATABASE_URL) ==>
      r.value == env[DATABASE_URL := if IsSet(env, PRISMA_DATABASE_URL) then env[PRISMA_DATABASE_URL] else env[POSTGRES_URL]]
  {
    var filled :=
      if !IsSet(env, DATABASE_URL) && (IsSet(env, PRISMA_DATABASE_URL) || IsSet(env, POSTGRES_URL)) then
        env[DATABASE_URL := if IsSet(env, PRISMA_DATABASE_URL) then env[PRISMA_DATABASE_URL] else env[POSTGRES_URL]]
      else env;
    if !IsSet(filled, DATABASE_URL) then Err(1) else Ok(filled)
  }

  /** The exit code after the database URL check passed: a failed
      `prisma generate` stops the build with its status (1 when it has none);
      a failed `migrate deploy` is only reported; the exit code is then that of
      `next build` (1 when it has none). */
  function BuildExitCode(generate: Option<int>, nextBuild: Option<int>): (code: int)
    ensures code == 0 <==> generate == Some(0) && nextBuild == Some(0)
    ensures generate != Some(0) ==> code == generate.GetOr(1)
    ensures generate == Some(0) ==> code == nextBuild.GetOr(1)
  {
    if generate != Some(0) then generate.GetOr(1) else nextBuild.GetOr(1)
  }

  /** The whole script: the environment the child commands run with (none when
      the script stops before them) and the exit code. The statuses of the
      commands are inputs; `migrate deploy`'s does not matter. */
  method Build(entries: seq<(string, Option<string>)>, dotEnvExists: bool, dotEnvRaw: string,
               localExists: bool, localRaw: string, generate: Option<int>, nextBuild: Option<int>)
    returns (childEnv: Option<Env>, code: int)
    ensures var merged := ProcessEnv(entries)
        + (if dotEnvExists then EnvFromLines(Split(dotEnvRaw, '\n')) else map[])
        + (if localExists then EnvFromLines(Split(localRaw, '\n')) else map[]);
      match FillDatabaseUrl(merged)
      case Err(e) => childEnv == None && code == 1
      case Ok(env) => childEnv == Some(env) && code == BuildExitCode(generate, nextBuild)
  {
    var dotEnv := LoadEnvFile(dotEnvExists, dotEnvRaw);
    var dotEnvLocal := LoadEnvFile(localExists, localRaw);
    var merged := MergeEnv(entries, dotEnv, dotEnvLocal);
    match FillDatabaseUrl(merged)
    case Err(e) =>
      childEnv, code := None, e;
    case Ok(env) =>
      childEnv, code := Some(env), BuildExitCode(generate, nextBuild);
  }
}

=== FILE: checkout.dfy ===
/** The checkout endpoint (`POST /api/bookings/checkout`): validates the
    request, checks availability, prices the stay, takes a temporary lock,
    records a pending booking and attaches the payment session to it. */
module Checkout {
  import opened Wrappers
  import opened Text
  import opened Seqs
  import opened Store
  import opened Availability
  import Invoicing

  const DEFAULT_TOURIST_TAX_RATE: real := 2.5

  /** A date field of the body: missing or not a string, or a string that
      `new Date` turns into an instant (`None` for an invalid date). */
  datatype DateField = DateMissing | DateText(value: Option<Instant>)

  /** `options`: absent, a record (with whether `cleaning` is truthy), or not a record. */
  datatype OptionsField = NoOptions | OptionsRecord(cleaning: bool) | OptionsInvalid

  datatype CheckoutBody = CheckoutBody(
    cottageId: Option<Id>,
    startDate: DateField,
    endDate: DateField,
    guests: Option<real>,
    options: OptionsField)

  /** The schema: a cottage id, two date strings, an integer number of guests
      of at least 1, and optional options. */
  predicate SchemaValid(b: CheckoutBody): (ok: bool)
    ensures ok ==> b.guests.Some? && b.guests.value.Floor as real == b.guests.value && b.guests.value.Floor >= 1
    ensures ok ==> b.options.NoOptions? || b.options.OptionsRecord?
  {
    && b.cottageId.Some? && b.startDate.DateText? && b.endDate.DateText?
    && b.guests.Some? && b.guests.value == b.guests.value.Floor as real && b.guests.value >= 1.0
    && !b.options.OptionsInvalid?
  }

  /** Both dates parse to instants; an invalid date makes the first query fail. */
  predicate DatesValid(b: CheckoutBody)
    requires SchemaValid(b)
  {
    b.startDate.value.Some? && b.endDate.value.Some?
  }

  function WantsCleaning(o: OptionsField): bool {
    o.OptionsRecord? && o.cleaning
  }

  /** `parseFloat(process.env.TOURIST_TAX_DEFAULT || '2.5')`; `None` when unset or empty. */
  function TaxRate(configured: Option<real>): real {
    if configured.Some? then configured.value else DEFAULT_TOURIST_TAX_RATE
  }

  datatype Quote = Quote(nights: int, base: real, cleaning: real, touristTax: real, subtotal: real, total: real)

  /** The price of a stay: the nightly price times the started nights, the
      cleaning fee when asked for and set, and the tourist tax as a percentage
      of both. */
  function PriceStay(c: Cottage, start: Instant, end: Instant, wantsCleaning: bool, rate: real): (q: Quote)
    ensures q.nights == Nights(start, end) && q.base == c.basePrice * q.nights as real
    ensures q.cleaning == if wantsCleaning && FeeIsSet(c.cleaningFee) then c.cleaningFee.value else 0.0
    ensures q.subtotal == q.base + q.cleaning
    ensures q.touristTax == q.subtotal * rate / 100.0
    ensures q.total == q.subtotal + q.touristTax
  {
    var nights := Nights(start, end);
    var base := c.basePrice * nights as real;
    var cleaning := if wantsCleaning && FeeIsSet(c.cleaningFee) then c.cleaningFee.value else 0.0;
    var tax := (base + cleaning) * (rate / 100.0);
    Quote(nights, base, cleaning, tax, base + cleaning, base + cleaning + tax)
  }

  /** `Math.round(total * 100)`: the amount charged, in cents. */
  function AmountInCents(total: real): (cents: int)
    ensures total * 100.0 - 0.5 < cents as real <= total * 100.0 + 0.5
  {
    Round(total * 100.0)
  }

  /** With the default rate the total is the subtotal plus 2.5 percent. */
  lemma DefaultRateTotal(c: Cottage, start: Instant, end: Instant, wantsCleaning: bool)
    ensures PriceStay(c, start, end, wantsCleaning, TaxRate(None)).total
         == PriceStay(c, start, end, wantsCleaning, TaxRate(None)).subtotal * 1.025
  {
  }

  /** A stay of `n` whole days is charged `n` nights; a stay one millisecond
      into the next day is charged one more. */
  lemma NightsOfWholeDays(start: Instant, n: nat)
    ensures Nights(start, start + n * MS_PER_DAY) == n
    ensures Nights(start, start + n * MS_PER_DAY + 1) == n + 1
  {
  }

  /** Dates in the wrong order are not refused: they give zero or fewer nights. */
  lemma ReversedDatesChargeNoNights(start: Instant, end: Instant)
    requires end <= start
    ensures Nights(start, end) <= 0
  {
  }

  /** The booking written by checkout. */
  function PendingBooking(id: Id, cottageId: Id, userId: Id, start: Instant, end: Instant, guests: int,
                          cleaning: bool, q: Quote): (b: Booking)
    ensures b.status == Pending && b.stripeSessionId.None? && b.stripePaymentIntentId.None?
    ensures b.subtotal == q.subtotal && b.touristTax == q.touristTax && b.total == q.total
  {
    Booking(id, cottageId, userId, start, end, guests, cleaning, q.subtotal, q.touristTax, q.total, Pending, None, None)
  }

  /** The invoice of a booking made at checkout lists amounts that add up to
      the booking's total, provided the tax rate is not negative and the
      cottage's prices have not changed since. */
  lemma InvoiceAddsUpToTotal(c: Cottage, id: Id, userId: Id, start: Instant, end: Instant, guests: int,
                             cleaning: bool, rate: real)
    requires start <= end && rate >= 0.0 && c.basePrice >= 0.0
    requires c.cleaningFee.Some? ==> c.cleaningFee.value >= 0.0
    ensures var q := PriceStay(c, start, end, cleaning, rate);
      LinesTotal(Invoicing.InvoiceLines(PendingBooking(id, c.id, userId, start, end, guests, cleaning, q), c)) == q.total
  {
    var q := PriceStay(c, start, end, cleaning, rate);
    var b := PendingBooking(id, c.id, userId, start, end, guests, cleaning, q);
    var lines := Invoicing.InvoiceLines(b, c);
    var nights := Nights(start, end);
    var stay := [StayLine(nights, c.basePrice * nights as real)];
    var cl := if b.cleaning && FeeIsSet(c.cleaningFee) then [CleaningLine(c.cleaningFee.value)] else [];
    var tax := if b.touristTax > 0.0 then [TouristTaxLine(b.touristTax)] else [];
    assert b.cleaning == cleaning && b.touristTax == q.touristTax;
    assert b.startDate == start && b.endDate == end;
    assert |lines| == |stay + cl + tax|;
    assert lines[0] == (stay + cl + tax)[0];
    assert lines == stay + cl + tax;
    LinesTotalAppend(stay + cl, tax);
    LinesTotalAppend(stay, cl);
    assert q.nights >= 0;
    assert q.base >= 0.0;
    assert q.subtotal >= 0.0;
    assert q.touristTax >= 0.0;
  }

  function LineAmount(l: LineItem): real {
    match l
    case StayLine(_, amount) => amount
    case CleaningLine(amount) => amount
    case TouristTaxLine(amount) => amount
  }

  function LinesTotal(lines: seq<LineItem>): real {
    if lines == [] then 0.0 else LineAmount(lines[0]) + LinesTotal(lines[1..])
  }

  lemma {:induction false} LinesTotalAppend(a: seq<LineItem>, b: seq<LineItem>)
    ensures LinesTotal(a + b) == LinesTotal(a) + LinesTotal(b)
  {
    if a != [] {
      assert (a + b)[1..] == a[1..] + b;
      LinesTotalAppend(a[1..], b);
    } else {
      assert a + b == b;
    }
  }

  /** How session creation with the payment provider ends. */
  datatype StripeOutcome = StripeUnconfigured | SessionFailed | SessionCreated(sessionId: string)

  /** What the client gets back: the status and, on success, the session id. */
  datatype CheckoutResponse = CheckoutResponse(status: int, sessionId: Option<string>)

  /** What the session request to the payment provider carries: the amount
      charged in cents (`unit_amount`) and the `metadata` the webhook reads. */
  datatype SessionRequest = SessionRequest(amountCents: int, bookingId: Id, lockId: string)

  /** A well-formed request with valid dates, from a signed-in user. */
  predicate Admissible(user: Option<Id>, body: Option<CheckoutBody>) {
    user.Some? && body.Some? && SchemaValid(body.value) && DatesValid(body.value)
  }

  function StartOf(body: CheckoutBody): Instant
    requires SchemaValid(body) && DatesValid(body)
  {
    body.startDate.value.value
  }

  function EndOf(body: CheckoutBody): Instant
    requires SchemaValid(body) && DatesValid(body)
  {
    body.endDate.value.value
  }

  /** The cottage a checkout may book: it exists and is active. */
  predicate Bookable(cottages: seq<Cottage>, id: Id) {
    CottageById(cottages, id).Some? && CottageById(cottages, id).value.isActive
  }

  /** `POST /api/bookings/checkout`. `user` is the signed-in user, `body`
      is `None` when the request is not JSON, `taxConfig` is the configured
      tourist tax rate, `now` the clock, `stripe` the provider's answer. */
  method Checkout(db: Database, user: Option<Id>, body: Option<CheckoutBody>, taxConfig: Option<real>,
                  now: nat, stripe: StripeOutcome)
    returns (resp: CheckoutResponse, request: Option<SessionRequest>)
    requires db.Valid()
    modifies db
    ensures db.Valid()
    ensures user.None? ==> resp.status == 401 && unchanged(db)
    ensures user.Some? && body.None? ==> resp.status == 500 && unchanged(db)
    ensures user.Some? && body.Some? && !SchemaValid(body.value) ==> resp.status == 400 && unchanged(db)
    ensures user.Some? && body.Some? && SchemaValid(body.value) && !DatesValid(body.value) ==>
      resp.status == 500 && unchanged(db)
    ensures Admissible(user, body) && !IsFree(old(db.bookings), old(db.blocks), body.value.cottageId.value,
                                              StartOf(body.value), EndOf(body.value), None) ==>
      resp.status == 400 && unchanged(db)
    ensures Admissible(user, body) && IsFree(old(db.bookings), old(db.blocks), body.value.cottageId.value,
                                             StartOf(body.value), EndOf(body.value), None)
            && !Bookable(old(db.cottages), body.value.cottageId.value) ==>
      resp.status == 404 && unchanged(db)
    ensures resp.status == 200 || resp.status == 503 || (resp.status == 500 && Admissible(user, body)) ==>
      && Admissible(user, body)
      && IsFree(old(db.bookings), old(db.blocks), body.value.cottageId.value, StartOf(body.value), EndOf(body.value), None)
      && Bookable(old(db.cottages), body.value.cottageId.value)
      && var b := body.value;
         var cid := b.cottageId.value;
         var q := PriceStay(CottageById(old(db.cottages), cid).value, StartOf(b), EndOf(b), WantsCleaning(b.options), TaxRate(taxConfig));
         var booking := PendingBooking(old(db.nextId) + 1, cid, user.value, StartOf(b), EndOf(b), b.guests.value.Floor,
                                       WantsCleaning(b.options), q);
         && db.blocks == old(db.blocks) + [Block(old(db.nextId), cid, StartOf(b), EndOf(b), Internal, Some(TempLockRef(now)))]
         && db.nextId == old(db.nextId) + 2
         && (resp.status == 200 <==> stripe.SessionCreated? && !SessionInUse(old(db.bookings), stripe.sessionId))
         && (resp.status == 200 ==>
               db.bookings == old(db.bookings) + [booking.(stripeSessionId := Some(stripe.sessionId))]
               && resp.sessionId == Some(stripe.sessionId))
         && (resp.status != 200 ==> db.bookings == old(db.bookings) + [booking])
         && (resp.status == 503 <==> stripe.StripeUnconfigured?)
         && (request.Some? <==> !stripe.StripeUnconfigured?)
         && (request.Some? ==>
               request.value == SessionRequest(AmountInCents(q.total), booking.id, NatToString(old(db.nextId))))
    ensures request.Some? ==> resp.status == 200 || resp.status == 500
    ensures resp.status in {200, 400, 401, 404, 500, 503}
    ensures resp.status != 200 ==> resp.sessionId.None?
    ensures db.invoices == old(db.invoices) && db.counters == old(db.counters) && db.feeds == old(db.feeds)
    ensures db.cottages == old(db.cottages) && db.users == old(db.users) && db.reviews == old(db.reviews)
  {
    if user.None? {
      return CheckoutResponse(401, None), None;
    }
    if body.None? {
      return CheckoutResponse(500, None), None;
    }
    var b := body.value;
    if !SchemaValid(b) {
      return CheckoutResponse(400, None), None;
    }
    if !DatesValid(b) {
      return CheckoutResponse(500, None), None;
    }
    var cid := b.cottageId.value;
    var start, end := StartOf(b), EndOf(b);
    var available := CheckAvailability(db, cid, start, end, None);
    if !available {
      return CheckoutResponse(400, None), None;
    }
    var cottage := CottageById(db.cottages, cid);
    if cottage.None? || !cottage.value.isActive {
      return CheckoutResponse(404, None), None;
    }
    var q := PriceStay(cottage.value, start, end, WantsCleaning(b.options), TaxRate(taxConfig));
    var lockId := CreateTemporaryLock(db, cid, start, end, now);
    var bookingId := CreateBooking(db, PendingBooking(db.nextId, cid, user.value, start, end, b.guests.value.Floor,
                                                      WantsCleaning(b.options), q));
    if stripe.StripeUnconfigured? {
      return CheckoutResponse(503, None), None;
    }
    request := Some(SessionRequest(AmountInCents(q.total), bookingId, NatToString(lockId)));
    match stripe {
      case SessionFailed =>
        resp := CheckoutResponse(500, None);
      case SessionCreated(sid) =>
        SessionInUseAppend(old(db.bookings), db.bookings[|db.bookings| - 1], sid);
        var attached := AttachSession(db, sid);
        resp := if attached then CheckoutResponse(200, Some(sid)) else CheckoutResponse(500, None);
    }
  }

  /** Some booking already holds this payment session id. */
  predicate SessionInUse(bookings: seq<Booking>, sessionId: string) {
    exists i :: 0 <= i < |bookings| && bookings[i].stripeSessionId == Some(sessionId)
  }

  /** `booking.create`: stores a booking under the next id. */
  method CreateBooking(db: Database, b: Booking) returns (id: Id)
    requires db.Valid()
    requires b.id == db.nextId && b.stripeSessionId.None?
    modifies db
    ensures db.Valid()
    ensures id == b.id && db.bookings == old(db.bookings) + [b] && db.nextId == old(db.nextId) + 1
    ensures db.blocks == old(db.blocks) && db.invoices == old(db.invoices) && db.counters == old(db.counters)
    ensures db.feeds == old(db.feeds) && db.cottages == old(db.cottages) && db.users == old(db.users)
    ensures db.reviews == old(db.reviews)
  {
    db.bookings := db.bookings + [b];
    db.nextId := db.nextId + 1;
    id := b.id;
  }

  /** `booking.update({ data: { stripeSessionId } })` on the booking just
      created (the last row): fails on the unique constraint when another
      booking holds the id. */
  method AttachSession(db: Database, sessionId: string) returns (ok: bool)
    requires db.Valid() && |db.bookings| > 0 && db.bookings[|db.bookings| - 1].stripeSessionId.None?
    modifies db
    ensures db.Valid()
    ensures ok <==> !SessionInUse(old(db.bookings), sessionId)
    ensures ok ==> db.bookings == old(db.bookings)[|old(db.bookings)| - 1 :=
                     old(db.bookings)[|old(db.bookings)| - 1].(stripeSessionId := Some(sessionId))]
    ensures !ok ==> db.bookings == old(db.bookings)
    ensures db.blocks == old(db.blocks) && db.invoices == old(db.invoices) && db.counters == old(db.counters)
    ensures db.feeds == old(db.feeds) && db.cottages == old(db.cottages) && db.users == old(db.users)
    ensures db.reviews == old(db.reviews) && db.nextId == old(db.nextId)
  {
    var holder := FindFirst(db.bookings, (b: Booking) => b.stripeSessionId == Some(sessionId));
    if holder.Some? {
      return false;
    }
    var last := |db.bookings| - 1;
    db.bookings := db.bookings[last := db.bookings[last].(stripeSessionId := Some(sessionId))];
    ok := true;
  }

  lemma SessionInUseAppend(bookings: seq<Booking>, b: Booking, sessionId: string)
    requires b.stripeSessionId.None?
    ensures SessionInUse(bookings + [b], sessionId) <==> SessionInUse(bookings, sessionId)
  {
    if SessionInUse(bookings, sessionId) {
      var i :| 0 <= i < |bookings| && bookings[i].stripeSessionId == Some(sessionId);
      assert (bookings + [b])[i] == bookings[i];
    }
  }
}

=== FILE: cottages.dfy ===
/** Cottage content (`lib/cottages.ts`): the bundled JSON list of cottages,
    its mapping to store rows, the listing, and the page lookup that seeds
    the store from the JSON. */
module Cottages {
  import opened Wrappers
  import opened Text
  import opened Seqs
  import opened Store

  /** One entry of the bundled JSON; absent optional fields are `None`. */
  datatype CottageJson = CottageJson(
    slug: string,
    name: string,
    summary: Option<string>,
    description: Option<string>,
    capacity: Option<int>,          // facts.capacite_max
    hero: string,                   // images.hero; "" when missing
    gallery: Option<seq<string>>,   // images.gallery
    address: Option<string>,
    latitude: Option<real>,
    longitude: Option<real>,
    arrival: Option<string>,        // practicalInfo.arrivee
    departure: Option<string>,      // practicalInfo.depart
    amenities: Option<seq<string>>)

  const DEFAULT_TIME: string := "17:00"
  const DEFAULT_CAPACITY: int := 4
  const DEFAULT_BASE_PRICE: real := 100.0
  const DEFAULT_CLEANING_FEE: real := 30.0
  const PLACEHOLDER_IMAGE: string := "https://images.unsplash.com/photo-1568605114967-8130f3a36994?w=800"
  const DEFAULT_AMENITIES: seq<string> := ["WiFi", "Cuisine équipée", "Parking", "Jardin"]

  /** The pattern `(\d{1,2})h(\d{2})` tried at position `p`: two hour digits
      first, then one; the captured hour and minutes. */
  function MatchAt(s: string, p: nat): (r: Option<(string, string)>)
    ensures r.Some? ==> 1 <= |r.value.0| <= 2 && AllDigits(r.value.0) && |r.value.1| == 2 && AllDigits(r.value.1)
  {
    if p + 5 <= |s| && IsDigit(s[p]) && IsDigit(s[p + 1]) && s[p + 2] == 'h' && IsDigit(s[p + 3]) && IsDigit(s[p + 4]) then
      Some((s[p..p + 2], s[p + 3..p + 5]))
    else if p + 4 <= |s| && IsDigit(s[p]) && s[p + 1] == 'h' && IsDigit(s[p + 2]) && IsDigit(s[p + 3]) then
      Some((s[p..p + 1], s[p + 2..p + 4]))
    else None
  }

  /** The leftmost match at or after position `p`. */
  function FirstMatch(s: string, p: nat): (r: Option<(string, string)>)
    requires p <= |s|
    ensures r.Some? ==> exists q :: p <= q < |s| && MatchAt(s, q) == r && forall k :: p <= k < q ==> MatchAt(s, k).None?
    ensures r.None? ==> forall k :: p <= k < |s| ==> MatchAt(s, k).None?
    decreases |s| - p
  {
    if p == |s| then None
    else if MatchAt(s, p).Some? then MatchAt(s, p)
    else FirstMatch(s, p + 1)
  }

  /** `parseTime`: the first `<h>h<mm>` in the text as `hh:mm`, the hour
      padded to two digits; `17:00` when the text is missing, empty, or has
      no match. The values are not range-checked. */
  function ParseTime(text: Option<string>): (r: string)
    ensures |r| == 5 && r[2] == ':' && IsDigit(r[0]) && IsDigit(r[1]) && IsDigit(r[3]) && IsDigit(r[4])
    ensures text.None? || text.value == "" ==> r == DEFAULT_TIME
    ensures text.Some? && (forall k :: 0 <= k < |text.value| ==> MatchAt(text.value, k).None?) ==> r == DEFAULT_TIME
    ensures text.Some? && text.value != "" && FirstMatch(text.value, 0).Some? ==>
      var h := FirstMatch(text.value, 0).value.0;
      r == (if |h| == 1 then "0" + h else h) + ":" + FirstMatch(text.value, 0).value.1
  {
    if text.None? || text.value == "" then DEFAULT_TIME
    else
      match FirstMatch(text.value, 0)
      case None => DEFAULT_TIME
      case Some((h, m)) => FormatTime(h, m)
  }

  /** `${h.padStart(2, '0')}:${m}` for the captured hour and minutes. */
  function FormatTime(h: string, m: string): (r: string)
    requires 1 <= |h| <= 2 && AllDigits(h) && |m| == 2 && AllDigits(m)
    ensures |r| == 5 && r[2] == ':' && IsDigit(r[0]) && IsDigit(r[1]) && IsDigit(r[3]) && IsDigit(r[4])
    ensures r == (if |h| == 1 then "0" + h else h) + ":" + m
  {
    assert |h| == 1 ==> seq(1, _ => '0') == "0";
    PadStart(h, 2, '0') + ":" + m
  }

  /** A one-digit hour is padded to two digits. */
  lemma ParseTimePadsHour()
    ensures ParseTime(Some("9h30")) == "09:30"
  {
    var n := "9h30";
    assert n[0..1] == "9" && n[2..4] == "30";
    assert MatchAt(n, 0) == Some(("9", "30"));
  }

  /** The first time in a sentence is found after the text before it. */
  lemma ParseTimeInSentence()
    ensures ParseTime(Some("Arrivée 16h00")) == "16:00"
  {
    var a := "Arrivée 16h00";
    FirstTimeInSentence(a);
    assert ParseTime(Some(a)) == PadStart("16", 2, '0') + ":" + "00";
    assert PadStart("16", 2, '0') == "16";
  }

  lemma FirstTimeInSentence(a: string)
    requires a == "Arrivée 16h00"
    ensures FirstMatch(a, 0) == Some(("16", "00"))
  {
    forall k | 0 <= k < 8
      ensures MatchAt(a, k).None?
    {
      assert !IsDigit(a[k]);
    }
    assert a[8..10] == "16" && a[11..13] == "00";
    FirstMatchFrom(a, 0, 8);
  }

  /** Times are not range-checked. */
  lemma ParseTimeNoRangeCheck()
    ensures ParseTime(Some("99h99")) == "99:99"
  {
    var w := "99h99";
    assert w[0..2] == "99" && w[3..5] == "99";
    assert MatchAt(w, 0) == Some(("99", "99"));
  }

  /** Text without a time gives the default. */
  lemma ParseTimeNoMatch()
    ensures ParseTime(Some("midi")) == DEFAULT_TIME
  {
    assert forall k :: 0 <= k < 4 ==> MatchAt("midi", k).None?;
  }

  /** When `q` is the first matching position at or after `p`, the search finds it. */
  lemma {:induction false} FirstMatchFrom(s: string, p: nat, q: nat)
    requires p <= q < |s| && MatchAt(s, q).Some?
    requires forall k :: p <= k < q ==> MatchAt(s, k).None?
    ensures FirstMatch(s, p) == MatchAt(s, q)
    decreases q - p
  {
    if p < q {
      FirstMatchFrom(s, p + 1, q);
    }
  }

  /** The row `cottageFromJsonToDb` creates, apart from its id. */
  datatype CottageData = CottageData(
    slug: string,
    title: string,
    summary: string,
    description: string,
    address: Option<string>,
    latitude: Option<real>,
    longitude: Option<real>,
    capacity: int,
    basePrice: real,
    cleaningFee: real,
    images: seq<string>,
    amenities: seq<string>,
    checkInTime: string,
    checkOutTime: string,
    isActive: bool)

  /** The hero then the gallery, without empty entries. */
  function ListedImages(json: CottageJson): (r: seq<string>)
    ensures forall i :: 0 <= i < |r| ==> r[i] != "" && r[i] in [json.hero] + json.gallery.GetOr([])
    ensures forall x :: x in [json.hero] + json.gallery.GetOr([]) && x != "" ==> x in r
  {
    var all := [json.hero] + json.gallery.GetOr([]);
    var r := Filter(all, (x: string) => x != "");
    assert forall i :: 0 <= i < |all| && all[i] != "" ==> all[i] in r;
    r
  }

  /** `cottageFromJsonToDb`: the JSON fields with their defaults filled in. */
  function CottageFromJsonToDb(json: CottageJson): (d: CottageData)
    ensures d.slug == json.slug && d.title == json.name
    ensures d.summary == json.summary.GetOr("") && d.description == json.description.GetOr("")
    ensures d.capacity == json.capacity.GetOr(DEFAULT_CAPACITY)
    ensures d.basePrice == DEFAULT_BASE_PRICE && d.cleaningFee == DEFAULT_CLEANING_FEE && d.isActive
    ensures |d.images| >= 1 && forall i :: 0 <= i < |d.images| ==> d.images[i] != ""
    ensures d.images == if ListedImages(json) == [] then [PLACEHOLDER_IMAGE] else ListedImages(json)
    ensures d.address == json.address && d.latitude == json.latitude && d.longitude == json.longitude
    ensures |d.amenities| >= 1
    ensures json.amenities.None? || json.amenities.value == [] ==> d.amenities == DEFAULT_AMENITIES
    ensures json.amenities.Some? && json.amenities.value != [] ==> d.amenities == json.amenities.value
    ensures d.checkInTime == ParseTime(json.arrival) && d.checkOutTime == ParseTime(json.departure)
  {
    var images := ListedImages(json);
    CottageData(
      json.slug, json.name, json.summary.GetOr(""), json.description.GetOr(""),
      json.address, json.latitude, json.longitude,
      json.capacity.GetOr(DEFAULT_CAPACITY), DEFAULT_BASE_PRICE, DEFAULT_CLEANING_FEE,
      if images == [] then [PLACEHOLDER_IMAGE] else images,
      if json.amenities.Some? && json.amenities.value != [] then json.amenities.value else DEFAULT_AMENITIES,
      ParseTime(json.arrival), ParseTime(json.departure), true)
  }

  /** The store row for the data, under the given id. */
  function ToRow(id: Id, d: CottageData): Cottage {
    Cottage(id, d.slug, d.title, Some(d.summary), d.description, d.address, d.latitude, d.longitude,
            d.capacity, d.basePrice, Some(d.cleaningFee), d.images, d.amenities,
            Some(d.checkInTime), Some(d.checkOutTime), d.isActive)
  }

  /** One card of the `/cottages` page. */
  datatype ListItem = ListItem(id: string, slug: string, title: string, summary: Option<string>,
                               basePrice: real, image: string, capacity: int)

  function ListItemOf(c: CottageJson): ListItem {
    var gallery := c.gallery.GetOr([]);
    ListItem(c.slug, c.slug, c.name, c.summary, DEFAULT_BASE_PRICE,
             if c.hero != "" then c.hero else if gallery != [] && gallery[0] != "" then gallery[0] else "",
             c.capacity.GetOr(DEFAULT_CAPACITY))
  }

  /** `getCottagesForListing`: one card per JSON entry, in order. */
  function GetCottagesForListing(list: seq<CottageJson>): (r: seq<ListItem>)
    ensures |r| == |list|
    ensures forall i :: 0 <= i < |r| ==> r[i] == ListItemOf(list[i])
  {
    seq(|list|, i requires 0 <= i < |list| => ListItemOf(list[i]))
  }

  /** A card shows its cottage's first stored image, or no image at all;
      its id is the slug, and its price and capacity agree with the store row. */
  lemma ListingAgreesWithRow(c: CottageJson)
    ensures ListItemOf(c).id == c.slug
    ensures ListItemOf(c).image == "" || ListItemOf(c).image == CottageFromJsonToDb(c).images[0]
    ensures ListItemOf(c).basePrice == CottageFromJsonToDb(c).basePrice
    ensures ListItemOf(c).capacity == CottageFromJsonToDb(c).capacity
  {
    var all := [c.hero] + c.gallery.GetOr([]);
    var p := (x: string) => x != "";
    assert all == [c.hero] + all[1..];
    if c.hero != "" {
      assert Filter(all, p)[0] == c.hero;
    } else if c.gallery.GetOr([]) != [] && c.gallery.GetOr([])[0] != "" {
      assert all[1..] == [all[1]] + all[2..];
      assert Filter(all, p) == Filter(all[1..], p);
      assert Filter(all[1..], p)[0] == all[1];
    }
  }

  /** The JSON entry with this slug. */
  function FindJson(list: seq<CottageJson>, slug: string): (r: Option<CottageJson>)
    ensures r.Some? ==> r.value in list && r.value.slug == slug
    ensures r.None? ==> forall i :: 0 <= i < |list| ==> list[i].slug != slug
  {
    match FindFirst(list, (c: CottageJson) => c.slug == slug)
    case None => None
    case Some(i) => Some(list[i])
  }

  /** The page's cottage: the store row, or the JSON mapping under the slug as
      id. The fallback page shows `summary`, which is null for an empty
      summary, in place of `data.summary`. */
  datatype CottagePage = FromStore(row: Cottage) | FromJson(id: string, summary: Option<string>, data: CottageData)

  /** The page served from the JSON when the store cannot be reached. */
  function FallbackPage(slug: string, json: CottageJson): (p: CottagePage)
    ensures p.FromJson? && p.id == slug && p.data == CottageFromJsonToDb(json)
    ensures json.summary.None? || json.summary.value == "" ==> p.summary.None?
    ensures json.summary.Some? && json.summary.value != "" ==> p.summary == json.summary
  {
    var data := CottageFromJsonToDb(json);
    FromJson(slug, if data.summary == "" then None else Some(data.summary), data)
  }

  /** `getCottageBySlug`. A slug missing from the JSON gives nothing and the
      store is not consulted. Otherwise the store's row for the slug is
      returned, created from the JSON when missing; an existing row is
      returned even when it is inactive. When the store cannot be reached
      (`storeUp` false) the page is built from the JSON with the slug as id. */
  method GetCottageBySlug(db: Database, list: seq<CottageJson>, slug: string, storeUp: bool)
    returns (r: Option<CottagePage>)
    requires db.Valid()
    modifies db
    ensures db.Valid()
    ensures FindJson(list, slug).None? ==> r.None? && unchanged(db)
    ensures FindJson(list, slug).Some? && !storeUp ==>
      r == Some(FallbackPage(slug, FindJson(list, slug).value)) && unchanged(db)
    ensures FindJson(list, slug).Some? && storeUp && CottageBySlug(old(db.cottages), slug).Some? ==>
      r == Some(FromStore(CottageBySlug(old(db.cottages), slug).value)) && unchanged(db)
    ensures FindJson(list, slug).Some? && storeUp && CottageBySlug(old(db.cottages), slug).None? ==>
      var row := ToRow(old(db.nextId), CottageFromJsonToDb(FindJson(list, slug).value));
      r == Some(FromStore(row)) && row.isActive
      && db.cottages == old(db.cottages) + [row] && db.nextId == old(db.nextId) + 1
      && db.bookings == old(db.bookings) && db.blocks == old(db.blocks) && db.invoices == old(db.invoices)
      && db.counters == old(db.counters) && db.feeds == old(db.feeds) && db.users == old(db.users)
      && db.reviews == old(db.reviews)
  {
    var json := FindJson(list, slug);
    if json.None? {
      return None;
    }
    if !storeUp {
      return Some(FallbackPage(slug, json.value));
    }
    var row := CottageBySlug(db.cottages, slug);
    if row.Some? && row.value.isActive {
      return Some(FromStore(row.value));
    }
    if row.None? {
      var created := CreateCottage(db, CottageFromJsonToDb(json.value));
      SlugLookupAppend(old(db.cottages), created, slug);
      row := CottageBySlug(db.cottages, slug);
    }
    r := Some(FromStore(row.value));
  }

  /** `cottage.upsert` when no row has the slug: creates the row under a fresh id. */
  method CreateCottage(db: Database, d: CottageData) returns (row: Cottage)
    requires db.Valid() && CottageBySlug(db.cottages, d.slug).None?
    modifies db
    ensures db.Valid()
    ensures row == ToRow(old(db.nextId), d)
    ensures db.cottages == old(db.cottages) + [row] && db.nextId == old(db.nextId) + 1
    ensures db.bookings == old(db.bookings) && db.blocks == old(db.blocks) && db.invoices == old(db.invoices)
    ensures db.counters == old(db.counters) && db.feeds == old(db.feeds) && db.users == old(db.users)
    ensures db.reviews == old(db.reviews)
  {
    row := ToRow(db.nextId, d);
    db.cottages := db.cottages + [row];
    db.nextId := db.nextId + 1;
  }

  lemma SlugLookupAppend(cottages: seq<Cottage>, c: Cottage, slug: string)
    requires CottageBySlug(cottages, slug).None? && c.slug == slug
    ensures CottageBySlug(cottages + [c], slug) == Some(c)
  {
    var all := cottages + [c];
    assert all[|cottages|] == c;
    assert forall i :: 0 <= i < |cottages| ==> all[i].slug != slug;
  }
}

=== FILE: download_images.dfy ===
/** The script that copies the scraped cottage images into the site: for each
    cottage of the content file it downloads the hero and the gallery images
    and points the record at the local copies, keeping the original URL of
    every image whose download failed. Downloads are not modelled: whether
    fetching a URL into a path succeeds is an input. */
module DownloadImages {
  import opened Wrappers
  import opened Text
  import opened ScrapeCottages

  const EXTENSIONS: seq<string> := ["jpg", "jpeg", "png", "webp", "avif", "gif"]
  const DEFAULT_EXTENSION: string := "jpg"

  /** The extension matched at position `p`: a `.`, one of the extensions in
      any letter case, then `?` or the end of the URL. */
  function ExtensionAt(url: string, p: nat, alternatives: seq<string>): (r: Option<string>)
    requires p < |url|
    decreases |alternatives|
  {
    if alternatives == [] || url[p] != '.' then None
    else
      var a := alternatives[0];
      var end := p + 1 + |a|;
      if end <= |url| && AsciiLower(url[p + 1..end]) == a && (end == |url| || url[end] == '?') then
        Some(url[p + 1..end])
      else
        ExtensionAt(url, p, alternatives[1..])
  }

  /** A match is one of the alternatives, in any letter case, taken from the
      URL right after a `.` and followed by `?` or the end. */
  lemma {:induction false} ExtensionAtFacts(url: string, p: nat, alternatives: seq<string>)
    requires p < |url|
    ensures var r := ExtensionAt(url, p, alternatives);
      && (r.Some? ==> AsciiLower(r.value) in alternatives)
      && (r.Some? ==> p + 1 + |r.value| <= |url| && url[p + 1..p + 1 + |r.value|] == r.value)
      && (r.Some? ==> url[p] == '.' && (p + 1 + |r.value| == |url| || url[p + 1 + |r.value|] == '?'))
    decreases |alternatives|
  {
    if alternatives != [] && url[p] == '.' {
      ExtensionAtFacts(url, p, alternatives[1..]);
    }
  }

  /** The leftmost match from position `p` on. */
  function FirstExtension(url: string, p: nat): (r: Option<(nat, string)>)
    requires p <= |url|
    ensures r.Some? ==> p <= r.value.0 < |url| && ExtensionAt(url, r.value.0, EXTENSIONS) == Some(r.value.1)
    ensures r.Some? ==> forall q :: p <= q < r.value.0 ==> ExtensionAt(url, q, EXTENSIONS).None?
    ensures r.None? ==> forall q :: p <= q < |url| ==> ExtensionAt(url, q, EXTENSIONS).None?
    decreases |url| - p
  {
    if p == |url| then None
    else
      match ExtensionAt(url, p, EXTENSIONS)
      case Some(e) => Some((p, e))
      case None => FirstExtension(url, p + 1)
  }

  /** A match at `q` and none before it. */
  predicate LeftmostMatch(url: string, q: nat) {
    && q < |url|
    && ExtensionAt(url, q, EXTENSIONS).Some?
    && forall q' :: 0 <= q' < q ==> ExtensionAt(url, q', EXTENSIONS).None?
  }

  /** `getExtension`: the extension of the leftmost match of
      `/\.(jpg|jpeg|png|webp|avif|gif)(\?|$)/i`, in the URL's own letter case,
      or `jpg` when nothing matches. */
  function GetExtension(url: string): string {
    match FirstExtension(url, 0)
    case None => DEFAULT_EXTENSION
    case Some((_, e)) => e
  }

  /** The extension is one of the six, in some letter case: the one of the
      leftmost match, or `jpg` when nothing matches. */
  lemma GetExtensionFacts(url: string)
    ensures AsciiLower(GetExtension(url)) in EXTENSIONS
    ensures forall q: nat :: LeftmostMatch(url, q) ==> GetExtension(url) == ExtensionAt(url, q, EXTENSIONS).value
    ensures (forall q :: 0 <= q < |url| ==> ExtensionAt(url, q, EXTENSIONS).None?) ==> GetExtension(url) == DEFAULT_EXTENSION
  {
    match FirstExtension(url, 0)
    case None => LowerOfLower(DEFAULT_EXTENSION);
    case Some((q, e)) => ExtensionAtFacts(url, q, EXTENSIONS); LeftmostIsFirst(url);
  }

  /** The leftmost match is the one `FirstExtension` finds. */
  lemma LeftmostIsFirst(url: string)
    ensures forall q: nat :: LeftmostMatch(url, q) ==> FirstExtension(url, 0) == Some((q, ExtensionAt(url, q, EXTENSIONS).value))
  {
    forall q: nat | LeftmostMatch(url, q)
      ensures FirstExtension(url, 0) == Some((q, ExtensionAt(url, q, EXTENSIONS).value))
    {
      var r := FirstExtension(url, 0);
      assert r.Some?;
    }
  }

  /** Lower-casing text without upper-case letters changes nothing. */
  lemma LowerOfLower(s: string)
    requires forall i :: 0 <= i < |s| ==> !IsUpperAscii(s[i])
    ensures AsciiLower(s) == s
  {
  }

  /** A URL without a query string that ends in `.` and an image extension
      gives that extension, in its own letter case. */
  lemma PlainUrlExtension(stem: string, e: string)
    requires '?' !in stem && AsciiLower(e) in EXTENSIONS
    ensures GetExtension(stem + "." + e) == e
  {
    var url := stem + "." + e;
    var p := |stem|;
    assert url[p + 1..] == e;
    assert url[p] == '.';
    assert '?' !in e by {
      forall i | 0 <= i < |e| ensures e[i] != '?' {
        ExtensionCharAt(e, i);
      }
    }
    assert '?' !in url by {
      forall i | 0 <= i < |url| ensures url[i] != '?' {
        if i < p {
          assert url[i] == stem[i];
        } else if i > p {
          assert url[i] == e[i - p - 1];
        }
      }
    }
    ExtensionAtEnd(url, p, EXTENSIONS, e);
    forall q | 0 <= q < p
      ensures ExtensionAt(url, q, EXTENSIONS).None?
    {
      var r := ExtensionAt(url, q, EXTENSIONS);
      if r.Some? {
        ExtensionAtFacts(url, q, EXTENSIONS);
        ExtensionCharAt(r.value, p - q - 1);
        assert false;
      }
    }
    assert LeftmostMatch(url, p);
    GetExtensionFacts(url);
  }

  /** At the final `.` the matching extension is found. */
  lemma {:induction false} ExtensionAtEnd(url: string, p: nat, alternatives: seq<string>, e: string)
    requires p < |url| && url[p] == '.' && url[p + 1..] == e && '?' !in e && AsciiLower(e) in alternatives
    ensures ExtensionAt(url, p, alternatives) == Some(e)
    decreases |alternatives|
  {
    var a := alternatives[0];
    var end := p + 1 + |a|;
    if end < |url| {
      assert url[end] == e[end - p - 1];
    }
    if AsciiLower(e) == a {
      assert url[p + 1..end] == e;
    } else {
      ExtensionAtEnd(url, p, alternatives[1..], e);
    }
  }

  /** No extension, in any letter case, holds a `.` or a `?`. */
  lemma ExtensionCharAt(f: string, i: nat)
    requires AsciiLower(f) in EXTENSIONS && i < |f|
    ensures f[i] != '.' && f[i] != '?'
  {
    var l := AsciiLower(f);
    ExtensionsAreLowerCase();
    var k :| 0 <= k < |EXTENSIONS| && EXTENSIONS[k] == l;
    assert AllLowerAscii(l);
    assert l[i] == LowerChar(f[i]);
  }

  predicate AllLowerAscii(s: string) {
    forall i :: 0 <= i < |s| ==> IsLowerAscii(s[i])
  }

  lemma ExtensionsAreLowerCase()
    ensures forall k :: 0 <= k < |EXTENSIONS| ==> AllLowerAscii(EXTENSIONS[k])
  {
    assert AllLowerAscii("jpg");
    assert AllLowerAscii("jpeg");
    assert AllLowerAscii("png");
    assert AllLowerAscii("webp");
    assert AllLowerAscii("avif");
    assert AllLowerAscii("gif");
  }

  /** The site path of a downloaded image. */
  function LocalPath(slug: string, filename: string): string {
    "/images/cottages/" + slug + "/" + filename
  }

  function HeroPath(slug: string, url: string): string {
    LocalPath(slug, "hero." + GetExtension(url))
  }

  /** The site path of gallery image `i` (from 0), saved with extension `ext`. */
  function GalleryPath(slug: string, i: nat, ext: string): string {
    LocalPath(slug, "gallery-" + NatToString(i + 1) + "." + ext)
  }

  /** The hero after the download: the local copy if the URL was set and its
      download succeeded, otherwise the original value. */
  function LocalHero(slug: string, hero: string, fetched: (string, string) -> bool): string {
    if hero != "" && fetched(hero, HeroPath(slug, hero)) then HeroPath(slug, hero) else hero
  }

  /** Gallery image `i` after its download. */
  function LocalImage(slug: string, i: nat, url: string, fetched: (string, string) -> bool): string {
    var path := GalleryPath(slug, i, GetExtension(url));
    if fetched(url, path) then path else url
  }

  /** `s.map((x, i) => f(i, x))`. */
  function MapIndexed<T>(s: seq<T>, f: (nat, T) -> T): (r: seq<T>)
    ensures |r| == |s|
  {
    if s == [] then [] else MapIndexed(s[..|s| - 1], f) + [f(|s| - 1, s[|s| - 1])]
  }

  lemma {:induction false} MapIndexedAt<T>(s: seq<T>, f: (nat, T) -> T, i: nat)
    requires i < |s|
    ensures MapIndexed(s, f)[i] == f(i, s[i])
  {
    var n := |s| - 1;
    if i < n {
      MapIndexedAt(s[..n], f, i);
      assert s[..n][i] == s[i];
    }
  }

  /** The gallery after the downloads, image by image. */
  function LocalGallery(slug: string, gallery: seq<string>, fetched: (string, string) -> bool): (g: seq<string>)
    ensures |g| == |gallery|
  {
    MapIndexed(gallery, (i: nat, url: string) => LocalImage(slug, i, url, fetched))
  }

  /** Each image is replaced by its local copy when that was fetched and is
      kept otherwise; the gallery keeps its order. */
  lemma LocalGalleryAt(slug: string, gallery: seq<string>, fetched: (string, string) -> bool, i: nat)
    requires i < |gallery|
    ensures LocalGallery(slug, gallery, fetched)[i] == LocalImage(slug, i, gallery[i], fetched)
  {
    MapIndexedAt(gallery, (i: nat, url: string) => LocalImage(slug, i, url, fetched), i);
  }

  /** The record written back: only the images change. */
  function Localized(c: ScrapedCottage, fetched: (string, string) -> bool): (d: ScrapedCottage)
  {
    c.(hero := LocalHero(c.slug, c.hero, fetched), gallery := LocalGallery(c.slug, c.gallery, fetched))
  }

  /** Only the images of a record change, the gallery keeps its length, and
      the hero is the local copy when it was set and fetched and is kept
      otherwise. */
  lemma LocalizedKeepsFields(c: ScrapedCottage, fetched: (string, string) -> bool)
    ensures var d := Localized(c, fetched);
      && d == c.(hero := d.hero, gallery := d.gallery)
      && |d.gallery| == |c.gallery|
      && (c.hero != "" && fetched(c.hero, HeroPath(c.slug, c.hero)) ==> d.hero == HeroPath(c.slug, c.hero))
      && (c.hero == "" || !fetched(c.hero, HeroPath(c.slug, c.hero)) ==> d.hero == c.hero)
  {
  }

  /** When every download fails the record is written back unchanged. */
  lemma NothingFetchedNothingChanges(c: ScrapedCottage, fetched: (string, string) -> bool)
    requires forall url, path :: !fetched(url, path)
    ensures Localized(c, fetched) == c
  {
    forall i | 0 <= i < |c.gallery|
      ensures LocalGallery(c.slug, c.gallery, fetched)[i] == c.gallery[i]
    {
      LocalGalleryAt(c.slug, c.gallery, fetched, i);
    }
  }

  /** Distinct gallery positions are saved under distinct file names. */
  lemma GalleryPathsDistinct(slug: string, i: nat, j: nat, e: string, f: string)
    ensures GalleryPath(slug, i, e) == GalleryPath(slug, j, f) ==> i == j
  {
    var prefix := "/images/cottages/" + slug + "/gallery-";
    assert GalleryPath(slug, i, e) == prefix + NatToString(i + 1) + "." + e;
    assert GalleryPath(slug, j, f) == prefix + NatToString(j + 1) + "." + f;
    NumberedNamesDistinct(prefix, i + 1, j + 1, e, f);
  }

  lemma NumberedNamesDistinct(prefix: string, m: nat, n: nat, e: string, f: string)
    ensures prefix + NatToString(m) + "." + e == prefix + NatToString(n) + "." + f ==> m == n
  {
    var a := NatToString(m);
    var b := NatToString(n);
    var x := prefix + a + "." + e;
    var y := prefix + b + "." + f;
    if x == y {
      assert x[|prefix|..] == a + "." + e;
      assert y[|prefix|..] == b + "." + f;
      DigitsBeforeDot(a, e, b, f);
      NatToStringInjective(m, n);
    }
  }

  /** The length of the run of digits that starts `s`. */
  function DigitRun(s: string): (n: nat)
    ensures n <= |s|
  {
    if s == [] || !IsDigit(s[0]) then 0 else 1 + DigitRun(s[1..])
  }

  lemma {:induction false} DigitRunOfPrefix(a: string, rest: string)
    requires AllDigits(a) && rest != [] && !IsDigit(rest[0])
    ensures DigitRun(a + rest) == |a|
  {
    if a != [] {
      assert (a + rest)[1..] == a[1..] + rest;
      DigitRunOfPrefix(a[1..], rest);
    }
  }

  /** Two digit strings followed by a `.` agree when the texts agree. */
  lemma DigitsBeforeDot(a: string, e: string, b: string, f: string)
    requires AllDigits(a) && AllDigits(b) && a + "." + e == b + "." + f
    ensures a == b
  {
    var s := a + "." + e;
    DigitRunOfPrefix(a, "." + e);
    DigitRunOfPrefix(b, "." + f);
    assert s == a + ("." + e) == b + ("." + f);
    assert a == s[..|a|];
    assert b == s[..|b|];
  }

  /** The gallery loop of `main` for one cottage. */
  method DownloadGallery(slug: string, gallery: seq<string>, fetched: (string, string) -> bool)
    returns (downloaded: seq<string>)
    ensures downloaded == LocalGallery(slug, gallery, fetched)
  {
    downloaded := [];
    var i := 0;
    ghost var f := (i: nat, url: string) => LocalImage(slug, i, url, fetched);
    while i < |gallery|
      invariant 0 <= i <= |gallery|
      invariant downloaded == MapIndexed(gallery[..i], f)
    {
      assert gallery[..i + 1][..i] == gallery[..i];
      var url := gallery[i];
      var path := GalleryPath(slug, i, GetExtension(url));
      assert f(i, url) == if fetched(url, path) then path else url;
      assert MapIndexed(gallery[..i + 1], f) == MapIndexed(gallery[..i], f) + [f(i, url)];
      if fetched(url, path) {
        downloaded := downloaded + [path];
      } else {
        downloaded := downloaded + [url];
      }
      i := i + 1;
    }
    assert gallery[..|gallery|] == gallery;
  }

  /** The body of `main`'s loop for one cottage. */
  method LocalizeCottage(c: ScrapedCottage, fetched: (string, string) -> bool) returns (d: ScrapedCottage)
    ensures d == Localized(c, fetched)
  {
    var hero := c.hero;
    if c.hero != "" {
      var path := HeroPath(c.slug, c.hero);
      if fetched(c.hero, path) {
        hero := path;
      }
    }
    var gallery := DownloadGallery(c.slug, c.gallery, fetched);
    d := c.(hero := hero, gallery := gallery);
  }

  /** `main`: nothing is written for an empty list; otherwise every cottage is
      written back, in order, with its images localised. */
  method DownloadAll(cottages: seq<ScrapedCottage>, fetched: (string, string) -> bool)
    returns (written: Option<seq<ScrapedCottage>>)
    ensures cottages == [] <==> written.None?
    ensures written.Some? ==> |written.value| == |cottages|
    ensures written.Some? ==> forall i :: 0 <= i < |cottages| ==> written.value[i] == Localized(cottages[i], fetched)
  {
    if |cottages| == 0 {
      return None;
    }
    var updated: seq<ScrapedCottage> := [];
    var k := 0;
    while k < |cottages|
      invariant 0 <= k <= |cottages|
      invariant |updated| == k
      invariant forall i :: 0 <= i < k ==> updated[i] == Localized(cottages[i], fetched)
    {
      var d := LocalizeCottage(cottages[k], fetched);
      updated := updated + [d];
      k := k + 1;
    }
    written := Some(updated);
  }
}

=== FILE: ical.dfy ===
/** Calendar import and export (`lib/ical.ts`). The iCalendar text itself
    (RFC 5545) is parsed and printed by a library; here a feed is the list of
    its VEVENT components and an export is the calendar as a record. */
module ICal {
  import opened Wrappers
  import opened Text
  import opened Seqs
  import opened Store
  import opened Availability

  /** A VEVENT component of a fetched feed: its DTSTART and DTEND as instants,
      and its first UID property, if any (RFC 5545, sections 3.6.1 and 3.8.4.7). */
  datatype VEvent = VEvent(dtstart: Instant, dtend: Instant, uid: Option<string>)

  /** The outcome of fetching and parsing a feed URL. */
  datatype FeedFetch = FetchNotOk | ParseFailure | Document(vevents: seq<VEvent>)

  /** One event of a parsed feed, as `parseICalFeed` returns it. */
  datatype FeedEvent = FeedEvent(start: Instant, end: Instant, uid: Option<string>)

  /** `parseICalFeed`: a failed fetch or parse throws; otherwise one event per
      VEVENT, in document order. */
  function ParseICalFeed(f: FeedFetch): (r: Result<seq<FeedEvent>, string>)
    ensures r.Ok? <==> f.Document?
    ensures r.Ok? ==> |r.value| == |f.vevents| && forall i :: 0 <= i < |r.value| ==>
      r.value[i] == FeedEvent(f.vevents[i].dtstart, f.vevents[i].dtend, f.vevents[i].uid)
  {
    match f
    case FetchNotOk => Err("Failed to fetch iCal feed")
    case ParseFailure => Err("Error parsing iCal feed")
    case Document(vs) =>
      Ok(seq(|vs|, i requires 0 <= i < |vs| => FeedEvent(vs[i].dtstart, vs[i].dtend, vs[i].uid)))
  }

  /** `event.uid || undefined`: an absent or empty uid stores no reference. */
  function SourceRef(uid: Option<string>): (r: Option<string>)
    ensures r.Some? <==> uid.Some? && uid.value != ""
    ensures r.Some? ==> r == uid
  {
    if uid.Some? && uid.value != "" then uid else None
  }

  /** A block the sync owns: an imported block of this cottage. */
  predicate FromFeedOf(k: Block, cottageId: Id) {
    k.cottageId == cottageId && k.source == ICal
  }

  /** The blocks the sync creates, numbered from `firstId`, one per event in order. */
  function FeedBlocks(events: seq<FeedEvent>, cottageId: Id, firstId: Id): (r: seq<Block>)
    ensures |r| == |events|
    ensures forall i :: 0 <= i < |r| ==>
      r[i] == Block(firstId + i, cottageId, events[i].start, events[i].end, ICal, SourceRef(events[i].uid))
  {
    seq(|events|, i requires 0 <= i < |events| =>
      Block(firstId + i, cottageId, events[i].start, events[i].end, ICal, SourceRef(events[i].uid)))
  }

  /** The blocks a sync leaves alone. */
  function KeepOthers(blocks: seq<Block>, cottageId: Id): (r: seq<Block>)
    ensures forall k :: k in r <==> k in blocks && !FromFeedOf(k, cottageId)
  {
    Filter(blocks, (k: Block) => !FromFeedOf(k, cottageId))
  }

  /** `icalFeed.updateMany`: stamps every feed row of this cottage and URL. */
  function StampFeeds(feeds: seq<ICalFeed>, cottageId: Id, importUrl: string, now: Instant): (r: seq<ICalFeed>)
    ensures |r| == |feeds|
    ensures forall i :: 0 <= i < |r| ==>
      r[i] == if feeds[i].cottageId == cottageId && feeds[i].importUrl == importUrl
              then feeds[i].(lastSyncedAt := Some(now)) else feeds[i]
  {
    seq(|feeds|, i requires 0 <= i < |feeds| =>
      if feeds[i].cottageId == cottageId && feeds[i].importUrl == importUrl
      then feeds[i].(lastSyncedAt := Some(now)) else feeds[i])
  }

  /** The `for` loop of creates: one block per event, in order. */
  method CreateFeedBlocks(db: Database, cottageId: Id, events: seq<FeedEvent>)
    requires db.Valid()
    modifies db
    ensures db.Valid()
    ensures db.blocks == old(db.blocks) + FeedBlocks(events, cottageId, old(db.nextId))
    ensures db.nextId == old(db.nextId) + |events|
    ensures db.bookings == old(db.bookings) && db.invoices == old(db.invoices) && db.counters == old(db.counters)
    ensures db.feeds == old(db.feeds)
    ensures db.cottages == old(db.cottages) && db.users == old(db.users) && db.reviews == old(db.reviews)
  {
    var i := 0;
    while i < |events|
      invariant 0 <= i <= |events|
      invariant db.Valid()
      invariant db.nextId == old(db.nextId) + i
      invariant db.blocks == old(db.blocks) + FeedBlocks(events[..i], cottageId, old(db.nextId))
      invariant db.bookings == old(db.bookings) && db.invoices == old(db.invoices) && db.counters == old(db.counters)
      invariant db.feeds == old(db.feeds)
      invariant db.cottages == old(db.cottages) && db.users == old(db.users) && db.reviews == old(db.reviews)
    {
      var e := events[i];
      var id := db.AddBlock(cottageId, e.start, e.end, ICal, SourceRef(e.uid));
      FeedBlocksSnoc(events, i, cottageId, old(db.nextId));
      i := i + 1;
    }
    assert events[..|events|] == events;
  }

  lemma FeedBlocksSnoc(events: seq<FeedEvent>, i: nat, cottageId: Id, firstId: Id)
    requires i < |events|
    ensures FeedBlocks(events[..i + 1], cottageId, firstId)
         == FeedBlocks(events[..i], cottageId, firstId)
            + [Block(firstId + i, cottageId, events[i].start, events[i].end, ICal, SourceRef(events[i].uid))]
  {
  }

  /** `syncICalFeed`: replaces the cottage's imported blocks by the feed's
      events. A feed that cannot be fetched or parsed leaves everything as it was. */
  method SyncICalFeed(db: Database, cottageId: Id, importUrl: string, fetched: FeedFetch, now: Instant)
    returns (r: Result<(), string>)
    requires db.Valid()
    modifies db
    ensures db.Valid()
    ensures r.Ok? <==> fetched.Document?
    ensures r.Err? ==> unchanged(db)
    ensures r.Ok? ==>
      var events := ParseICalFeed(fetched).value;
      && db.blocks == KeepOthers(old(db.blocks), cottageId) + FeedBlocks(events, cottageId, old(db.nextId))
      && db.nextId == old(db.nextId) + |events|
      && db.feeds == StampFeeds(old(db.feeds), cottageId, importUrl, now)
    ensures db.bookings == old(db.bookings) && db.invoices == old(db.invoices) && db.counters == old(db.counters)
    ensures db.cottages == old(db.cottages) && db.users == old(db.users) && db.reviews == old(db.reviews)
  {
    var parsed := ParseICalFeed(fetched);
    if parsed.Err? {
      return Err(parsed.error);
    }
    var events := parsed.value;
    FilterKeepsIds(db.blocks, (k: Block) => !FromFeedOf(k, cottageId), db.nextId);
    db.blocks := KeepOthers(db.blocks, cottageId);
    CreateFeedBlocks(db, cottageId, events);
    db.feeds := StampFeeds(db.feeds, cottageId, importUrl, now);
    r := Ok(());
  }

  /** After a sync, the cottage's imported blocks are exactly the feed's
      events, in order. */
  lemma {:induction false} SyncedBlocksAreTheFeed(blocks: seq<Block>, events: seq<FeedEvent>, cottageId: Id, firstId: Id)
    ensures Filter(KeepOthers(blocks, cottageId) + FeedBlocks(events, cottageId, firstId), (k: Block) => FromFeedOf(k, cottageId))
         == FeedBlocks(events, cottageId, firstId)
  {
    var p := (k: Block) => FromFeedOf(k, cottageId);
    var kept := KeepOthers(blocks, cottageId);
    var created := FeedBlocks(events, cottageId, firstId);
    FilterAppend(kept, created, p);
    FilterNone(kept, p);
    FilterKeepsAll(created, p);
  }

  lemma {:induction false} FilterNone(s: seq<Block>, p: Block -> bool)
    requires forall i :: 0 <= i < |s| ==> !p(s[i])
    ensures Filter(s, p) == []
  {
    if s != [] {
      FilterNone(s[1..], p);
    }
  }

  /** A sync keeps every internal block and every block of another cottage. */
  lemma SyncKeepsOtherBlocks(blocks: seq<Block>, events: seq<FeedEvent>, cottageId: Id, firstId: Id, k: Block)
    requires k in blocks && (k.source == Internal || k.cottageId != cottageId)
    ensures k in KeepOthers(blocks, cottageId) + FeedBlocks(events, cottageId, firstId)
  {
  }

  /** While a synced event is stored, no overlapping request on the cottage is free. */
  lemma SyncedEventBlocks(bookings: seq<Booking>, blocks: seq<Block>, events: seq<FeedEvent>, cottageId: Id,
                          firstId: Id, i: nat, start: Instant, end: Instant, exclude: Option<Id>)
    requires i < |events| && events[i].start < events[i].end && start < end
    requires Overlaps(events[i].start, events[i].end, start, end)
    ensures !IsFree(bookings, KeepOthers(blocks, cottageId) + FeedBlocks(events, cottageId, firstId), cottageId, start, end, exclude)
  {
    var all := KeepOthers(blocks, cottageId) + FeedBlocks(events, cottageId, firstId);
    var j := |KeepOthers(blocks, cottageId)| + i;
    assert all[j] == FeedBlocks(events, cottageId, firstId)[i];
    EveryBlockBlocks(bookings, all, j, start, end, exclude);
  }

  const PRODID: string := "-//Green Cottage//Booking Calendar//EN"
  const SUMMARY: string := "Réservé - Green Cottage"
  const DESCRIPTION: string := "Cette période est réservée"

  /** An exported VEVENT (RFC 5545, section 3.6.1). */
  datatype ExportEvent = ExportEvent(uid: string, dtstart: Instant, dtend: Instant, summary: string, description: string)

  /** An exported VCALENDAR with its VERSION, PRODID and CALSCALE properties
      (RFC 5545, sections 3.7.4, 3.7.3 and 3.7.1). */
  datatype Calendar = Calendar(version: string, prodid: string, calscale: string, events: seq<ExportEvent>)

  /** The UID of a block's event: `green-cottage-<id>@green-cottage.com`. */
  function EventUid(id: Id): (r: string)
    ensures StartsWith(r, "green-cottage-") && EndsWith(r, "@green-cottage.com")
  {
    "green-cottage-" + NatToString(id) + "@green-cottage.com"
  }

  /** Different blocks get different UIDs, as RFC 5545 section 3.8.4.7 asks. */
  lemma EventUidInjective(a: Id, b: Id)
    requires EventUid(a) == EventUid(b)
    ensures a == b
  {
    var na := NatToString(a);
    var nb := NatToString(b);
    assert |na| == |nb|;
    assert na == EventUid(a)[14..14 + |na|];
    assert nb == EventUid(b)[14..14 + |nb|];
    NatToStringInjective(a, b);
  }

  function EventFor(k: Block): ExportEvent {
    ExportEvent(EventUid(k.id), k.startDate, k.endDate, SUMMARY, DESCRIPTION)
  }

  /** `generateICalExport`: one event per given block, in order, under the
      fixed calendar properties. */
  method GenerateICalExport(blocks: seq<Block>) returns (cal: Calendar)
    ensures cal.version == "2.0" && cal.prodid == PRODID && cal.calscale == "GREGORIAN"
    ensures |cal.events| == |blocks|
    ensures forall i :: 0 <= i < |blocks| ==>
      cal.events[i].uid == EventUid(blocks[i].id)
      && cal.events[i].dtstart == blocks[i].startDate && cal.events[i].dtend == blocks[i].endDate
      && cal.events[i].summary == SUMMARY && cal.events[i].description == DESCRIPTION
  {
    var events: seq<ExportEvent> := [];
    var i := 0;
    while i < |blocks|
      invariant 0 <= i <= |blocks|
      invariant |events| == i
      invariant forall j :: 0 <= j < i ==> events[j] == EventFor(blocks[j])
    {
      events := events + [EventFor(blocks[i])];
      i := i + 1;
    }
    cal := Calendar("2.0", PRODID, "GREGORIAN", events);
  }

  /** Blocks with distinct ids are exported under distinct UIDs. */
  lemma ExportUidsDistinct(blocks: seq<Block>, cal: Calendar)
    requires BlockIdsDistinct(blocks)
    requires |cal.events| == |blocks|
    requires forall i :: 0 <= i < |blocks| ==> cal.events[i].uid == EventUid(blocks[i].id)
    ensures forall i, j :: 0 <= i < j < |cal.events| ==> cal.events[i].uid != cal.events[j].uid
  {
    forall i, j | 0 <= i < j < |cal.events|
      ensures cal.events[i].uid != cal.events[j].uid
    {
      if cal.events[i].uid == cal.events[j].uid {
        EventUidInjective(blocks[i].id, blocks[j].id);
      }
    }
  }
}

=== FILE: invoice.dfy ===
/** Invoice numbering with a per-year counter, and what an invoice PDF shows
    (`lib/invoice.ts`). */
module Invoicing {
  import opened Wrappers
  import opened Text
  import opened Store

  /** `GC-<year>-<counter zero-padded to six digits>`. */
  function FormatInvoiceNumber(year: nat, counter: nat): (r: string)
    ensures StartsWith(r, "GC-")
  {
    "GC-" + NatToString(year) + "-" + PadStart(NatToString(counter), 6, '0')
  }

  /** Reads a year and a counter back from an invoice number. */
  function ParseInvoiceNumber(s: string): Option<(nat, nat)> {
    if !StartsWith(s, "GC-") then None
    else
      var rest := s[3..];
      match IndexOfChar(rest, '-')
      case None => None
      case Some(i) =>
        var y := rest[..i];
        var c := rest[i + 1..];
        if AllDigits(y) && AllDigits(c) then Some((DigitsValue(y), DigitsValue(c))) else None
  }

  /** Zero padding does not change the number a counter denotes, and the
      padded text is made of digits only. */
  lemma PaddedValue(counter: nat)
    ensures AllDigits(PadStart(NatToString(counter), 6, '0'))
    ensures DigitsValue(PadStart(NatToString(counter), 6, '0')) == counter
  {
    var n := NatToString(counter);
    var p := PadStart(n, 6, '0');
    NatToStringValue(counter);
    if |n| < 6 {
      var k := 6 - |n|;
      assert p == seq(k, _ => '0') + n;
      LeadingZerosValue(k, n);
    }
  }

  /** Every invoice number reads back as the year and counter it was made of. */
  lemma InvoiceNumberRoundTrip(year: nat, counter: nat)
    ensures ParseInvoiceNumber(FormatInvoiceNumber(year, counter)) == Some((year, counter))
  {
    var y := NatToString(year);
    var p := PadStart(NatToString(counter), 6, '0');
    var s := FormatInvoiceNumber(year, counter);
    assert s[..3] == "GC-";
    var rest := s[3..];
    assert rest == y + "-" + p;
    assert '-' !in y;
    assert rest[|y|] == '-';
    assert rest[..|y|] == y;
    assert IndexOfChar(rest, '-') == Some(|y|);
    assert rest[|y| + 1..] == p;
    NatToStringValue(year);
    PaddedValue(counter);
  }

  /** Different (year, counter) pairs never share an invoice number, so the
      unique constraint on numbers holds as long as counters only grow. */
  lemma InvoiceNumbersDistinct(y1: nat, c1: nat, y2: nat, c2: nat)
    requires (y1, c1) != (y2, c2)
    ensures FormatInvoiceNumber(y1, c1) != FormatInvoiceNumber(y2, c2)
  {
    InvoiceNumberRoundTrip(y1, c1);
    InvoiceNumberRoundTrip(y2, c2);
  }

  /** The first number of a year ends in `000001`. */
  lemma FirstNumberOfYear(year: nat)
    ensures FormatInvoiceNumber(year, 1) == "GC-" + NatToString(year) + "-000001"
  {
    assert NatToString(1) == "1";
  }

  /** Counters above 999999 are printed in full, not truncated. */
  lemma LargeCounterNotTruncated(year: nat, counter: nat)
    requires counter >= 1_000_000
    ensures |FormatInvoiceNumber(year, counter)| == 4 + |NatToString(year)| + |NatToString(counter)|
    ensures |NatToString(counter)| >= 7
  {
    DigitsAtLeast(counter);
  }

  lemma {:induction false} DigitsAtLeast(n: nat)
    ensures n >= 1_000_000 ==> |NatToString(n)| >= 7
    decreases n
  {
    if n >= 10 {
      DigitsAtLeast(n / 10);
      if n >= 1_000_000 {
        assert n / 10 >= 100_000;
        DigitsFloor(n / 10, 100_000);
      }
    }
  }

  lemma {:induction false} DigitsFloor(n: nat, bound: nat)
    requires bound == 100_000 && n >= bound
    ensures |NatToString(n)| >= 6
  {
    var a := n / 10;
    var b := a / 10;
    var c := b / 10;
    var d := c / 10;
    var e := d / 10;
    assert e >= 1;
    assert |NatToString(d)| >= 2;
    assert |NatToString(c)| >= 3;
    assert |NatToString(b)| >= 4;
    assert |NatToString(a)| >= 5;
  }

  /** The counter row for a year, 0 while there is none. */
  function CounterOf(counters: map<int, nat>, year: int): nat {
    if year in counters then counters[year] else 0
  }

  /** `generateInvoiceNumber`: creates the year's counter at 0 if missing,
      increments it by one and formats the new value. */
  method GenerateInvoiceNumber(db: Database, year: nat) returns (number: string)
    requires db.Valid()
    modifies db
    ensures db.Valid()
    ensures db.counters == old(db.counters)[year := CounterOf(old(db.counters), year) + 1]
    ensures number == FormatInvoiceNumber(year, CounterOf(old(db.counters), year) + 1)
    ensures db.bookings == old(db.bookings) && db.blocks == old(db.blocks) && db.invoices == old(db.invoices)
    ensures db.feeds == old(db.feeds) && db.cottages == old(db.cottages) && db.users == old(db.users)
    ensures db.reviews == old(db.reviews) && db.nextId == old(db.nextId)
  {
    if year !in db.counters {
      db.counters := db.counters[year := 0];
    }
    db.counters := db.counters[year := db.counters[year] + 1];
    number := FormatInvoiceNumber(year, db.counters[year]);
  }

  /** The priced lines of the invoice: the stay always; cleaning only when the
      booking asked for it and the cottage has a fee; tourist tax only when
      positive. */
  function InvoiceLines(b: Booking, c: Cottage): (lines: seq<LineItem>)
    ensures 1 <= |lines| <= 3
    ensures lines[0] == StayLine(Nights(b.startDate, b.endDate), c.basePrice * Nights(b.startDate, b.endDate) as real)
    ensures (exists i :: 0 <= i < |lines| && lines[i].CleaningLine?) <==> b.cleaning && FeeIsSet(c.cleaningFee)
    ensures (exists i :: 0 <= i < |lines| && lines[i].TouristTaxLine?) <==> b.touristTax > 0.0
    ensures |lines| == 1 + (if b.cleaning && FeeIsSet(c.cleaningFee) then 1 else 0) + (if b.touristTax > 0.0 then 1 else 0)
    ensures forall i :: 0 < i < |lines| ==> !lines[i].StayLine?
    ensures forall i :: 0 <= i < |lines| && lines[i].CleaningLine? ==>
      i == 1 && c.cleaningFee.Some? && lines[i] == CleaningLine(c.cleaningFee.value)
    ensures forall i :: 0 <= i < |lines| && lines[i].TouristTaxLine? ==>
      i == |lines| - 1 && lines[i] == TouristTaxLine(b.touristTax)
  {
    var nights := Nights(b.startDate, b.endDate);
    var stay := [StayLine(nights, c.basePrice * nights as real)];
    var cleaning := if b.cleaning && FeeIsSet(c.cleaningFee) then [CleaningLine(c.cleaningFee.value)] else [];
    var tax := if b.touristTax > 0.0 then [TouristTaxLine(b.touristTax)] else [];
    var lines := stay + cleaning + tax;
    assert lines[0] == stay[0];
    assert cleaning != [] ==> lines[1].CleaningLine?;
    assert tax != [] ==> lines[|lines| - 1].TouristTaxLine?;
    lines
  }

  /** `generateInvoicePDF`: fails when the cottage or the user is missing;
      otherwise prints the booking's existing invoice number when it has a
      non-empty one, and takes a new number from the counter when not. */
  method GenerateInvoicePdf(db: Database, b: Booking, existingNumber: Option<string>, year: nat)
    returns (r: Result<InvoiceDocument, string>)
    requires db.Valid()
    modifies db
    ensures db.Valid()
    ensures CottageById(old(db.cottages), b.cottageId).None? || b.userId !in old(db.users) ==>
      r.Err? && db.counters == old(db.counters)
    ensures r.Ok? <==> CottageById(old(db.cottages), b.cottageId).Some? && b.userId in old(db.users)
    ensures r.Ok? && existingNumber.Some? && existingNumber.value != "" ==>
      r.value.invoiceNumber == existingNumber.value && db.counters == old(db.counters)
    ensures r.Ok? && (existingNumber.None? || existingNumber.value == "") ==>
      r.value.invoiceNumber == FormatInvoiceNumber(year, CounterOf(old(db.counters), year) + 1)
      && db.counters == old(db.counters)[year := CounterOf(old(db.counters), year) + 1]
    ensures r.Ok? ==>
      r.value.lines == InvoiceLines(b, CottageById(old(db.cottages), b.cottageId).value)
      && r.value.nights == Nights(b.startDate, b.endDate) && r.value.total == b.total
    ensures db.bookings == old(db.bookings) && db.blocks == old(db.blocks) && db.invoices == old(db.invoices)
    ensures db.feeds == old(db.feeds) && db.cottages == old(db.cottages) && db.users == old(db.users)
    ensures db.reviews == old(db.reviews) && db.nextId == old(db.nextId)
  {
    var cottage := CottageById(db.cottages, b.cottageId);
    if cottage.None? || b.userId !in db.users {
      return Err("Cottage or user not found");
    }
    var number: string;
    if existingNumber.Some? && existingNumber.value != "" {
      number := existingNumber.value;
    } else {
      number := GenerateInvoiceNumber(db, year);
    }
    r := Ok(InvoiceDocument(number, Nights(b.startDate, b.endDate), InvoiceLines(b, cottage.value), b.total));
  }
}

=== FILE: migrate.dfy ===
/** The migration script for the hosted database: it reads `.env.local` with
    the same line parser as the build wrapper, picks a database URL, adds
    `sslmode=require` where needed, runs `prisma migrate deploy` and maps the
    child's outcome to an exit code. */
module MigrateVercel {
  import opened Wrappers
  import opened Text
  import opened BuildWithEnv

  const SSL_QUERY: string := "?sslmode=require&"
  const SSL_KEY: string := "sslmode="
  const ACCELERATE_PREFIX: string := "prisma+"

  /** `PRISMA_DATABASE_URL || POSTGRES_URL || DATABASE_URL`, with `None` when the
      result is falsy. */
  function ChooseDatabaseUrl(env: Env): (r: Option<string>)
    ensures r.Some? <==> IsSet(env, PRISMA_DATABASE_URL) || IsSet(env, POSTGRES_URL) || IsSet(env, DATABASE_URL)
    ensures r.Some? ==> r.value != ""
    ensures IsSet(env, PRISMA_DATABASE_URL) ==> r == Some(env[PRISMA_DATABASE_URL])
    ensures !IsSet(env, PRISMA_DATABASE_URL) && IsSet(env, POSTGRES_URL) ==> r == Some(env[POSTGRES_URL])
    ensures !IsSet(env, PRISMA_DATABASE_URL) && !IsSet(env, POSTGRES_URL) && IsSet(env, DATABASE_URL) ==> r == Some(env[DATABASE_URL])
  {
    if IsSet(env, PRISMA_DATABASE_URL) then Some(env[PRISMA_DATABASE_URL])
    else if IsSet(env, POSTGRES_URL) then Some(env[POSTGRES_URL])
    else if IsSet(env, DATABASE_URL) then Some(env[DATABASE_URL])
    else None
  }

  /** An Accelerate URL or one that already names an SSL mode is kept; otherwise
      the first `?` (only that one) becomes `?sslmode=require&`, and a URL
      without a query string is kept as it is. */
  function WithSslMode(url: string): (r: string)
    ensures StartsWith(url, ACCELERATE_PREFIX) || Contains(url, SSL_KEY) || '?' !in url ==> r == url
    ensures !StartsWith(url, ACCELERATE_PREFIX) && !Contains(url, SSL_KEY) && '?' in url ==>
      exists i :: 0 <= i < |url| && url[i] == '?' && '?' !in url[..i] && r == url[..i] + SSL_QUERY + url[i + 1..]
  {
    if StartsWith(url, ACCELERATE_PREFIX) || Contains(url, SSL_KEY) then url
    else
      match IndexOfChar(url, '?')
      case None => url
      case Some(i) => url[..i] + SSL_QUERY + url[i + 1..]
  }

  /** `p` occurs in `s` at position `i`. */
  lemma {:induction false} ContainsAt(s: string, p: string, i: nat)
    requires i + |p| <= |s| && s[i..i + |p|] == p
    ensures Contains(s, p)
    decreases i
  {
    if i > 0 {
      assert s[1..][i - 1..i - 1 + |p|] == s[i..i + |p|];
      ContainsAt(s[1..], p, i - 1);
    }
  }

  /** Rewriting twice is rewriting once: a rewritten URL names its SSL mode. */
  lemma SslModeIdempotent(url: string)
    ensures WithSslMode(WithSslMode(url)) == WithSslMode(url)
  {
    var r := WithSslMode(url);
    if r != url {
      var i :| 0 <= i < |url| && url[i] == '?' && '?' !in url[..i] && r == url[..i] + SSL_QUERY + url[i + 1..];
      RewrittenNamesSslMode(url[..i], url[i + 1..]);
    }
  }

  lemma RewrittenNamesSslMode(a: string, b: string)
    ensures Contains(a + SSL_QUERY + b, SSL_KEY)
  {
    var r := a + SSL_QUERY + b;
    assert r[|a| + 1..|a| + 1 + |SSL_KEY|] == SSL_KEY;
    ContainsAt(r, SSL_KEY, |a| + 1);
  }

  /** The program `spawnSync` runs and its arguments. */
  datatype Command = Command(cmd: string, args: seq<string>)

  /** The local Prisma binary (the web directory's before the workspace
      root's) with `migrate deploy`, or `npx prisma migrate deploy`. */
  function PrismaCommand(webBinExists: bool, rootBinExists: bool, webBin: string, rootBin: string): (c: Command)
    ensures |c.args| >= 2 && c.args[|c.args| - 2..] == ["migrate", "deploy"]
    ensures webBinExists ==> c == Command(webBin, ["migrate", "deploy"])
    ensures !webBinExists && rootBinExists ==> c == Command(rootBin, ["migrate", "deploy"])
    ensures !webBinExists && !rootBinExists ==> c == Command("npx", ["prisma", "migrate", "deploy"])
  {
    if webBinExists then Command(webBin, ["migrate", "deploy"])
    else if rootBinExists then Command(rootBin, ["migrate", "deploy"])
    else Command("npx", ["prisma", "migrate", "deploy"])
  }

  /** What `spawnSync` reports: a launch error, the terminating signal, and the
      exit status (`null` when there is none). */
  datatype SpawnResult = SpawnResult(error: Option<string>, signal: Option<string>, status: Option<int>)

  /** The script's exit code: 1 after a launch error or a signal, otherwise the
      child's non-zero status; `process.exit(null)` for a missing status exits
      with 0, like a successful run. */
  function ExitCode(r: SpawnResult): (code: int)
    ensures r.error.Some? || r.signal.Some? ==> code == 1
    ensures r.error.None? && r.signal.None? && r.status.Some? ==> code == r.status.value
    ensures code == 0 <==> r.error.None? && r.signal.None? && (r.status == Some(0) || r.status.None?)
  {
    if r.error.Some? then 1
    else if r.signal.Some? then 1
    else if r.status != Some(0) then r.status.GetOr(0)
    else 0
  }

  /** How a run ends: before Prisma is started, or after it ran. */
  datatype Run =
    | Stopped(code: int)
    | Spawned(command: Command, childEnv: Env, code: int)

  /** The script. The file system and the child process are inputs: whether
      `.env.local` and the two binaries exist, the file's text, and the
      outcome of the child. The child sees the process environment with only
      `DATABASE_URL` replaced; the other `.env.local` entries are not passed. */
  method Migrate(envLocalExists: bool, raw: string, processEnv: Env,
                 webBinExists: bool, rootBinExists: bool, webBin: string, rootBin: string,
                 child: SpawnResult)
    returns (run: Run)
    ensures !envLocalExists ==> run == Stopped(1)
    ensures envLocalExists && ChooseDatabaseUrl(EnvFromLines(Split(raw, '\n'))).None? ==> run == Stopped(1)
    ensures envLocalExists && ChooseDatabaseUrl(EnvFromLines(Split(raw, '\n'))).Some? ==>
      run == Spawned(PrismaCommand(webBinExists, rootBinExists, webBin, rootBin),
                     processEnv[DATABASE_URL := WithSslMode(ChooseDatabaseUrl(EnvFromLines(Split(raw, '\n'))).value)],
                     ExitCode(child))
    ensures run.Stopped? || (run.childEnv[DATABASE_URL] != "" && run.code == ExitCode(child))
  {
    if !envLocalExists {
      return Stopped(1);
    }
    var env := ParseEnv(raw);
    var databaseUrl := ChooseDatabaseUrl(env);
    if databaseUrl.None? {
      return Stopped(1);
    }
    var urlToUse := WithSslMode(databaseUrl.value);
    var command := PrismaCommand(webBinExists, rootBinExists, webBin, rootBin);
    run := Spawned(command, processEnv[DATABASE_URL := urlToUse], ExitCode(child));
  }
}

=== FILE: optimize_images.dfy ===
/** The image optimisation script: it picks the JPEG and PNG files of the photo
    directory, classifies each by its name, converts it to WebP at the widths
    of its category under a kebab-case name, and records the variants that
    succeeded in a manifest, plus the optimised logo. The image codec is not
    modelled: whether one conversion succeeds is an input. */
module OptimizeImages {
  import opened Wrappers
  import opened Text
  import opened Seqs

  /** The output directories, each with its maximum width. */
  datatype Size = Hero | Gallery | Cards | Thumbs | Branding

  function MaxWidth(size: Size): (w: int)
    ensures 400 <= w <= 1920
  {
    match size
    case Hero => 1920
    case Gallery => 1600
    case Cards => 1200
    case Thumbs => 600
    case Branding => 400
  }

  function SizeName(size: Size): string {
    match size
    case Hero => "hero"
    case Gallery => "gallery"
    case Cards => "cards"
    case Thumbs => "thumbs"
    case Branding => "branding"
  }

  /** A photo is a hero banner, a gallery picture or a card picture. */
  datatype Category = HeroImage | GalleryImage | CardImage

  const LOGO_FILE: string := "logo_l3m.png"
  const LOGO_KEY: string := "logo_l3m"

  // ---------------------------------------------------------------- names

  predicate IsSeparator(c: char) { IsSpace(c) || c == '_' }

  predicate IsKebabChar(c: char) { IsLowerAscii(c) || IsDigit(c) || c == '-' }

  predicate IsSafeChar(c: char) { IsLowerAscii(c) || IsUpperAscii(c) || IsDigit(c) || c == '-' }

  /** `s` without its `-` characters. */
  function WithoutDashes(s: string): (r: string)
    ensures '-' !in r
  {
    if s == [] then [] else (if s[0] == '-' then [] else [s[0]]) + WithoutDashes(s[1..])
  }

  /** `replace(/([a-z])([A-Z])/g, '$1-$2')`: a `-` between a lower-case letter
      and the upper-case letter after it. */
  function SplitCamel(s: string): (r: string)
    ensures forall x :: x in r ==> x in s || x == '-'
    ensures forall i :: 0 <= i < |r| - 1 ==> !(IsLowerAscii(r[i]) && IsUpperAscii(r[i + 1]))
    ensures r != [] && s != [] ==> r[0] == s[0]
    ensures r == [] <==> s == []
    decreases |s|
  {
    if |s| >= 2 && IsLowerAscii(s[0]) && IsUpperAscii(s[1]) then
      var rest := SplitCamel(s[2..]);
      assert forall x :: x in s[2..] ==> x in s;
      [s[0], '-', s[1]] + rest
    else if s == [] then []
    else
      var rest := SplitCamel(s[1..]);
      assert forall x :: x in s[1..] ==> x in s;
      assert rest != [] ==> rest[0] == s[1];
      [s[0]] + rest
  }

  /** The `-` characters are the only thing camel-case splitting adds. */
  lemma {:induction false} SplitCamelAddsOnlyDashes(s: string)
    ensures WithoutDashes(SplitCamel(s)) == WithoutDashes(s)
    decreases |s|
  {
    if |s| >= 2 && IsLowerAscii(s[0]) && IsUpperAscii(s[1]) {
      SplitCamelAddsOnlyDashes(s[2..]);
      WithoutDashesAppend([s[0], '-', s[1]], SplitCamel(s[2..]));
      WithoutDashesAppend([s[0], s[1]], s[2..]);
      assert s == [s[0], s[1]] + s[2..];
    } else if s != [] {
      SplitCamelAddsOnlyDashes(s[1..]);
      WithoutDashesAppend([s[0]], SplitCamel(s[1..]));
    }
  }

  lemma {:induction false} WithoutDashesAppend(a: string, b: string)
    ensures WithoutDashes(a + b) == WithoutDashes(a) + WithoutDashes(b)
  {
    if a != [] {
      assert (a + b)[1..] == a[1..] + b;
      WithoutDashesAppend(a[1..], b);
    } else {
      assert a + b == b;
    }
  }

  /** The text after a run of separators. */
  function SkipSeparators(s: string): (r: string)
    ensures |r| <= |s| && r == s[|s| - |r|..]
    ensures r == [] || !IsSeparator(r[0])
  {
    if s != [] && IsSeparator(s[0]) then SkipSeparators(s[1..]) else s
  }

  /** `replace(/[\s_]+/g, '-')`: each run of blanks and underscores becomes one `-`. */
  function CollapseSeparators(s: string): (r: string)
    ensures forall x :: x in r ==> (x in s && !IsSeparator(x)) || x == '-'
    ensures r != [] && s != [] && !IsSeparator(s[0]) ==> r[0] == s[0]
    ensures r == [] <==> s == []
    decreases |s|
  {
    if s == [] then []
    else if IsSeparator(s[0]) then
      var t := SkipSeparators(s);
      var rest := CollapseSeparators(t);
      assert forall x :: x in t ==> x in s;
      ['-'] + rest
    else
      var rest := CollapseSeparators(s[1..]);
      assert forall x :: x in s[1..] ==> x in s;
      [s[0]] + rest
  }

  /** A run of separators gives exactly one `-`: two separators in a row never
      give two dashes unless the name itself has a dash. */
  lemma {:induction false} CollapsedRunsAreSingle(s: string)
    requires '-' !in s
    ensures forall i :: 0 <= i < |CollapseSeparators(s)| - 1 ==>
      !(CollapseSeparators(s)[i] == '-' && CollapseSeparators(s)[i + 1] == '-')
    decreases |s|
  {
    if s != [] {
      if IsSeparator(s[0]) {
        var t := SkipSeparators(s);
        assert forall x :: x in t ==> x in s;
        CollapsedRunsAreSingle(t);
      } else {
        assert forall x :: x in s[1..] ==> x in s;
        CollapsedRunsAreSingle(s[1..]);
      }
    }
  }

  /** `toKebabCase`: camel-case split, separator runs to `-`, everything but
      letters, digits and `-` dropped, then lower-cased. */
  function KebabCase(name: string): (r: string)
    ensures forall i :: 0 <= i < |r| ==> IsKebabChar(r[i])
  {
    var safe := Filter(CollapseSeparators(SplitCamel(name)), IsSafeChar);
    var r := AsciiLower(safe);
    assert forall i :: 0 <= i < |r| ==> r[i] == LowerChar(safe[i]) && IsSafeChar(safe[i]);
    r
  }

  /** A name that is already kebab-case is kept as it is. */
  lemma KebabCaseKeepsKebab(name: string)
    requires forall i :: 0 <= i < |name| ==> IsKebabChar(name[i])
    ensures KebabCase(name) == name
  {
    SplitCamelIdentity(name);
    CollapseIdentity(name);
    FilterKeepsAll(name, IsSafeChar);
    var r := AsciiLower(name);
    assert forall i :: 0 <= i < |name| ==> r[i] == name[i];
  }

  lemma {:induction false} SplitCamelIdentity(s: string)
    requires forall i :: 0 <= i < |s| ==> !IsUpperAscii(s[i])
    ensures SplitCamel(s) == s
  {
    if s != [] {
      SplitCamelIdentity(s[1..]);
    }
  }

  lemma {:induction false} CollapseIdentity(s: string)
    requires forall i :: 0 <= i < |s| ==> !IsSeparator(s[i])
    ensures CollapseSeparators(s) == s
  {
    if s != [] {
      CollapseIdentity(s[1..]);
    }
  }

  /** The file name the variants are written under. */
  function OptimizedName(name: string): (r: string)
    ensures EndsWith(r, ".webp")
  {
    KebabCase(name) + ".webp"
  }

  // ---------------------------------------------------------------- files

  /** `/\.(jpg|jpeg|png)$/i` and not a dot-file. */
  predicate IsImageFile(file: string) {
    var lower := AsciiLower(file);
    (EndsWith(lower, ".jpg") || EndsWith(lower, ".jpeg") || EndsWith(lower, ".png"))
    && !StartsWith(file, ".")
  }

  /** The index of the last `.` in `s`. */
  function LastDot(s: string): (r: Option<nat>)
    ensures r.Some? ==> r.value < |s| && s[r.value] == '.' && '.' !in s[r.value + 1..]
    ensures r.None? ==> '.' !in s
  {
    if s == [] then None
    else if s[|s| - 1] == '.' then Some(|s| - 1)
    else
      var r := LastDot(s[..|s| - 1]);
      assert r.Some? ==> s[r.value + 1..] == s[..|s| - 1][r.value + 1..] + [s[|s| - 1]];
      r
  }

  /** `basename(file, extname(file))` for a directory entry: the name without
      the text from its last `.`, unless that `.` starts the name. */
  function BaseName(file: string): (r: string)
    ensures |r| <= |file| && r == file[..|r|]
    ensures IsImageFile(file) ==> 0 < |r| < |file|
  {
    match LastDot(file)
    case Some(i) => if i > 0 then file[..i] else file
    case None =>
      if IsImageFile(file) then ImageFileHasDot(file); file else file
  }

  lemma ImageFileHasDot(file: string)
    requires IsImageFile(file)
    ensures '.' in file
  {
    var lower := AsciiLower(file);
    var k := if EndsWith(lower, ".jpeg") then 5 else 4;
    assert lower[|lower| - k] == '.';
    assert file[|file| - k] == '.';
  }

  /** The category a file name implies, read case-insensitively. */
  function CategoryOf(file: string): (c: Category)
    ensures c == HeroImage <==> Contains(AsciiLower(file), "bandeau") || Contains(AsciiLower(file), "accueil")
    ensures c == GalleryImage <==>
      (c != HeroImage && (Contains(AsciiLower(file), "landscape") || Contains(AsciiLower(file), "forest") || Contains(AsciiLower(file), "cropped")))
  {
    var lower := AsciiLower(file);
    if Contains(lower, "bandeau") || Contains(lower, "accueil") then HeroImage
    else if Contains(lower, "landscape") || Contains(lower, "forest") || Contains(lower, "cropped") then GalleryImage
    else CardImage
  }

  /** The sizes a file is converted to, largest first: a hero banner only at
      hero width, any other photo at gallery, card and thumbnail widths. */
  function Variants(c: Category): (sizes: seq<Size>)
    ensures c == HeroImage ==> sizes == [Hero]
    ensures c != HeroImage ==> sizes == [Gallery, Cards, Thumbs]
    ensures forall i, j :: 0 <= i < j < |sizes| ==> MaxWidth(sizes[i]) > MaxWidth(sizes[j])
    ensures Branding !in sizes
  {
    if c == HeroImage then [Hero] else [Gallery, Cards, Thumbs]
  }

  /** One record of the manifest. */
  datatype Variant = Variant(original: string, optimized: string, path: string, category: Size, width: int)

  /** What `processImage` returns for a conversion that succeeded. */
  function VariantOf(file: string, optimized: string, size: Size): (v: Variant)
    ensures v.optimized == optimized && v.category == size && v.width == MaxWidth(size)
  {
    Variant(file, optimized, "/images/optimized/" + SizeName(size) + "/" + optimized, size, MaxWidth(size))
  }

  /** The records of the conversions of `file` that succeeded, in order. */
  function Converted(file: string, optimized: string, sizes: seq<Size>, ok: (string, Size) -> bool): (rs: seq<Variant>)
    ensures |rs| <= |sizes|
  {
    if sizes == [] then []
    else
      var last := sizes[|sizes| - 1];
      Converted(file, optimized, sizes[..|sizes| - 1], ok) + (if ok(file, last) then [VariantOf(file, optimized, last)] else [])
  }

  /** Every record names the optimized file at the width of its size, for a
      size that was asked for and succeeded; there are none exactly when every
      size failed. */
  lemma {:induction false} ConvertedFacts(file: string, optimized: string, sizes: seq<Size>, ok: (string, Size) -> bool)
    ensures var rs := Converted(file, optimized, sizes, ok);
      && (forall v :: v in rs ==> v.optimized == optimized && v.width == MaxWidth(v.category))
      && (forall v :: v in rs ==> v.category in sizes && ok(file, v.category))
      && (rs == [] <==> forall i :: 0 <= i < |sizes| ==> !ok(file, sizes[i]))
  {
    if sizes != [] {
      var init := sizes[..|sizes| - 1];
      ConvertedFacts(file, optimized, init, ok);
      assert forall x :: x in init ==> x in sizes;
      assert forall i :: 0 <= i < |init| ==> sizes[i] == init[i];
    }
  }

  function PhotoEntry(file: string, ok: (string, Size) -> bool): (e: Option<(string, seq<Variant>)>)
    ensures e.Some? ==> e.value.1 != []
  {
    var name := BaseName(file);
    var rs := Converted(file, OptimizedName(name), Variants(CategoryOf(file)), ok);
    if rs == [] then None else Some((name, rs))
  }

  /** A file gives an entry exactly when one of its variants succeeded; the entry's records name the kebab-case WebP file of
      its key and the width of their size, and none is a logo record. */
  lemma PhotoEntryFacts(file: string, ok: (string, Size) -> bool)
    ensures PhotoEntry(file, ok).None? <==>
      forall s :: s in Variants(CategoryOf(file)) ==> !ok(file, s)
    ensures PhotoEntry(file, ok).Some? ==> PhotoEntry(file, ok).value.0 == BaseName(file)
    ensures PhotoEntry(file, ok).Some? ==> forall v :: v in PhotoEntry(file, ok).value.1 ==>
      v.optimized == OptimizedName(PhotoEntry(file, ok).value.0) && v.width == MaxWidth(v.category) && v.category != Branding
  {
    ConvertedFacts(file, OptimizedName(BaseName(file)), Variants(CategoryOf(file)), ok);
  }

  type Manifest = map<string, seq<Variant>>
  type Entry = Option<(string, seq<Variant>)>

  /** The manifest after the entries in order; a later entry with the same
      key replaces the earlier one. */
  function ManifestOf(entries: seq<Entry>): (m: Manifest)
  {
    if entries == [] then map[]
    else
      var m := ManifestOf(entries[..|entries| - 1]);
      var e := entries[|entries| - 1];
      if e.Some? then m[e.value.0 := e.value.1] else m
  }

  /** A key is in the manifest exactly when some entry has it, and its
      records are those of the last such entry. */
  lemma {:induction false} ManifestOfKeys(entries: seq<Entry>, k: string)
    ensures k in ManifestOf(entries) <==> exists i :: 0 <= i < |entries| && entries[i].Some? && entries[i].value.0 == k
    ensures k in ManifestOf(entries) ==> exists i :: 0 <= i < |entries| && entries[i] == Some((k, ManifestOf(entries)[k]))
  {
    if entries != [] {
      var init := entries[..|entries| - 1];
      ManifestOfKeys(init, k);
      var e := entries[|entries| - 1];
      if !(e.Some? && e.value.0 == k) {
        if k in ManifestOf(init) {
          var i :| 0 <= i < |init| && init[i] == Some((k, ManifestOf(init)[k]));
          assert entries[i] == init[i];
        }
        if exists i :: 0 <= i < |entries| && entries[i].Some? && entries[i].value.0 == k {
          var i :| 0 <= i < |entries| && entries[i].Some? && entries[i].value.0 == k;
          assert init[i] == entries[i];
        }
      }
    }
  }

  /** The entries of the photo files, one per file, in order. */
  function PhotoEntries(files: seq<string>, ok: (string, Size) -> bool): (es: seq<Entry>)
    ensures |es| == |files|
  {
    if files == [] then [] else PhotoEntries(files[..|files| - 1], ok) + [PhotoEntry(files[|files| - 1], ok)]
  }

  lemma {:induction false} PhotoEntriesAt(files: seq<string>, ok: (string, Size) -> bool, i: nat)
    requires i < |files|
    ensures PhotoEntries(files, ok)[i] == PhotoEntry(files[i], ok)
  {
    if i < |files| - 1 {
      PhotoEntriesAt(files[..|files| - 1], ok, i);
    }
  }

  /** The manifest of the image files of the directory. */
  function PhotoManifest(sourceFiles: seq<string>, ok: (string, Size) -> bool): Manifest {
    ManifestOf(PhotoEntries(Filter(sourceFiles, IsImageFile), ok))
  }

  /** The whole manifest: the image files of the directory, then the logo when
      it exists and converts. */
  function FullManifest(sourceFiles: seq<string>, logoExists: bool, ok: (string, Size) -> bool): Manifest
  {
    var m := PhotoManifest(sourceFiles, ok);
    if logoExists && ok(LOGO_FILE, Branding) then m[LOGO_KEY := [VariantOf(LOGO_FILE, OptimizedName(LOGO_KEY), Branding)]] else m
  }

  /** The variants `processImage` produces for one photo, in order. */
  method ConvertPhoto(file: string, ok: (string, Size) -> bool) returns (filename: string, results: seq<Variant>)
    ensures filename == BaseName(file)
    ensures results == Converted(file, OptimizedName(filename), Variants(CategoryOf(file)), ok)
  {
    filename := BaseName(file);
    var optimized := OptimizedName(filename);
    var sizes := Variants(CategoryOf(file));
    results := ConvertSizes(file, optimized, sizes, ok);
  }

  /** The loop over the sizes of one photo. */
  method ConvertSizes(file: string, optimized: string, sizes: seq<Size>, ok: (string, Size) -> bool)
    returns (results: seq<Variant>)
    ensures results == Converted(file, optimized, sizes, ok)
  {
    results := [];
    var j := 0;
    while j < |sizes|
      invariant 0 <= j <= |sizes|
      invariant results == Converted(file, optimized, sizes[..j], ok)
    {
      assert sizes[..j + 1][..j] == sizes[..j];
      if ok(file, sizes[j]) {
        results := results + [VariantOf(file, optimized, sizes[j])];
      }
      j := j + 1;
    }
    assert sizes[..|sizes|] == sizes;
  }

  lemma EntryOfConverted(file: string, ok: (string, Size) -> bool)
    ensures var rs := Converted(file, OptimizedName(BaseName(file)), Variants(CategoryOf(file)), ok);
      PhotoEntry(file, ok) == if rs == [] then None else Some((BaseName(file), rs))
  {
  }

  /** `optimizeImages`'s loop over the image files. */
  method OptimizePhotos(imageFiles: seq<string>, ok: (string, Size) -> bool) returns (manifest: Manifest)
    ensures manifest == ManifestOf(PhotoEntries(imageFiles, ok))
  {
    manifest := map[];
    var i := 0;
    while i < |imageFiles|
      invariant 0 <= i <= |imageFiles|
      invariant manifest == ManifestOf(PhotoEntries(imageFiles[..i], ok))
    {
      var filename, results := ConvertPhoto(imageFiles[i], ok);
      EntryOfConverted(imageFiles[i], ok);
      ManifestStep(imageFiles, ok, i);
      if |results| > 0 {
        manifest := manifest[filename := results];
      }
      i := i + 1;
    }
    assert imageFiles[..|imageFiles|] == imageFiles;
  }

  /** One more file adds its entry, if any, to the manifest. */
  lemma ManifestStep(files: seq<string>, ok: (string, Size) -> bool, i: nat)
    requires i < |files|
    ensures var e := PhotoEntry(files[i], ok);
      var m := ManifestOf(PhotoEntries(files[..i], ok));
      ManifestOf(PhotoEntries(files[..i + 1], ok)) == if e.Some? then m[e.value.0 := e.value.1] else m
  {
    assert files[..i + 1][..i] == files[..i];
    var es := PhotoEntries(files[..i + 1], ok);
    assert es[..|es| - 1] == PhotoEntries(files[..i], ok);
  }

  /** `optimizeImages`: the image files of the directory, then the logo. */
  method Optimize(sourceFiles: seq<string>, logoExists: bool, ok: (string, Size) -> bool)
    returns (manifest: Manifest)
    ensures manifest == FullManifest(sourceFiles, logoExists, ok)
  {
    var imageFiles := Filter(sourceFiles, IsImageFile);
    manifest := OptimizePhotos(imageFiles, ok);
    if logoExists && ok(LOGO_FILE, Branding) {
      manifest := manifest[LOGO_KEY := [VariantOf(LOGO_FILE, OptimizedName(LOGO_KEY), Branding)]];
    }
  }

  /** Some conversion of the file succeeds. */
  predicate Converts(file: string, ok: (string, Size) -> bool) {
    exists s :: s in Variants(CategoryOf(file)) && ok(file, s)
  }

  /** The key is in the photo manifest exactly when some file of that name
      converts; its records are then those of one such file. */
  lemma PhotoManifestKeys(files: seq<string>, ok: (string, Size) -> bool, k: string)
    ensures k in ManifestOf(PhotoEntries(files, ok)) <==>
      exists i :: 0 <= i < |files| && BaseName(files[i]) == k && Converts(files[i], ok)
    ensures k in ManifestOf(PhotoEntries(files, ok)) ==>
      ManifestOf(PhotoEntries(files, ok))[k] != [] &&
      forall v :: v in ManifestOf(PhotoEntries(files, ok))[k] ==>
        v.optimized == OptimizedName(k) && v.width == MaxWidth(v.category) && v.category != Branding
  {
    var es := PhotoEntries(files, ok);
    var m := ManifestOf(es);
    ManifestOfKeys(es, k);
    if k in m {
      var i :| 0 <= i < |es| && es[i] == Some((k, m[k]));
      PhotoEntriesAt(files, ok, i);
      PhotoEntryFacts(files[i], ok);
    }
    if exists i :: 0 <= i < |files| && BaseName(files[i]) == k && Converts(files[i], ok) {
      var i :| 0 <= i < |files| && BaseName(files[i]) == k && Converts(files[i], ok);
      PhotoEntriesAt(files, ok, i);
      PhotoEntryFacts(files[i], ok);
      assert es[i].Some? && es[i].value.0 == k;
    }
  }

  /** `f` is an image file of the directory, named `k`, that converts. */
  predicate Contributes(sourceFiles: seq<string>, ok: (string, Size) -> bool, f: string, k: string) {
    f in sourceFiles && IsImageFile(f) && BaseName(f) == k && Converts(f, ok)
  }

  /** A key is in the photo manifest exactly when some image file of the
      directory with that name had a variant that succeeded; its records then
      name the kebab-case WebP file of the key, at the width of their size, and
      are never empty. The logo is added afterwards under its own key. */
  lemma ManifestEntries(sourceFiles: seq<string>, ok: (string, Size) -> bool, k: string)
    ensures k in PhotoManifest(sourceFiles, ok) <==> exists f :: Contributes(sourceFiles, ok, f, k)
    ensures k in PhotoManifest(sourceFiles, ok) ==>
      PhotoManifest(sourceFiles, ok)[k] != [] &&
      forall v :: v in PhotoManifest(sourceFiles, ok)[k] ==>
        v.optimized == OptimizedName(k) && v.width == MaxWidth(v.category) && v.category != Branding
  {
    var files := Filter(sourceFiles, IsImageFile);
    PhotoManifestKeys(files, ok, k);
    if k in PhotoManifest(sourceFiles, ok) {
      var i :| 0 <= i < |files| && BaseName(files[i]) == k && Converts(files[i], ok);
      FilterMembership(sourceFiles, IsImageFile, files[i]);
      assert Contributes(sourceFiles, ok, files[i], k);
    }
    if exists f :: Contributes(sourceFiles, ok, f, k) {
      var f :| Contributes(sourceFiles, ok, f, k);
      FilterMembership(sourceFiles, IsImageFile, f);
      ConvertingFileEnters(files, ok, k, f);
    }
  }

  lemma ConvertingFileEnters(files: seq<string>, ok: (string, Size) -> bool, k: string, f: string)
    requires f in files && BaseName(f) == k && Converts(f, ok)
    ensures k in ManifestOf(PhotoEntries(files, ok))
  {
    PhotoManifestKeys(files, ok, k);
    var i :| 0 <= i < |files| && files[i] == f;
  }
}

=== FILE: review_api.dfy ===
/** The public reviews endpoint (`GET`/`POST /api/reviews`): published reviews
    of a cottage, newest first, and submission of a new review, with the
    comment escaped and one submission per client address per minute. */
module ReviewApi {
  import opened Wrappers
  import opened Text
  import opened Seqs
  import opened Store
  import opened Sorting

  const COMMENT_SANITIZE_MAX_LENGTH: nat := 800
  const RATE_LIMIT_MS: int := 60_000
  const MAX_AUTHOR_LENGTH: nat := 120
  const ANONYMOUS: string := "Anonyme"
  const UNKNOWN_CLIENT: string := "unknown"

  /** `text.slice(0, max)`, then `<`, `>` and `"` escaped as entities, then `trim`. */
  function SanitizeComment(text: string): (r: string)
    ensures |text| <= COMMENT_SANITIZE_MAX_LENGTH ==> r == EscapeMarkup(text)
    ensures |text| > COMMENT_SANITIZE_MAX_LENGTH ==> r == EscapeMarkup(text[..COMMENT_SANITIZE_MAX_LENGTH])
    ensures Trim(r) == r
  {
    var r := EscapeMarkup(if |text| <= COMMENT_SANITIZE_MAX_LENGTH then text else text[..COMMENT_SANITIZE_MAX_LENGTH]);
    TrimUnchanged(r);
    r
  }

  /** The three replacements and the trim that follow the cut. */
  function EscapeMarkup(cut: string): string {
    Trim(ReplaceAll(ReplaceAll(ReplaceAll(cut, '<', "&lt;"), '>', "&gt;"), '"', "&quot;"))
  }

  /** A sanitized comment holds no `<`, `>` or `"`: every one was escaped. */
  lemma SanitizedHasNoMarkup(text: string)
    ensures '<' !in SanitizeComment(text) && '>' !in SanitizeComment(text) && '"' !in SanitizeComment(text)
  {
    var cut := if |text| <= COMMENT_SANITIZE_MAX_LENGTH then text else text[..COMMENT_SANITIZE_MAX_LENGTH];
    var a := ReplaceAll(cut, '<', "&lt;");
    var b := ReplaceAll(a, '>', "&gt;");
    var c := ReplaceAll(b, '"', "&quot;");
    NotIntroduced(cut, '<', "&lt;", '<');
    NotIntroduced(a, '>', "&gt;", '<');
    NotIntroduced(a, '>', "&gt;", '>');
    NotIntroduced(b, '"', "&quot;", '<');
    NotIntroduced(b, '"', "&quot;", '>');
    NotIntroduced(b, '"', "&quot;", '"');
  }

  /** The comment is cut before it is escaped, so a stored comment can be
      longer than the limit: 800 `<` become 3200 characters. */
  lemma EscapingAfterTruncation(text: string)
    requires |text| >= COMMENT_SANITIZE_MAX_LENGTH
    requires forall i :: 0 <= i < COMMENT_SANITIZE_MAX_LENGTH ==> text[i] == '<'
    ensures |SanitizeComment(text)| == 4 * COMMENT_SANITIZE_MAX_LENGTH
  {
    var cut := text[..COMMENT_SANITIZE_MAX_LENGTH];
    if |text| == COMMENT_SANITIZE_MAX_LENGTH {
      assert cut == text;
    }
    assert SanitizeComment(text) == EscapeMarkup(cut);
    EscapeUniform(cut);
  }

  /** Escaping a text made only of `<` multiplies its length by four. */
  lemma EscapeUniform(cut: string)
    requires forall i :: 0 <= i < |cut| ==> cut[i] == '<'
    ensures |EscapeMarkup(cut)| == 4 * |cut|
  {
    var a := ReplaceAll(cut, '<', "&lt;");
    ReplaceAllUniform(cut, '<', "&lt;");
    assert '>' !in cut && '"' !in cut;
    NotIntroduced(cut, '<', "&lt;", '>');
    NotIntroduced(cut, '<', "&lt;", '"');
    ReplaceAllAbsent(a, '>', "&gt;");
    ReplaceAllAbsent(a, '"', "&quot;");
    TrimUnchanged(a);
  }

  /** A global replacement leaves no `d` behind when neither the rest of the
      text nor the replacement has one. */
  lemma NotIntroduced(s: string, c: char, rep: string, d: char)
    requires d !in rep
    requires d == c || d !in s
    ensures d !in ReplaceAll(s, c, rep)
  {
  }

  /** A comment without markup characters, already trimmed and within the
      length limit, is stored as it was typed. */
  lemma PlainCommentUnchanged(text: string)
    requires |text| <= COMMENT_SANITIZE_MAX_LENGTH
    requires '<' !in text && '>' !in text && '"' !in text
    requires text == [] || (!IsSpace(text[0]) && !IsSpace(text[|text| - 1]))
    ensures SanitizeComment(text) == text
  {
    ReplaceAllAbsent(text, '<', "&lt;");
    ReplaceAllAbsent(text, '>', "&gt;");
    ReplaceAllAbsent(text, '"', "&quot;");
    TrimUnchanged(text);
  }

  lemma TrimUnchanged(s: string)
    requires s == [] || (!IsSpace(s[0]) && !IsSpace(s[|s| - 1]))
    ensures Trim(s) == s
  {
  }

  /** Request headers, by lower-case name. */
  type Headers = map<string, string>

  /** The first entry of a comma-separated `x-forwarded-for`, trimmed. */
  function FirstForwarded(v: string): string {
    Trim(Split(v, ',')[0])
  }

  /** `getClientIp`: the first address of `x-forwarded-for`, trimmed; failing
      that (header absent or first entry blank), `x-real-ip` if non-empty;
      failing that, `unknown`. */
  function GetClientIp(headers: Headers): (r: string)
    ensures r != ""
    ensures "x-forwarded-for" in headers && FirstForwarded(headers["x-forwarded-for"]) != "" ==>
      r == FirstForwarded(headers["x-forwarded-for"])
      && ',' !in r && StartsWith(TrimStart(headers["x-forwarded-for"]), r)
    ensures "x-forwarded-for" !in headers || FirstForwarded(headers["x-forwarded-for"]) == "" ==>
      r == (if "x-real-ip" in headers && headers["x-real-ip"] != "" then headers["x-real-ip"] else UNKNOWN_CLIENT)
  {
    var forwarded := if "x-forwarded-for" in headers then FirstForwarded(headers["x-forwarded-for"]) else "";
    if forwarded != "" then
      FirstAddressIsPrefix(headers["x-forwarded-for"]);
      forwarded
    else if "x-real-ip" in headers && headers["x-real-ip"] != "" then headers["x-real-ip"]
    else UNKNOWN_CLIENT
  }

  /** A header listing a trimmed address before its first comma (or alone)
      identifies the client by that address. */
  lemma ListedAddressWins(headers: Headers, a: string, rest: string)
    requires "x-forwarded-for" in headers && headers["x-forwarded-for"] == a + rest
    requires rest == [] || rest[0] == ','
    requires ',' !in a && a != [] && !IsSpace(a[0]) && !IsSpace(a[|a| - 1])
    ensures GetClientIp(headers) == a
  {
    FirstPiece(a + rest, |a|);
    assert (a + rest)[..|a|] == a;
    TrimUnchanged(a);
  }

  /** When the text before the first comma is blank (a leading comma, or a
      header of white space only), the client falls back to `x-real-ip`. */
  lemma BlankFirstEntryFallsBack(headers: Headers, k: nat)
    requires "x-forwarded-for" in headers
    requires k <= |headers["x-forwarded-for"]|
    requires k == |headers["x-forwarded-for"]| || headers["x-forwarded-for"][k] == ','
    requires forall i :: 0 <= i < k ==> IsSpace(headers["x-forwarded-for"][i])
    ensures GetClientIp(headers) ==
      (if "x-real-ip" in headers && headers["x-real-ip"] != "" then headers["x-real-ip"] else UNKNOWN_CLIENT)
  {
    BlankFirstAddress(headers["x-forwarded-for"], k);
  }

  /** The first piece of a split ends at position `k` when `k` is where the
      first comma (or the end) is. */
  lemma FirstPiece(v: string, k: nat)
    requires k <= |v| && (k == |v| || v[k] == ',') && ',' !in v[..k]
    ensures Split(v, ',')[0] == v[..k]
  {
    var p := Split(v, ',')[0];
    assert p == v[..|p|];
    if |p| < k {
      assert v[|p|] == v[..k][|p|];
    }
  }

  /** The trimmed first piece of a comma list begins the trimmed list. */
  lemma FirstAddressIsPrefix(v: string)
    ensures ',' !in Trim(Split(v, ',')[0])
    ensures StartsWith(TrimStart(v), Trim(Split(v, ',')[0]))
  {
    var p := Split(v, ',')[0];
    assert ',' !in p;
    assert p == v[..|p|];
    TrimmedPrefix(v, p);
  }

  /** Trimming a prefix of `v` gives a prefix of `v` with its leading space dropped. */
  lemma TrimmedPrefix(v: string, p: string)
    requires |p| <= |v| && p == v[..|p|]
    ensures StartsWith(TrimStart(v), Trim(p))
  {
    var ts := TrimStart(p);
    if ts != [] {
      TrimStartOfPrefix(v, p);
      StartsWithTrans(TrimStart(v), ts, TrimEnd(ts));
    }
  }

  /** When a prefix of `v` is not blank, `v` loses the same leading space. */
  lemma TrimStartOfPrefix(v: string, p: string)
    requires |p| <= |v| && p == v[..|p|] && TrimStart(p) != []
    ensures StartsWith(TrimStart(v), TrimStart(p))
  {
    var ts := TrimStart(p);
    var d := |p| - |ts|;
    assert p[d] == ts[0] == v[d];
    assert forall i :: 0 <= i < d ==> v[i] == p[i];
    TrimStartPrefix(v, d);
    assert TrimStart(v)[..|ts|] == v[d..|p|] == p[d..];
  }

  lemma StartsWithTrans(a: string, b: string, c: string)
    requires StartsWith(a, b) && StartsWith(b, c)
    ensures StartsWith(a, c)
  {
    assert a[..|c|] == a[..|b|][..|c|];
  }

  /** White space up to the first comma, or up to the end, gives a blank first piece. */
  lemma BlankFirstAddress(v: string, k: nat)
    requires k <= |v| && (k == |v| || v[k] == ',')
    requires forall i :: 0 <= i < k ==> IsSpace(v[i])
    ensures FirstForwarded(v) == ""
  {
    assert forall i :: 0 <= i < k ==> v[..k][i] == v[i];
    FirstPiece(v, k);
    var p := v[..k];
    assert forall i :: 0 <= i < |p| ==> IsSpace(p[i]);
  }

  /** Dropping leading white space stops at the first non-space. */
  lemma {:induction false} TrimStartPrefix(v: string, d: nat)
    requires d <= |v|
    requires forall i :: 0 <= i < d ==> IsSpace(v[i])
    requires d == |v| || !IsSpace(v[d])
    ensures TrimStart(v) == v[d..]
  {
    if d > 0 {
      TrimStartPrefix(v[1..], d - 1);
      assert v[1..][d - 1..] == v[d..];
    }
  }

  /** The fields of the JSON body as the schema sees them; `None` where a
      field is missing or of the wrong type. */
  datatype AuthorField = AuthorMissing | AuthorNull | AuthorText(text: string) | AuthorInvalid

  datatype PostBody = PostBody(slug: Option<string>, rating: Option<real>, author: AuthorField, comment: Option<string>)

  /** The schema: a non-empty slug, an integer rating from 1 to 5, an optional
      or null author of at most 120 characters, a comment of 1 to 800 characters. */
  predicate ValidBody(b: PostBody): (ok: bool)
    ensures ok ==> b.rating.Some? && b.rating.value.Floor as real == b.rating.value && 1 <= b.rating.value.Floor <= 5
    ensures ok ==> b.comment.Some? && b.comment.value != [] && SanitizeComment(b.comment.value) == EscapeMarkup(b.comment.value)
    ensures ok ==> AuthorValue(b.author).None? || |AuthorValue(b.author).value| <= MAX_AUTHOR_LENGTH
  {
    && b.slug.Some? && |b.slug.value| >= 1
    && b.rating.Some? && b.rating.value == b.rating.value.Floor as real && 1.0 <= b.rating.value <= 5.0
    && !b.author.AuthorInvalid? && (b.author.AuthorText? ==> |b.author.text| <= MAX_AUTHOR_LENGTH)
    && b.comment.Some? && 1 <= |b.comment.value| <= COMMENT_SANITIZE_MAX_LENGTH
  }

  function AuthorValue(a: AuthorField): Option<string> {
    if a.AuthorText? then Some(a.text) else None
  }

  /** What a submission comes to: refused with a status, or the review to store. */
  datatype PostDecision = Refused(status: int) | Accepted(review: PublicReview)

  /** The checks of `POST` in their order: rate limit (429), unreadable body
      (500), schema (400), unknown cottage (404), then the insert: a missing
      table gives 503 and any other failure 500. */
  function Judge(limited: bool, cottages: seq<Cottage>, body: Option<PostBody>, outcome: CreateOutcome,
                 id: Id, now: Instant): (d: PostDecision)
    ensures limited ==> d == Refused(429)
    ensures d.Accepted? <==>
      !limited && body.Some? && ValidBody(body.value) && CottageBySlug(cottages, body.value.slug.value).Some? && outcome.Created?
    ensures d.Accepted? ==>
      var b := body.value;
      && d.review.id == id && d.review.createdAt == now && d.review.status == Published
      && d.review.cottageId == CottageBySlug(cottages, b.slug.value).value.id && d.review.slug == b.slug.value
      && 1 <= d.review.rating <= 5 && d.review.rating as real == b.rating.value
      && d.review.author == AuthorValue(b.author)
      && d.review.comment == SanitizeComment(b.comment.value)
      && '<' !in d.review.comment && '>' !in d.review.comment && '"' !in d.review.comment
    ensures !limited && body.None? ==> d == Refused(500)
    ensures !limited && body.Some? && !ValidBody(body.value) ==> d == Refused(400)
    ensures !limited && body.Some? && ValidBody(body.value) && CottageBySlug(cottages, body.value.slug.value).None? ==>
      d == Refused(404)
    ensures !limited && body.Some? && ValidBody(body.value) && CottageBySlug(cottages, body.value.slug.value).Some? ==>
      && (outcome.TableMissing? ==> d == Refused(503))
      && (outcome.OtherFailure? ==> d == Refused(500))
    ensures d.Refused? ==> d.status in {429, 500, 400, 404, 503}
  {
    if limited then Refused(429)
    else if body.None? then Refused(500)
    else if !ValidBody(body.value) then Refused(400)
    else
      var b := body.value;
      match CottageBySlug(cottages, b.slug.value)
      case None => Refused(404)
      case Some(c) =>
        match outcome
        case TableMissing => Refused(503)
        case OtherFailure => Refused(500)
        case Created =>
          SanitizedHasNoMarkup(b.comment.value);
          Accepted(PublicReview(id, c.id, b.slug.value, b.rating.value.Floor, AuthorValue(b.author),
                                SanitizeComment(b.comment.value), Published, now))
  }

  /** How the insert ends: stored, the table is missing (P2021), or another failure. */
  datatype CreateOutcome = Created | TableMissing | OtherFailure

  /** One review as `GET` returns it. */
  datatype ReviewView = ReviewView(id: Id, rating: int, author: string, comment: string, createdAt: Instant)

  function CreatedKey(r: PublicReview): SortKey {
    SortKey(r.createdAt, 0)
  }

  /** The published reviews of a cottage. */
  function PublishedFor(reviews: seq<PublicReview>, cottageId: Id): (r: seq<PublicReview>)
    ensures forall i :: 0 <= i < |r| ==> r[i] in reviews && r[i].cottageId == cottageId && r[i].status == Published
    ensures forall i :: 0 <= i < |reviews| && reviews[i].cottageId == cottageId && reviews[i].status == Published ==> reviews[i] in r
  {
    Filter(reviews, (v: PublicReview) => v.cottageId == cottageId && v.status == Published)
  }

  function ToView(r: PublicReview): (v: ReviewView)
    ensures r.author.Some? ==> v.author == r.author.value
    ensures r.author.None? ==> v.author == ANONYMOUS
  {
    ReviewView(r.id, r.rating, if r.author.Some? then r.author.value else ANONYMOUS, r.comment, r.createdAt)
  }

  function Views(rs: seq<PublicReview>): (r: seq<ReviewView>)
    ensures |r| == |rs| && forall i :: 0 <= i < |rs| ==> r[i] == ToView(rs[i])
  {
    if rs == [] then [] else [ToView(rs[0])] + Views(rs[1..])
  }

  /** `GET /api/reviews?slug=`: 400 without a slug, 404 for an unknown
      cottage, otherwise its published reviews, newest first. */
  method Get(db: Database, slug: Option<string>) returns (status: int, body: seq<ReviewView>)
    ensures slug.None? || slug.value == "" ==> status == 400 && body == []
    ensures slug.Some? && slug.value != "" && CottageBySlug(db.cottages, slug.value).None? ==> status == 404 && body == []
    ensures slug.Some? && slug.value != "" && CottageBySlug(db.cottages, slug.value).Some? ==>
      status == 200
      && (exists rs :: multiset(rs) == multiset(PublishedFor(db.reviews, CottageBySlug(db.cottages, slug.value).value.id))
                       && SortedDesc(rs, CreatedKey) && body == Views(rs))
  {
    if slug.None? || slug.value == "" {
      return 400, [];
    }
    var cottage := CottageBySlug(db.cottages, slug.value);
    if cottage.None? {
      return 404, [];
    }
    var rs := SortDesc(PublishedFor(db.reviews, cottage.value.id), CreatedKey);
    status, body := 200, Views(rs);
  }

  /** The in-memory map from client address to the time of its last accepted submission. */
  class RateLimiter {
    var lastSubmit: map<string, Instant>

    constructor ()
      ensures lastSubmit == map[]
    {
      lastSubmit := map[];
    }

    /** A client is refused while less than a minute has passed since its last accepted review. */
    predicate Limited(ip: string, now: Instant)
      reads this
    {
      ip in lastSubmit && now - lastSubmit[ip] < RATE_LIMIT_MS
    }

    /** `POST /api/reviews`. `body` is `None` when the request is not JSON;
        `outcome` is how the insert ends. Only an accepted review is stored
        and starts the client's minute. */
    method Post(db: Database, headers: Headers, now: Instant, body: Option<PostBody>, outcome: CreateOutcome)
      returns (status: int)
      requires db.Valid()
      modifies this, db
      ensures db.Valid()
      ensures var d := Judge(old(Limited(GetClientIp(headers), now)), old(db.cottages), body, outcome, old(db.nextId), now);
        if d.Refused? then status == d.status && unchanged(db) && unchanged(this)
        else
          && status == 200
          && lastSubmit == old(lastSubmit)[GetClientIp(headers) := now]
          && (forall t :: now <= t < now + RATE_LIMIT_MS ==> Limited(GetClientIp(headers), t))
          && db.reviews == old(db.reviews) + [d.review] && db.nextId == old(db.nextId) + 1
          && db.bookings == old(db.bookings) && db.blocks == old(db.blocks) && db.invoices == old(db.invoices)
          && db.counters == old(db.counters) && db.feeds == old(db.feeds) && db.cottages == old(db.cottages)
          && db.users == old(db.users)
    {
      var ip := GetClientIp(headers);
      var limited := ip in lastSubmit && now - lastSubmit[ip] < RATE_LIMIT_MS;
      assert limited == Limited(ip, now);
      var d := Judge(limited, db.cottages, body, outcome, db.nextId, now);
      match d {
        case Refused(code) =>
          status := code;
        case Accepted(review) =>
          assert review.id == db.nextId;
          db.AddReview(review);
          lastSubmit := lastSubmit[ip := now];
          forall t | now <= t < now + RATE_LIMIT_MS
            ensures Limited(ip, t)
          {
            StampedIsLimited(ip, now, t);
          }
          status := 200;
      }
    }

    /** Once an address is stamped, it is refused for the next minute. */
    lemma StampedIsLimited(ip: string, now: Instant, later: Instant)
      requires ip in lastSubmit && lastSubmit[ip] == now
      requires now <= later < now + RATE_LIMIT_MS
      ensures Limited(ip, later)
    {
    }
  }
}

=== FILE: reviews.dfy ===
/** The static guest reviews bundled with the site (`lib/reviews.ts`): a JSON
    object from cottage slug to a list of reviews, read in key order. */
module Reviews {
  import opened Wrappers
  import opened Seqs
  import opened Store
  import opened Sorting

  datatype LocalizedText = LocalizedText(fr: string, en: string)

  datatype Review = Review(id: string, rating: int, comment: LocalizedText, author: string, createdAt: Instant)

  /** The value stored under a slug: a list of reviews, or anything else. */
  datatype Entry = ReviewList(items: seq<Review>) | NotAList

  /** The JSON object as its keys in order with their values. */
  type ReviewData = seq<(string, Entry)>

  predicate KeysDistinct(data: ReviewData) {
    forall i, j :: 0 <= i < j < |data| ==> data[i].0 != data[j].0
  }

  datatype ReviewWithSlug = ReviewWithSlug(review: Review, slug: string)

  /** `getReviewsBySlug`: the reviews under the slug, and `[]` when the key is
      missing or its value is not a list. */
  function GetReviewsBySlug(data: ReviewData, slug: string): (r: seq<Review>)
    ensures (forall i :: 0 <= i < |data| ==> data[i].0 != slug) ==> r == []
    ensures forall i :: 0 <= i < |data| && data[i].0 == slug && (forall j :: 0 <= j < i ==> data[j].0 != slug) ==>
      r == (if data[i].1.ReviewList? then data[i].1.items else [])
  {
    if data == [] then []
    else if data[0].0 == slug then (if data[0].1.ReviewList? then data[0].1.items else [])
    else GetReviewsBySlug(data[1..], slug)
  }

  function SumRatings(reviews: seq<Review>): int {
    if reviews == [] then 0 else SumRatings(reviews[..|reviews| - 1]) + reviews[|reviews| - 1].rating
  }

  /** `computeAverageRating`: the mean rating rounded to one decimal, and the count. */
  function ComputeAverageRating(reviews: seq<Review>): (r: (real, nat))
    ensures r.1 == |reviews|
    ensures reviews == [] ==> r.0 == 0.0
    ensures reviews != [] ==>
      var mean := SumRatings(reviews) as real / |reviews| as real;
      mean - 0.05 < r.0 <= mean + 0.05
    ensures reviews != [] ==> (r.0 * 10.0).Floor as real == r.0 * 10.0
  {
    var count := |reviews|;
    if count == 0 then (0.0, 0)
    else
      var mean := SumRatings(reviews) as real / count as real;
      var tenths := Round(mean * 10.0);
      (tenths as real / 10.0, count)
  }

  lemma {:induction false} SumBounds(reviews: seq<Review>, lo: int, hi: int)
    requires forall i :: 0 <= i < |reviews| ==> lo <= reviews[i].rating <= hi
    ensures |reviews| * lo <= SumRatings(reviews) <= |reviews| * hi
  {
    if reviews != [] {
      SumBounds(reviews[..|reviews| - 1], lo, hi);
    }
  }

  /** The rounded average never leaves the range of the ratings, so with
      ratings from 1 to 5 it is between 1 and 5. */
  lemma AverageWithinRatings(reviews: seq<Review>, lo: int, hi: int)
    requires reviews != []
    requires forall i :: 0 <= i < |reviews| ==> lo <= reviews[i].rating <= hi
    ensures lo as real <= ComputeAverageRating(reviews).0 <= hi as real
  {
    SumBounds(reviews, lo, hi);
    var n := |reviews| as real;
    var sum := SumRatings(reviews) as real;
    assert n * (lo as real) <= sum <= n * (hi as real);
    MeanBounds(sum, n, lo as real, hi as real);
    var mean := sum / n;
    RoundBounds(mean * 10.0, lo * 10, hi * 10);
  }

  lemma MeanBounds(sum: real, n: real, lo: real, hi: real)
    requires n > 0.0 && n * lo <= sum <= n * hi
    ensures lo <= sum / n <= hi
  {
    assert (sum / n) * n == sum;
  }

  lemma RoundBounds(x: real, a: int, b: int)
    requires a as real <= x <= b as real
    ensures a <= Round(x) <= b
  {
  }

  /** Every review of every slug whose value is a list, with its slug, in key order. */
  function Flatten(data: ReviewData): (r: seq<ReviewWithSlug>)
  {
    if data == [] then []
    else
      var rest := Flatten(data[1..]);
      if data[0].1.ReviewList? then Tag(data[0].1.items, data[0].0) + rest else rest
  }

  function Tag(items: seq<Review>, slug: string): (r: seq<ReviewWithSlug>)
    ensures |r| == |items|
    ensures forall i :: 0 <= i < |r| ==> r[i] == ReviewWithSlug(items[i], slug)
  {
    if items == [] then [] else [ReviewWithSlug(items[0], slug)] + Tag(items[1..], slug)
  }

  /** A review appears in the flattened list exactly when it is listed under
      the slug attached to it. */
  lemma {:induction false} FlattenMembership(data: ReviewData, x: ReviewWithSlug)
    ensures x in Flatten(data) <==>
      exists i :: 0 <= i < |data| && data[i].0 == x.slug && data[i].1.ReviewList? && x.review in data[i].1.items
  {
    if data != [] {
      FlattenMembership(data[1..], x);
      var head := data[0];
      if head.1.ReviewList? {
        var t := Tag(head.1.items, head.0);
        assert x in t <==> (x.slug == head.0 && x.review in head.1.items) by {
          if x in t {
            var k :| 0 <= k < |t| && t[k] == x;
          }
          if x.slug == head.0 && x.review in head.1.items {
            var k :| 0 <= k < |head.1.items| && head.1.items[k] == x.review;
            assert t[k] == x;
          }
        }
      }
      if exists i :: 0 <= i < |data[1..]| && data[1..][i].0 == x.slug && data[1..][i].1.ReviewList? && x.review in data[1..][i].1.items {
        var i :| 0 <= i < |data[1..]| && data[1..][i].0 == x.slug && data[1..][i].1.ReviewList? && x.review in data[1..][i].1.items;
        assert data[i + 1] == data[1..][i];
      }
      if exists i :: 0 <= i < |data| && data[i].0 == x.slug && data[i].1.ReviewList? && x.review in data[i].1.items {
        var i :| 0 <= i < |data| && data[i].0 == x.slug && data[i].1.ReviewList? && x.review in data[i].1.items;
        if i > 0 {
          assert data[1..][i - 1] == data[i];
        }
      }
    }
  }

  /** The two `forEach` loops that collect every review with its slug. */
  method CollectReviews(data: ReviewData) returns (list: seq<ReviewWithSlug>)
    ensures list == Flatten(data)
  {
    list := [];
    var k := 0;
    while k < |data|
      invariant 0 <= k <= |data|
      invariant list + Flatten(data[k..]) == Flatten(data)
    {
      var slug := data[k].0;
      assert data[k..][1..] == data[k + 1..];
      match data[k].1 {
        case NotAList =>
        case ReviewList(items) =>
          list := AppendTagged(list, items, slug);
      }
      k := k + 1;
    }
    assert data[|data|..] == [];
  }

  /** The inner `forEach`: each review of one slug, in order, appended. */
  method AppendTagged(list: seq<ReviewWithSlug>, items: seq<Review>, slug: string) returns (out: seq<ReviewWithSlug>)
    ensures out == list + Tag(items, slug)
  {
    out := list;
    var j := 0;
    while j < |items|
      invariant 0 <= j <= |items|
      invariant |out| == |list| + j && out[..|list|] == list
      invariant forall i :: 0 <= i < j ==> out[|list| + i] == ReviewWithSlug(items[i], slug)
    {
      out := out + [ReviewWithSlug(items[j], slug)];
      j := j + 1;
    }
    assert out == list + Tag(items, slug);
  }

  function DateKey(r: ReviewWithSlug): SortKey {
    SortKey(r.review.createdAt, 0)
  }

  function RatingKey(r: ReviewWithSlug): SortKey {
    SortKey(r.review.rating, r.review.createdAt)
  }

  /** `getAllReviewsWithSlug`: every review with its slug, newest first. */
  method GetAllReviewsWithSlug(data: ReviewData) returns (r: seq<ReviewWithSlug>)
    ensures multiset(r) == multiset(Flatten(data))
    ensures SortedDesc(r, DateKey)
  {
    var list := CollectReviews(data);
    r := SortDesc(list, DateKey);
  }

  /** `getBestRatedReviews(limit)`: the `limit` best-rated reviews, ties broken
      by date, newest first. */
  method GetBestRatedReviews(data: ReviewData, limit: int) returns (r: seq<ReviewWithSlug>)
    ensures SortedDesc(r, RatingKey)
    ensures multiset(r) <= multiset(Flatten(data))
    ensures limit >= 0 ==> |r| == if limit < |Flatten(data)| then limit else |Flatten(data)|
    ensures forall x, i :: x in Flatten(data) && x !in r && 0 <= i < |r| ==> KeyGe(RatingKey(r[i]), RatingKey(x))
  {
    var list := CollectReviews(data);
    var sorted := SortDesc(list, RatingKey);
    r := Take(sorted, limit);
    assert multiset(r) <= multiset(sorted) by {
      assert sorted == r + sorted[|r|..];
    }
    TakeOfSortedIsTop(sorted, RatingKey, limit);
    forall x | x in Flatten(data)
      ensures x in sorted
    {
      assert x in multiset(sorted);
    }
  }

  /** The default limit of `getBestRatedReviews`. */
  const DEFAULT_BEST_LIMIT: int := 6

  /** `getBestRatedReviews()` with its default argument. */
  method GetBestRatedReviewsDefault(data: ReviewData) returns (r: seq<ReviewWithSlug>)
    ensures SortedDesc(r, RatingKey)
    ensures multiset(r) <= multiset(Flatten(data))
    ensures |r| == if DEFAULT_BEST_LIMIT < |Flatten(data)| then DEFAULT_BEST_LIMIT else |Flatten(data)|
  {
    r := GetBestRatedReviews(data, DEFAULT_BEST_LIMIT);
  }

  /** `getSlugsWithReviews`: the keys whose value is a non-empty list, in order. */
  function GetSlugsWithReviews(data: ReviewData): (r: seq<string>)
    ensures |r| <= |data|
  {
    if data == [] then []
    else
      var rest := GetSlugsWithReviews(data[1..]);
      if data[0].1.ReviewList? && |data[0].1.items| > 0 then [data[0].0] + rest else rest
  }

  /** The slugs keep the order of the keys: splitting the data anywhere, the
      slugs of the first part come before the slugs of the second. */
  lemma {:induction false} SlugsAppend(a: ReviewData, b: ReviewData)
    ensures GetSlugsWithReviews(a + b) == GetSlugsWithReviews(a) + GetSlugsWithReviews(b)
  {
    if a != [] {
      assert (a + b)[1..] == a[1..] + b;
      SlugsAppend(a[1..], b);
    } else {
      assert a + b == b;
    }
  }

  /** With distinct keys, no slug is offered twice. */
  lemma {:induction false} SlugsDistinct(data: ReviewData)
    requires KeysDistinct(data)
    ensures var r := GetSlugsWithReviews(data);
      forall i, j :: 0 <= i < j < |r| ==> r[i] != r[j]
  {
    if data != [] {
      assert KeysDistinct(data[1..]);
      SlugsDistinct(data[1..]);
      var rest := GetSlugsWithReviews(data[1..]);
      if data[0].1.ReviewList? && |data[0].1.items| > 0 {
        NotInTail(data, data[0].0);
        var r := [data[0].0] + rest;
        forall i, j | 0 <= i < j < |r| ensures r[i] != r[j] {
          assert r[j] == rest[j - 1];
          if i > 0 { assert r[i] == rest[i - 1]; }
        }
        assert GetSlugsWithReviews(data) == r;
      } else {
        var r := GetSlugsWithReviews(data);
        assert r == rest;
        forall i, j | 0 <= i < j < |r| ensures r[i] != r[j] {
          assert r[i] == rest[i] && r[j] == rest[j];
        }
      }
    }
  }

  /** A slug is offered in the filter exactly when it has reviews to show. */
  lemma {:induction false} SlugsWithReviewsExact(data: ReviewData, slug: string)
    requires KeysDistinct(data)
    ensures slug in GetSlugsWithReviews(data) <==> GetReviewsBySlug(data, slug) != []
  {
    if data != [] {
      assert KeysDistinct(data[1..]);
      SlugsWithReviewsExact(data[1..], slug);
      if data[0].0 == slug {
        NotInTail(data, slug);
      }
    }
  }

  lemma {:induction false} NotInTail(data: ReviewData, slug: string)
    requires KeysDistinct(data) && data != [] && data[0].0 == slug
    ensures slug !in GetSlugsWithReviews(data[1..])
  {
    SlugsAreKeys(data[1..], slug);
    forall i | 0 <= i < |data[1..]| ensures data[1..][i].0 != slug {
      assert data[1..][i] == data[i + 1];
    }
  }

  lemma {:induction false} SlugsAreKeys(data: ReviewData, slug: string)
    ensures slug in GetSlugsWithReviews(data) ==> exists i :: 0 <= i < |data| && data[i].0 == slug
  {
    if data != [] {
      SlugsAreKeys(data[1..], slug);
      if slug in GetSlugsWithReviews(data[1..]) {
        var i :| 0 <= i < |data[1..]| && data[1..][i].0 == slug;
        assert data[i + 1].0 == slug;
      }
    }
  }
}

=== FILE: scrape.dfy ===
/** The scraper that built the static cottage content: it normalises the image
    URLs found on each cottage page, collects them without duplicates in the
    order they were found, and turns each page into a cottage record, with a
    minimal record for a page that failed. The browser is not modelled: what
    the page yields is an input. */
module ScrapeCottages {
  import opened Wrappers
  import opened Text

  const BASE_URL: string := "https://green-cottage.moryjinabovictorbrillant.com"
  const IMAGE_EXTENSIONS: seq<string> := [".jpg", ".jpeg", ".png", ".webp", ".avif", ".gif"]

  /** The page numbers scraped, in order, and their slugs. */
  const SLUGS: seq<string> := ["puma", "bruyere", "petit-pierre", "telegaphe"]

  /** The lower-cased URL without its query string names an image file type. */
  predicate HasImageExtension(url: string) {
    var clean := AsciiLower(Split(url, '?')[0]);
    exists i :: 0 <= i < |IMAGE_EXTENSIONS| && Contains(clean, IMAGE_EXTENSIONS[i])
  }

  /** The raw URL mentions an image in its text. */
  predicate HasImageWord(url: string) {
    Contains(url, "image") || Contains(url, "photo") || Contains(url, "img")
  }

  /** `normalizeImageUrl`: `None` stands for `null`. Relative URLs are made
      absolute against `base` without any image check; an absolute `http`
      URL is kept only when it looks like an image. */
  function NormalizeImageUrl(url: string, base: string): (r: Option<string>)
    ensures url == "" || StartsWith(url, "data:") || StartsWith(url, "blob:") ==> r.None?
    ensures r.Some? ==> r.value != ""
    ensures r.Some? && StartsWith(base, "http") ==> StartsWith(r.value, "http")
    ensures url != "" && !StartsWith(url, "data:") && !StartsWith(url, "blob:") ==>
      && (StartsWith(url, "//") ==> r == Some("https:" + url))
      && (!StartsWith(url, "//") && StartsWith(url, "/") ==> r == Some(base + url))
      && (!StartsWith(url, "/") && !StartsWith(url, "http") ==> r == Some(base + "/" + url))
      && (StartsWith(url, "http") ==> r == (if HasImageExtension(url) || HasImageWord(url) then Some(url) else None))
  {
    if url == "" then None
    else if StartsWith(url, "data:") || StartsWith(url, "blob:") then None
    else if StartsWith(url, "//") then Some("https:" + url)
    else if StartsWith(url, "/") then Some(base + url)
    else if !StartsWith(url, "http") then Some(base + "/" + url)
    else if HasImageExtension(url) || HasImageWord(url) then Some(url)
    else None
  }

  /** `s.split(/\s+/)[0]` for a trimmed `s`: the text before the first blank. */
  function FirstToken(s: string): (r: string)
    ensures StartsWith(s, r)
    ensures forall i :: 0 <= i < |r| ==> !IsSpace(r[i])
    ensures |r| == |s| || IsSpace(s[|r|])
  {
    if s == [] || IsSpace(s[0]) then [] else [s[0]] + FirstToken(s[1..])
  }

  /** The URLs of a `srcset` attribute: the first word of each comma-separated entry. */
  function SrcsetUrls(srcset: string): (urls: seq<string>)
    ensures |urls| == |Split(srcset, ',')|
    ensures forall i :: 0 <= i < |urls| ==> ',' !in urls[i]
  {
    var parts := Split(srcset, ',');
    seq(|parts|, i requires 0 <= i < |parts| => EntryUrl(parts[i]))
  }

  /** The first word of one `srcset` entry: `entry.trim().split(/\s+/)[0]`. */
  function EntryUrl(entry: string): (r: string)
    ensures forall x :: x in r ==> x in entry && !IsSpace(x)
  {
    var t := Trim(entry);
    var r := FirstToken(t);
    assert r == t[..|r|];
    r
  }

  function SrcsetCandidates(srcsets: seq<string>): seq<string> {
    if srcsets == [] then [] else SrcsetCandidates(srcsets[..|srcsets| - 1]) + SrcsetUrls(srcsets[|srcsets| - 1])
  }

  /** The URLs in the order `extractImages` normalises them: those of every
      `srcset`, then computed background images, then `img` sources, then
      inline background images. */
  function Candidates(srcsets: seq<string>, computedBackgrounds: seq<string>, imgSrcs: seq<string>,
                      inlineBackgrounds: seq<string>): seq<string>
  {
    SrcsetCandidates(srcsets) + computedBackgrounds + imgSrcs + inlineBackgrounds
  }

  /** `images.add(x)` on an insertion-ordered `Set`. */
  function AddNew(images: seq<string>, x: Option<string>): seq<string> {
    if x.Some? && x.value !in images then images + [x.value] else images
  }

  /** The image set after the candidates, in order of first appearance. */
  function Collected(candidates: seq<string>, base: string): (images: seq<string>)
    ensures |images| <= |candidates|
  {
    if candidates == [] then []
    else AddNew(Collected(candidates[..|candidates| - 1], base), NormalizeImageUrl(candidates[|candidates| - 1], base))
  }

  predicate NoDuplicates(s: seq<string>) {
    forall i, j :: 0 <= i < j < |s| ==> s[i] != s[j]
  }

  /** No image is collected twice. */
  lemma {:induction false} CollectedDistinct(candidates: seq<string>, base: string)
    ensures NoDuplicates(Collected(candidates, base))
  {
    if candidates != [] {
      var init := candidates[..|candidates| - 1];
      CollectedDistinct(init, base);
      var prev := Collected(init, base);
      var x := NormalizeImageUrl(candidates[|candidates| - 1], base);
      assert Collected(candidates, base) == AddNew(prev, x);
      if x.Some? && x.value !in prev {
        var images := prev + [x.value];
        forall i, j | 0 <= i < j < |images|
          ensures images[i] != images[j]
        {
          assert images[i] == prev[i];
          if j < |prev| {
            assert images[j] == prev[j];
          }
        }
      }
    }
  }

  /** An image is collected exactly when some candidate normalises to it. */
  lemma {:induction false} CollectedMembership(candidates: seq<string>, base: string, x: string)
    ensures x in Collected(candidates, base) <==>
      exists i :: 0 <= i < |candidates| && NormalizeImageUrl(candidates[i], base) == Some(x)
  {
    if candidates != [] {
      var init := candidates[..|candidates| - 1];
      CollectedMembership(init, base, x);
      if x in Collected(init, base) {
        var i :| 0 <= i < |init| && NormalizeImageUrl(init[i], base) == Some(x);
        assert candidates[i] == init[i];
      }
      if exists i :: 0 <= i < |candidates| && NormalizeImageUrl(candidates[i], base) == Some(x) {
        var i :| 0 <= i < |candidates| && NormalizeImageUrl(candidates[i], base) == Some(x);
        if i < |init| {
          assert init[i] == candidates[i];
        }
      }
    }
  }

  /** `extractImages`: the loops adding each normalised URL to the set. */
  method ExtractImages(srcsets: seq<string>, computedBackgrounds: seq<string>, imgSrcs: seq<string>,
                       inlineBackgrounds: seq<string>, base: string)
    returns (images: seq<string>)
    ensures images == Collected(Candidates(srcsets, computedBackgrounds, imgSrcs, inlineBackgrounds), base)
  {
    var candidates := Candidates(srcsets, computedBackgrounds, imgSrcs, inlineBackgrounds);
    images := [];
    var i := 0;
    while i < |candidates|
      invariant 0 <= i <= |candidates|
      invariant images == Collected(candidates[..i], base)
    {
      assert candidates[..i + 1][..i] == candidates[..i];
      var normalized := NormalizeImageUrl(candidates[i], base);
      ghost var next := AddNew(images, normalized);
      assert next == Collected(candidates[..i + 1], base);
      if normalized.Some? && normalized.value !in images {
        images := images + [normalized.value];
      }
      assert images == next;
      i := i + 1;
    }
    assert candidates[..|candidates|] == candidates;
  }

  /** What the page yields: its texts (already extracted) or a failure. */
  datatype PageContent = PageContent(title: string, summary: string, description: string,
                                     facts: map<string, string>, amenities: seq<string>)

  datatype PageOutcome = PageFailed | PageLoaded(content: PageContent, images: seq<string>)

  datatype ScrapedCottage = ScrapedCottage(
    id: nat, slug: string, name: string, summary: string, description: string,
    facts: map<string, string>, amenities: seq<string>, hero: string, gallery: seq<string>, sourceUrl: string)

  function SourceUrl(id: nat): string {
    BASE_URL + "/detail-gite/" + NatToString(id) + "/fr"
  }

  function FallbackName(slug: string): string {
    "G\U{EE}te " + slug
  }

  /** `scrapeCottage`. */
  function ScrapeCottage(id: nat, slug: string, page: PageOutcome): ScrapedCottage {
    match page
    case PageFailed =>
      ScrapedCottage(id, slug, FallbackName(slug), "", "", map[], [], "", [], SourceUrl(id))
    case PageLoaded(content, images) =>
      var hero := if images == [] then "" else images[0];
      var gallery := if images == [] then [] else images[1..];
      ScrapedCottage(id, slug, if content.title != "" then content.title else FallbackName(slug),
                     content.summary, content.description, content.facts, content.amenities,
                     hero, gallery, SourceUrl(id))
  }

  /** The first image is the hero and the rest, in order, the gallery; the
      name is the title or the fallback; a page that fails gives a record with
      only the fallback name. */
  lemma ScrapeCottageFacts(id: nat, slug: string, page: PageOutcome)
    ensures var c := ScrapeCottage(id, slug, page);
      && c.id == id && c.slug == slug && c.sourceUrl == SourceUrl(id)
      && c.name != ""
      && (page.PageFailed? ==>
        c == ScrapedCottage(id, slug, FallbackName(slug), "", "", map[], [], "", [], SourceUrl(id)))
      && (page.PageLoaded? ==>
        && (page.images == [] ==> c.hero == "" && c.gallery == [])
        && (page.images != [] ==> [c.hero] + c.gallery == page.images)
        && c.name == (if page.content.title != "" then page.content.title else FallbackName(slug))
        && c.summary == page.content.summary && c.description == page.content.description
        && c.facts == page.content.facts && c.amenities == page.content.amenities)
  {
  }

  /** `main`'s loop: one record per page, in page order. */
  method ScrapeAll(pages: seq<PageOutcome>) returns (cottages: seq<ScrapedCottage>)
    requires |pages| == |SLUGS|
    ensures |cottages| == |SLUGS|
    ensures forall i :: 0 <= i < |SLUGS| ==> cottages[i] == ScrapeCottage(i + 1, SLUGS[i], pages[i])
  {
    cottages := [];
    var i := 0;
    while i < |SLUGS|
      invariant 0 <= i <= |SLUGS|
      invariant |cottages| == i
      invariant forall j :: 0 <= j < i ==> cottages[j] == ScrapeCottage(j + 1, SLUGS[j], pages[j])
    {
      cottages := cottages + [ScrapeCottage(i + 1, SLUGS[i], pages[i])];
      i := i + 1;
    }
  }
}

=== FILE: seqs.dfy ===
/** Array operations of the JavaScript runtime and of the ORM's queries that the
    modelled code relies on: `find`/`findFirst` and `filter`/`deleteMany`. */
module Seqs {
  import opened Wrappers

  /** Index of the first element satisfying `p`, as a `findFirst` query returns it. */
  function FindFirst<T>(s: seq<T>, p: T -> bool): (r: Option<nat>)
    ensures r.Some? ==> r.value < |s| && p(s[r.value])
    ensures r.Some? ==> forall j :: 0 <= j < r.value ==> !p(s[j])
    ensures r.None? ==> forall j :: 0 <= j < |s| ==> !p(s[j])
  {
    if s == [] then None
    else if p(s[0]) then Some(0)
    else
      match FindFirst(s[1..], p)
      case None => None
      case Some(i) => Some(i + 1)
  }

  /** The elements satisfying `p`, in their original order. */
  function Filter<T>(s: seq<T>, p: T -> bool): (r: seq<T>)
    ensures |r| <= |s|
    ensures forall i :: 0 <= i < |r| ==> r[i] in s && p(r[i])
    ensures forall i :: 0 <= i < |s| && p(s[i]) ==> s[i] in r
  {
    if s == [] then []
    else
      if p(s[0]) then [s[0]] + Filter(s[1..], p) else Filter(s[1..], p)
  }

  /** An element is kept exactly when it is present and satisfies `p`. */
  lemma FilterMembership<T>(s: seq<T>, p: T -> bool, x: T)
    ensures x in Filter(s, p) <==> x in s && p(x)
  {
    if x in s && p(x) {
      var i :| 0 <= i < |s| && s[i] == x;
    }
  }

  lemma {:induction false} FilterAppend<T>(s: seq<T>, t: seq<T>, p: T -> bool)
    ensures Filter(s + t, p) == Filter(s, p) + Filter(t, p)
  {
    if s != [] {
      assert (s + t)[0] == s[0] && (s + t)[1..] == s[1..] + t;
      FilterAppend(s[1..], t, p);
    } else {
      assert s + t == t;
    }
  }

  lemma {:induction false} FilterKeepsAll<T>(s: seq<T>, p: T -> bool)
    requires forall x :: x in s ==> p(x)
    ensures Filter(s, p) == s
  {
    if s != [] {
      FilterKeepsAll(s[1..], p);
    }
  }
}

=== FILE: sorting.dfy ===
/** The stable sorts the modelled code asks for (`Array.prototype.sort` with a
    comparator, an ORM `orderBy ... desc`), as insertion sort on a key that
    compares by a primary and then a secondary integer, largest first. */
module Sorting {

  /** What a comparator looks at: compared on `primary`, ties broken on `secondary`. */
  datatype SortKey = SortKey(primary: int, secondary: int)

  /** `a` may come before `b` in a descending order. */
  predicate KeyGe(a: SortKey, b: SortKey) {
    a.primary > b.primary || (a.primary == b.primary && a.secondary >= b.secondary)
  }

  predicate SortedDesc<T>(s: seq<T>, key: T -> SortKey) {
    forall i, j :: 0 <= i < j < |s| ==> KeyGe(key(s[i]), key(s[j]))
  }

  /** Puts `x` in front of the first element it is not below, so that it
      stays ahead of the elements with an equal key. */
  function Insert<T(==)>(x: T, s: seq<T>, key: T -> SortKey): (r: seq<T>)
    requires SortedDesc(s, key)
    ensures SortedDesc(r, key)
    ensures multiset(r) == multiset(s) + multiset{x}
    ensures |r| == |s| + 1
  {
    if s == [] then [x]
    else if KeyGe(key(x), key(s[0])) then [x] + s
    else
      var t := Insert(x, s[1..], key);
      assert s == [s[0]] + s[1..];
      assert forall k :: 0 <= k < |t| ==> KeyGe(key(s[0]), key(t[k])) by {
        forall k | 0 <= k < |t| ensures KeyGe(key(s[0]), key(t[k])) {
          assert t[k] in multiset(s[1..]) + multiset{x};
          if t[k] != x {
            assert t[k] in s[1..];
          }
        }
      }
      [s[0]] + t
  }

  /** A stable sort, largest key first: the result is ordered and holds
      exactly the elements of `s`. */
  function SortDesc<T(==)>(s: seq<T>, key: T -> SortKey): (r: seq<T>)
    ensures SortedDesc(r, key)
    ensures multiset(r) == multiset(s)
    ensures |r| == |s|
  {
    if s == [] then []
    else
      assert s == [s[0]] + s[1..];
      Insert(s[0], SortDesc(s[1..], key), key)
  }

  /** Sorting something already in order changes nothing. */
  lemma {:induction false} SortSortedIsIdentity<T>(s: seq<T>, key: T -> SortKey)
    requires SortedDesc(s, key)
    ensures SortDesc(s, key) == s
  {
    if s != [] {
      assert SortedDesc(s[1..], key);
      SortSortedIsIdentity(s[1..], key);
      if |s| > 1 {
        assert KeyGe(key(s[0]), key(s[1]));
      }
    }
  }

  /** `slice(0, limit)`: the first `limit` elements; a negative limit drops
      that many from the end. */
  function Take<T>(s: seq<T>, limit: int): (r: seq<T>)
    ensures |r| <= |s| && r == s[..|r|]
    ensures limit >= 0 ==> |r| == if limit < |s| then limit else |s|
    ensures limit < 0 ==> |r| == if |s| + limit > 0 then |s| + limit else 0
  {
    if limit >= 0 then (if limit < |s| then s[..limit] else s)
    else if |s| + limit > 0 then s[..|s| + limit]
    else []
  }

  /** The first elements of a sequence in descending order are at least every
      element left out. */
  lemma TakeOfSortedIsTop<T>(s: seq<T>, key: T -> SortKey, limit: int)
    requires SortedDesc(s, key)
    ensures forall x, i :: x in s && x !in Take(s, limit) && 0 <= i < |Take(s, limit)| ==>
      KeyGe(key(Take(s, limit)[i]), key(x))
  {
    var r := Take(s, limit);
    forall x, i | x in s && x !in r && 0 <= i < |r|
      ensures KeyGe(key(r[i]), key(x))
    {
      var j :| 0 <= j < |s| && s[j] == x;
      assert r[i] == s[i];
    }
  }
}

=== FILE: store.dfy ===
/** The rows of the relational store the application reads and writes through
    its ORM, and the store itself as one mutable object. Identifiers are natural
    numbers handed out from one counter (the store generates them); times are
    milliseconds since the epoch. */
module Store {
  import opened Wrappers

  type Id = nat

  /** A JavaScript `Date`: milliseconds since the epoch. */
  type Instant = int

  const MS_PER_DAY: int := 86_400_000

  datatype BookingStatus = Pending | Paid | Cancelled

  datatype Booking = Booking(
    id: Id,
    cottageId: Id,
    userId: Id,
    startDate: Instant,
    endDate: Instant,
    guests: int,
    cleaning: bool,  // whether `options.cleaning` is truthy
    subtotal: real,
    touristTax: real,
    total: real,
    status: BookingStatus,
    stripeSessionId: Option<string>,
    stripePaymentIntentId: Option<string>)

  /** `INTERNAL` blocks are checkout locks; `ICAL` blocks come from imported calendars. */
  datatype BlockSource = Internal | ICal

  datatype Block = Block(
    id: Id,
    cottageId: Id,
    startDate: Instant,
    endDate: Instant,
    source: BlockSource,
    sourceRef: Option<string>)

  datatype LineItem =
    | StayLine(nights: int, amount: real)
    | CleaningLine(amount: real)
    | TouristTaxLine(amount: real)

  /** What an invoice PDF shows: its number, the number of nights, the priced lines and the total. */
  datatype InvoiceDocument = InvoiceDocument(invoiceNumber: string, nights: int, lines: seq<LineItem>, total: real)

  datatype Invoice = Invoice(bookingId: Id, invoiceNumber: string, pdf: InvoiceDocument, pdfUrl: string)

  datatype ICalFeed = ICalFeed(cottageId: Id, importUrl: string, lastSyncedAt: Option<Instant>)

  datatype Cottage = Cottage(
    id: Id,
    slug: string,
    title: string,
    summary: Option<string>,
    description: string,
    address: Option<string>,
    latitude: Option<real>,
    longitude: Option<real>,
    capacity: int,
    basePrice: real,
    cleaningFee: Option<real>,
    images: seq<string>,
    amenities: seq<string>,
    checkInTime: Option<string>,
    checkOutTime: Option<string>,
    isActive: bool)

  datatype ReviewStatus = ReviewPending | Published | Rejected

  datatype PublicReview = PublicReview(
    id: Id,
    cottageId: Id,
    slug: string,
    rating: int,
    author: Option<string>,
    comment: string,
    status: ReviewStatus,
    createdAt: Instant)

  /** `Math.ceil((end - start) / day)`: the number of started days between the two dates. */
  function Nights(start: Instant, end: Instant): (n: int)
    ensures (n - 1) * MS_PER_DAY < end - start <= n * MS_PER_DAY
  {
    (end - start + MS_PER_DAY - 1) / MS_PER_DAY
  }

  /** `Math.round(x)`: the nearest integer, halves rounded up. */
  function Round(x: real): (r: int)
    ensures x - 0.5 < r as real <= x + 0.5
  {
    (x + 0.5).Floor
  }

  /** A nullable fee is charged when it is truthy: present and not zero. */
  predicate FeeIsSet(fee: Option<real>) {
    fee.Some? && fee.value != 0.0
  }

  /** The cottage with this id, as `findUnique` returns it. */
  function CottageById(cottages: seq<Cottage>, id: Id): (r: Option<Cottage>)
    ensures r.Some? ==> r.value in cottages && r.value.id == id
    ensures r.None? ==> forall i :: 0 <= i < |cottages| ==> cottages[i].id != id
  {
    if cottages == [] then None
    else if cottages[0].id == id then Some(cottages[0])
    else CottageById(cottages[1..], id)
  }

  /** The cottage with this slug, as `findUnique` on the unique slug returns it. */
  function CottageBySlug(cottages: seq<Cottage>, slug: string): (r: Option<Cottage>)
    ensures r.Some? ==> r.value in cottages && r.value.slug == slug
    ensures r.None? ==> forall i :: 0 <= i < |cottages| ==> cottages[i].slug != slug
  {
    if cottages == [] then None
    else if cottages[0].slug == slug then Some(cottages[0])
    else CottageBySlug(cottages[1..], slug)
  }

  predicate BlockIdsBelow(blocks: seq<Block>, next: Id) {
    forall i :: 0 <= i < |blocks| ==> blocks[i].id < next
  }

  predicate BlockIdsDistinct(blocks: seq<Block>) {
    forall i, j :: 0 <= i < j < |blocks| ==> blocks[i].id != blocks[j].id
  }

  predicate BookingIdsBelow(bookings: seq<Booking>, next: Id) {
    forall i :: 0 <= i < |bookings| ==> bookings[i].id < next
  }

  predicate BookingIdsDistinct(bookings: seq<Booking>) {
    forall i, j :: 0 <= i < j < |bookings| ==> bookings[i].id != bookings[j].id
  }

  /** The unique constraint on `Booking.stripeSessionId`. */
  predicate SessionIdsDistinct(bookings: seq<Booking>) {
    forall i, j :: 0 <= i < j < |bookings| && bookings[i].stripeSessionId.Some? ==>
      bookings[i].stripeSessionId != bookings[j].stripeSessionId
  }

  /** The unique constraints on `Invoice.bookingId` and `Invoice.invoiceNumber`. */
  predicate InvoicesUnique(invoices: seq<Invoice>) {
    forall i, j :: 0 <= i < j < |invoices| ==>
      invoices[i].bookingId != invoices[j].bookingId && invoices[i].invoiceNumber != invoices[j].invoiceNumber
  }

  predicate CottageIdsBelow(cottages: seq<Cottage>, next: Id) {
    forall i :: 0 <= i < |cottages| ==> cottages[i].id < next
  }

  /** The key on `Cottage.id` and the unique constraint on `Cottage.slug`. */
  predicate CottagesUnique(cottages: seq<Cottage>) {
    forall i, j :: 0 <= i < j < |cottages| ==> cottages[i].id != cottages[j].id && cottages[i].slug != cottages[j].slug
  }

  class Database {
    var bookings: seq<Booking>
    var blocks: seq<Block>
    var invoices: seq<Invoice>
    /** `InvoiceCounter` rows: year to last number used. */
    var counters: map<int, nat>
    var feeds: seq<ICalFeed>
    var cottages: seq<Cottage>
    var users: set<Id>
    var reviews: seq<PublicReview>
    /** The next identifier the store hands out. */
    var nextId: Id

    /** The store's key and unique constraints. */
    ghost predicate Valid()
      reads this
    {
      && BookingIdsBelow(bookings, nextId) && BookingIdsDistinct(bookings)
      && SessionIdsDistinct(bookings)
      && BlockIdsBelow(blocks, nextId) && BlockIdsDistinct(blocks)
      && InvoicesUnique(invoices)
      && CottageIdsBelow(cottages, nextId) && CottagesUnique(cottages)
    }

    constructor ()
      ensures Valid()
      ensures bookings == [] && blocks == [] && invoices == [] && counters == map[]
      ensures feeds == [] && cottages == [] && users == {} && reviews == [] && nextId == 0
    {
      bookings, blocks, invoices, counters := [], [], [], map[];
      feeds, cottages, users, reviews, nextId := [], [], {}, [], 0;
    }

    /** `availabilityBlock.create`: appends a block under a fresh id. */
    method AddBlock(cottageId: Id, startDate: Instant, endDate: Instant, source: BlockSource, sourceRef: Option<string>)
      returns (id: Id)
      requires Valid()
      modifies this
      ensures Valid()
      ensures id == old(nextId) && nextId == old(nextId) + 1
      ensures blocks == old(blocks) + [Block(id, cottageId, startDate, endDate, source, sourceRef)]
      ensures bookings == old(bookings) && invoices == old(invoices) && counters == old(counters)
      ensures feeds == old(feeds) && cottages == old(cottages) && users == old(users) && reviews == old(reviews)
    {
      id := nextId;
      blocks := blocks + [Block(id, cottageId, startDate, endDate, source, sourceRef)];
      nextId := nextId + 1;
    }

    /** `review.create`: appends a review, which used the next id. */
    method AddReview(review: PublicReview)
      requires Valid() && review.id == nextId
      modifies this
      ensures Valid()
      ensures nextId == old(nextId) + 1 && reviews == old(reviews) + [review]
      ensures bookings == old(bookings) && blocks == old(blocks) && invoices == old(invoices)
      ensures counters == old(counters) && feeds == old(feeds) && cottages == old(cottages) && users == old(users)
    {
      reviews := reviews + [review];
      nextId := nextId + 1;
    }
  }
}

=== FILE: text.dfy ===
/** String operations of the JavaScript runtime that the modelled code relies on
    (`trim`, `startsWith`, `includes`, `indexOf`, `split`, `padStart`, number
    formatting, global replace), stated on `string` = `seq<char>`. */
module Text {
  import opened Wrappers

  /** White space as JavaScript's `trim` and the regular-expression class `\s`
      see it: the WhiteSpace and LineTerminator characters of ECMA-262. */
  predicate IsSpace(c: char) {
    c == '\t' || c == '\n' || c == '\U{B}' || c == '\U{C}' || c == '\r' || c == ' '
    || c == '\U{A0}' || c == '\U{1680}' || ('\U{2000}' <= c <= '\U{200A}')
    || c == '\U{2028}' || c == '\U{2029}' || c == '\U{202F}' || c == '\U{205F}'
    || c == '\U{3000}' || c == '\U{FEFF}'
  }

  predicate IsDigit(c: char) { '0' <= c <= '9' }

  predicate IsLowerAscii(c: char) { 'a' <= c <= 'z' }

  predicate IsUpperAscii(c: char) { 'A' <= c <= 'Z' }

  predicate AllDigits(s: string) { forall i :: 0 <= i < |s| ==> IsDigit(s[i]) }

  predicate StartsWith(s: string, prefix: string) {
    |prefix| <= |s| && s[..|prefix|] == prefix
  }

  predicate EndsWith(s: string, suffix: string) {
    |suffix| <= |s| && s[|s| - |suffix|..] == suffix
  }

  /** `s.includes(p)`: `p` occurs somewhere in `s` (the empty string occurs everywhere). */
  predicate Contains(s: string, p: string)
    decreases |s|
  {
    StartsWith(s, p) || (s != [] && Contains(s[1..], p))
  }

  /** `s.trimStart()` */
  function TrimStart(s: string): (r: string)
    ensures |r| <= |s| && r == s[|s| - |r|..]
    ensures r == [] || !IsSpace(r[0])
    ensures forall i :: 0 <= i < |s| - |r| ==> IsSpace(s[i])
  {
    if s != [] && IsSpace(s[0]) then TrimStart(s[1..]) else s
  }

  /** `s.trimEnd()` */
  function TrimEnd(s: string): (r: string)
    ensures |r| <= |s| && r == s[..|r|]
    ensures r == [] || !IsSpace(r[|r| - 1])
    ensures forall i :: |r| <= i < |s| ==> IsSpace(s[i])
  {
    if s != [] && IsSpace(s[|s| - 1]) then TrimEnd(s[..|s| - 1]) else s
  }

  /** `s.trim()`: the result is a piece of `s` that neither starts nor ends with
      white space, and all it drops is white space. */
  function Trim(s: string): (r: string)
    ensures |r| <= |s|
    ensures r == [] || (!IsSpace(r[0]) && !IsSpace(r[|r| - 1]))
    ensures forall x :: x in r ==> x in s
    ensures (forall i :: 0 <= i < |s| ==> IsSpace(s[i])) <==> r == []
  {
    var t := TrimStart(s);
    var r := TrimEnd(t);
    assert forall x :: x in r ==> x in t;
    assert forall x :: x in t ==> x in s;
    r
  }

  /** `s.indexOf(c)`, with `None` for JavaScript's `-1`. */
  function IndexOfChar(s: string, c: char): (r: Option<nat>)
    ensures r.Some? ==> r.value < |s| && s[r.value] == c && c !in s[..r.value]
    ensures r.None? ==> c !in s
  {
    if s == [] then None
    else if s[0] == c then Some(0)
    else
      match IndexOfChar(s[1..], c)
      case None => None
      case Some(i) =>
        assert s[..i + 1] == [s[0]] + s[1..][..i];
        Some(i + 1)
  }

  /** `s.split(c)` for a one-character separator: the pieces between the
      separators, in order; the first piece is everything before the first `c`. */
  function Split(s: string, c: char): (r: seq<string>)
    ensures |r| >= 1
    ensures forall i :: 0 <= i < |r| ==> c !in r[i]
    ensures StartsWith(s, r[0]) && (|r[0]| == |s| || s[|r[0]|] == c)
    decreases |s|
  {
    match IndexOfChar(s, c)
    case None => [s]
    case Some(i) => [s[..i]] + Split(s[i + 1..], c)
  }

  /** `parts.join(c)` */
  function Join(parts: seq<string>, c: char): string
    decreases |parts|
  {
    if parts == [] then ""
    else if |parts| == 1 then parts[0]
    else parts[0] + [c] + Join(parts[1..], c)
  }

  /** Splitting and joining again gives back the original text. */
  lemma {:induction false} SplitJoin(s: string, c: char)
    ensures Join(Split(s, c), c) == s
    decreases |s|
  {
    match IndexOfChar(s, c)
    case None =>
    case Some(i) =>
      SplitJoin(s[i + 1..], c);
      assert s == s[..i] + [c] + s[i + 1..];
  }

  function LowerChar(c: char): (r: char)
    ensures IsUpperAscii(c) ==> IsLowerAscii(r)
    ensures !IsUpperAscii(c) ==> r == c
  {
    if IsUpperAscii(c) then (c as int + 32) as char else c
  }

  /** `s.toLowerCase()` on the ASCII letters. */
  function AsciiLower(s: string): (r: string)
    ensures |r| == |s|
    ensures forall i :: 0 <= i < |s| ==> r[i] == LowerChar(s[i])
  {
    if s == [] then [] else [LowerChar(s[0])] + AsciiLower(s[1..])
  }

  /** `s.padStart(n, c)` */
  function PadStart(s: string, n: nat, c: char): (r: string)
    ensures |r| == if |s| >= n then |s| else n
    ensures EndsWith(r, s)
    ensures forall i :: 0 <= i < |r| - |s| ==> r[i] == c
  {
    if |s| >= n then s else seq(n - |s|, _ => c) + s
  }

  /** `s.replace(/c/g, rep)`: every occurrence of `c` becomes `rep`. */
  function ReplaceAll(s: string, c: char, rep: string): (r: string)
    ensures forall x :: x in r ==> (x in s && x != c) || x in rep
  {
    if s == [] then ""
    else (if s[0] == c then rep else [s[0]]) + ReplaceAll(s[1..], c, rep)
  }

  /** Replacing a character that does not occur changes nothing. */
  lemma {:induction false} ReplaceAllAbsent(s: string, c: char, rep: string)
    requires c !in s
    ensures ReplaceAll(s, c, rep) == s
  {
    if s != [] {
      ReplaceAllAbsent(s[1..], c, rep);
    }
  }

  /** Replacing every character of a text made only of `c` repeats `rep`
      once per character. */
  lemma {:induction false} ReplaceAllUniform(s: string, c: char, rep: string)
    requires rep != []
    requires forall i :: 0 <= i < |s| ==> s[i] == c
    ensures |ReplaceAll(s, c, rep)| == |s| * |rep|
    ensures s != [] ==> ReplaceAll(s, c, rep)[0] == rep[0]
    ensures s != [] ==> ReplaceAll(s, c, rep)[|s| * |rep| - 1] == rep[|rep| - 1]
  {
    if s != [] {
      var tail := ReplaceAll(s[1..], c, rep);
      ReplaceAllUniform(s[1..], c, rep);
      assert ReplaceAll(s, c, rep) == rep + tail;
      assert |s| * |rep| == |rep| + (|s| - 1) * |rep|;
      if |s| > 1 {
        assert (rep + tail)[|s| * |rep| - 1] == tail[(|s| - 1) * |rep| - 1];
      }
    }
  }

  /** `s.replace(/c/, rep)`: only the first occurrence of `c` becomes `rep`. */
  function ReplaceFirst(s: string, c: char, rep: string): (r: string)
    ensures c !in s ==> r == s
    ensures c in s ==> exists i :: 0 <= i < |s| && s[i] == c && r == s[..i] + rep + s[i + 1..]
  {
    match IndexOfChar(s, c)
    case None => s
    case Some(i) => s[..i] + rep + s[i + 1..]
  }

  function DigitChar(d: nat): (r: char)
    requires d < 10
    ensures IsDigit(r) && r as int - '0' as int == d
  {
    ('0' as int + d) as char
  }

  /** `String(n)` for a non-negative integer: decimal, without leading zeros. */
  function NatToString(n: nat): (r: string)
    ensures |r| >= 1 && AllDigits(r)
    ensures |r| > 1 ==> r[0] != '0'
    decreases n
  {
    if n < 10 then [DigitChar(n)] else NatToString(n / 10) + [DigitChar(n % 10)]
  }

  /** The number a string of decimal digits denotes. */
  function DigitsValue(s: string): nat
    requires AllDigits(s)
  {
    if s == [] then 0 else DigitsValue(s[..|s| - 1]) * 10 + (s[|s| - 1] as int - '0' as int)
  }

  lemma {:induction false} NatToStringValue(n: nat)
    ensures DigitsValue(NatToString(n)) == n
    decreases n
  {
    if n >= 10 {
      NatToStringValue(n / 10);
      var r := NatToString(n);
      assert r[..|r| - 1] == NatToString(n / 10);
    }
  }

  /** Distinct numbers print differently. */
  lemma NatToStringInjective(a: nat, b: nat)
    requires NatToString(a) == NatToString(b)
    ensures a == b
  {
    NatToStringValue(a);
    NatToStringValue(b);
  }

  /** Leading zeros do not change the value of a digit string. */
  lemma {:induction false} LeadingZerosValue(k: nat, s: string)
    requires AllDigits(s)
    ensures AllDigits(seq(k, _ => '0') + s)
    ensures DigitsValue(seq(k, _ => '0') + s) == DigitsValue(s)
    decreases |s|
  {
    var z := seq(k, _ => '0');
    if s == [] {
      assert z + s == z;
      ZerosValue(k);
    } else {
      var t := z + s;
      assert t[..|t| - 1] == z + s[..|s| - 1];
      LeadingZerosValue(k, s[..|s| - 1]);
    }
  }

  lemma {:induction false} ZerosValue(k: nat)
    ensures AllDigits(seq(k, _ => '0'))
    ensures DigitsValue(seq(k, _ => '0')) == 0
  {
    if k > 0 {
      var z := seq(k, _ => '0');
      assert z[..k - 1] == seq(k - 1, _ => '0');
      ZerosValue(k - 1);
    }
  }
}

=== FILE: webhook.dfy ===
/** The payment webhook (`POST /api/stripe/webhook`): marks the booking of a
    completed checkout session as paid, removes its temporary lock, and issues
    its invoice once. The payment provider's SDK (configuration, signature
    verification) is represented by the values it produces. */
module StripeWebhook {
  import opened Wrappers
  import opened Text
  import opened Seqs
  import opened Store
  import opened Availability
  import Invoicing

  const COMPLETED_EVENT: string := "checkout.session.completed"

  /** `session.payment_intent`: absent, an id, or an expanded object with an id. */
  datatype PaymentIntent = NoIntent | IntentId(id: string) | IntentObject(objectId: string)

  /** A checkout session; `lockId` is `metadata.lockId`, `None` when either is missing. */
  datatype Session = Session(id: string, paymentIntent: PaymentIntent, lockId: Option<string>)

  /** A verified event. */
  datatype Event = Event(kind: string, session: Session)

  /** The provider's answer to signature verification: the event, or `None` when it throws. */
  datatype Delivery = Delivery(signature: Option<string>, verified: Option<Event>)

  function PaymentIntentId(p: PaymentIntent): Option<string> {
    match p
    case NoIntent => None
    case IntentId(id) => Some(id)
    case IntentObject(id) => Some(id)
  }

  /** `findUnique({ where: { stripeSessionId } })` */
  function FindBySession(bookings: seq<Booking>, sessionId: string): (r: Option<nat>)
    ensures r.Some? ==> r.value < |bookings| && bookings[r.value].stripeSessionId == Some(sessionId)
    ensures r.None? ==> forall i :: 0 <= i < |bookings| ==> bookings[i].stripeSessionId != Some(sessionId)
  {
    FindFirst(bookings, (b: Booking) => b.stripeSessionId == Some(sessionId))
  }

  /** With session ids unique, the lookup finds the one booking carrying the id. */
  lemma SessionLookupUnique(bookings: seq<Booking>, sessionId: string, j: nat)
    requires SessionIdsDistinct(bookings)
    requires j < |bookings| && bookings[j].stripeSessionId == Some(sessionId)
    ensures FindBySession(bookings, sessionId) == Some(j)
  {
  }

  /** What the database transaction decides. */
  datatype Decision = BookingNotFound | AlreadyPaid | MarkAsPaid(index: nat)

  /** The transaction's decision: no booking for the session throws
      `BOOKING_NOT_FOUND`; a booking already `PAID` is left alone; any other
      booking (pending, or even cancelled) is updated. */
  function Decide(bookings: seq<Booking>, sessionId: string): (r: Decision)
    ensures r.BookingNotFound? <==> forall i :: 0 <= i < |bookings| ==> bookings[i].stripeSessionId != Some(sessionId)
    ensures r.AlreadyPaid? ==> exists i :: 0 <= i < |bookings| && bookings[i].stripeSessionId == Some(sessionId) && bookings[i].status == Paid
    ensures r.MarkAsPaid? ==>
      r.index < |bookings| && bookings[r.index].stripeSessionId == Some(sessionId) && bookings[r.index].status != Paid
  {
    match FindBySession(bookings, sessionId)
    case None => BookingNotFound
    case Some(i) => if bookings[i].status == Paid then AlreadyPaid else MarkAsPaid(i)
  }

  /** The booking row after the update: paid, with the payment intent's id. */
  function MarkPaid(b: Booking, s: Session): (r: Booking)
    ensures r.status == Paid && r.stripePaymentIntentId == PaymentIntentId(s.paymentIntent)
    ensures r.(status := b.status, stripePaymentIntentId := b.stripePaymentIntentId) == b
  {
    b.(status := Paid, stripePaymentIntentId := PaymentIntentId(s.paymentIntent))
  }

  /** `deleteMany({ where: { id: lockId, source: 'INTERNAL' } })`, run only when
      `lockId` is truthy. Imported calendar blocks are never removed. */
  function RemoveLock(blocks: seq<Block>, lockId: Option<string>): (r: seq<Block>)
    ensures lockId.None? || lockId.value == "" ==> r == blocks
    ensures forall k :: k in r <==>
      k in blocks && !(lockId.Some? && k.source == Internal && NatToString(k.id) == lockId.value)
    ensures |r| <= |blocks|
  {
    if lockId.None? || lockId.value == "" then blocks
    else Filter(blocks, (k: Block) => !(k.source == Internal && NatToString(k.id) == lockId.value))
  }

  /** A lock id written by checkout removes exactly the internal block with that id. */
  lemma RemoveLockById(blocks: seq<Block>, lockId: Id)
    ensures forall k :: k in RemoveLock(blocks, Some(NatToString(lockId))) <==>
      k in blocks && !(k.source == Internal && k.id == lockId)
  {
    forall k: Block | k.source == Internal && NatToString(k.id) == NatToString(lockId)
      ensures k.id == lockId
    {
      NatToStringInjective(k.id, lockId);
    }
  }

  /** A second delivery of the same event finds the booking paid and changes nothing. */
  lemma PaymentIsIdempotent(bookings: seq<Booking>, s: Session)
    requires SessionIdsDistinct(bookings)
    requires Decide(bookings, s.id).MarkAsPaid?
    ensures Decide(bookings[Decide(bookings, s.id).index := MarkPaid(bookings[Decide(bookings, s.id).index], s)], s.id) == AlreadyPaid
  {
    var i := Decide(bookings, s.id).index;
    var after := bookings[i := MarkPaid(bookings[i], s)];
    assert SessionIdsDistinct(after) by {
      forall a, b | 0 <= a < b < |after| && after[a].stripeSessionId.Some?
        ensures after[a].stripeSessionId != after[b].stripeSessionId
      {
        assert after[a].stripeSessionId == bookings[a].stripeSessionId;
        assert after[b].stripeSessionId == bookings[b].stripeSessionId;
      }
    }
    SessionLookupUnique(after, s.id, i);
  }

  /** The paid booking keeps its dates blocked once its lock is gone. */
  lemma PaidBookingBlocksItsDates(bookings: seq<Booking>, blocks: seq<Block>, s: Session,
                                   start: Instant, end: Instant, exclude: Option<Id>)
    requires Decide(bookings, s.id).MarkAsPaid?
    requires var b := bookings[Decide(bookings, s.id).index];
      b.startDate < b.endDate && start < end && Overlaps(b.startDate, b.endDate, start, end)
      && (exclude.None? || exclude.value != b.id)
    ensures var i := Decide(bookings, s.id).index;
      !IsFree(bookings[i := MarkPaid(bookings[i], s)], RemoveLock(blocks, s.lockId),
              bookings[i].cottageId, start, end, exclude)
  {
    var i := Decide(bookings, s.id).index;
    ActiveBookingBlocks(bookings[i := MarkPaid(bookings[i], s)], RemoveLock(blocks, s.lockId), i, start, end, exclude);
  }

  /** The invoice row for a booking, if one exists (`include: { invoice: true }`). */
  function InvoiceOf(invoices: seq<Invoice>, bookingId: Id): (r: Option<nat>)
    ensures r.Some? ==> r.value < |invoices| && invoices[r.value].bookingId == bookingId
    ensures r.None? ==> forall i :: 0 <= i < |invoices| ==> invoices[i].bookingId != bookingId
  {
    FindFirst(invoices, (v: Invoice) => v.bookingId == bookingId)
  }

  /** `/api/invoices/<id>/download` */
  function DownloadUrl(bookingId: Id): (r: string)
    ensures StartsWith(r, "/api/invoices/") && EndsWith(r, "/download")
  {
    "/api/invoices/" + NatToString(bookingId) + "/download"
  }

  /** An insert that violates neither unique constraint of the invoice table. */
  predicate CanInsert(invoices: seq<Invoice>, v: Invoice) {
    forall i :: 0 <= i < |invoices| ==>
      invoices[i].bookingId != v.bookingId && invoices[i].invoiceNumber != v.invoiceNumber
  }

  /** `prisma.invoice.create`: inserts the row, or raises P2002 (`false`) when a
      unique constraint would break. */
  method CreateInvoice(db: Database, v: Invoice) returns (inserted: bool)
    requires db.Valid()
    modifies db
    ensures db.Valid()
    ensures inserted <==> CanInsert(old(db.invoices), v)
    ensures db.invoices == if inserted then old(db.invoices) + [v] else old(db.invoices)
    ensures db.bookings == old(db.bookings) && db.blocks == old(db.blocks) && db.counters == old(db.counters)
    ensures db.feeds == old(db.feeds) && db.cottages == old(db.cottages) && db.users == old(db.users)
    ensures db.reviews == old(db.reviews) && db.nextId == old(db.nextId)
  {
    var clash := FindFirst(db.invoices, (w: Invoice) => w.bookingId == v.bookingId || w.invoiceNumber == v.invoiceNumber);
    inserted := clash.None?;
    if inserted {
      db.invoices := db.invoices + [v];
    }
  }

  /** The row the invoice step as written stores for a booking of `c` when the
      year's counter stood at `counter`: the first number drawn, with a PDF
      printing the second. */
  function AsWrittenInvoice(b: Booking, c: Cottage, year: nat, counter: nat): Invoice {
    Invoice(b.id, Invoicing.FormatInvoiceNumber(year, counter + 1),
            InvoiceDocument(Invoicing.FormatInvoiceNumber(year, counter + 2), Nights(b.startDate, b.endDate),
                            Invoicing.InvoiceLines(b, c), b.total),
            DownloadUrl(b.id))
  }

  /** The row with one number drawn and printed in its PDF. */
  function CorrectedInvoice(b: Booking, c: Cottage, year: nat, counter: nat): Invoice {
    var n := Invoicing.FormatInvoiceNumber(year, counter + 1);
    Invoice(b.id, n, InvoiceDocument(n, Nights(b.startDate, b.endDate), Invoicing.InvoiceLines(b, c), b.total),
            DownloadUrl(b.id))
  }

  /** The invoice step as written: a number is drawn, then the PDF is generated
      with `invoice: null`, which draws a second number for the document. The
      stored row gets the first number and a PDF printing the second.
      `ok == false` is an error other than P2002, which the handler turns into a 500. */
  method IssueInvoiceAsWritten(db: Database, b: Booking, year: nat) returns (ok: bool)
    requires db.Valid()
    modifies db
    ensures db.Valid()
    ensures var c := Invoicing.CounterOf(old(db.counters), year);
      if CottageById(old(db.cottages), b.cottageId).Some? && b.userId in old(db.users) then
        ok && db.counters == old(db.counters)[year := c + 2]
        && var v := AsWrittenInvoice(b, CottageById(old(db.cottages), b.cottageId).value, year, c);
           db.invoices == if CanInsert(old(db.invoices), v) then old(db.invoices) + [v] else old(db.invoices)
      else
        !ok && db.counters == old(db.counters)[year := c + 1] && db.invoices == old(db.invoices)
    ensures db.bookings == old(db.bookings) && db.blocks == old(db.blocks)
    ensures db.feeds == old(db.feeds) && db.cottages == old(db.cottages) && db.users == old(db.users)
    ensures db.reviews == old(db.reviews) && db.nextId == old(db.nextId)
  {
    ghost var c := Invoicing.CounterOf(db.counters, year);
    var number := Invoicing.GenerateInvoiceNumber(db, year);
    assert Invoicing.CounterOf(db.counters, year) == c + 1;
    ghost var between := db.counters;
    var pdf := Invoicing.GenerateInvoicePdf(db, b, None, year);
    if pdf.Err? {
      return false;
    }
    assert db.counters == between[year := c + 2];
    assert db.counters == old(db.counters)[year := c + 2];
    assert pdf.value.invoiceNumber == Invoicing.FormatInvoiceNumber(year, c + 2);
    var inserted := CreateInvoice(db, Invoice(b.id, number, pdf.value, DownloadUrl(b.id)));
    ok := true;
  }

  /** The discrepancy of the step as written: the number stored with the
      invoice (and used to name the downloaded file) is never the one printed
      in the stored PDF. */
  lemma AsWrittenNumbersDisagree(year: nat, counter: nat)
    ensures Invoicing.FormatInvoiceNumber(year, counter + 1) != Invoicing.FormatInvoiceNumber(year, counter + 2)
  {
    Invoicing.InvoiceNumbersDistinct(year, counter + 1, year, counter + 2);
  }

  /** The invoice step with the drawn number handed to the PDF: one number per
      invoice, and the stored row and its PDF agree on it. */
  method IssueInvoice(db: Database, b: Booking, year: nat) returns (ok: bool)
    requires db.Valid()
    modifies db
    ensures db.Valid()
    ensures db.counters == old(db.counters)[year := Invoicing.CounterOf(old(db.counters), year) + 1]
    ensures
      if CottageById(old(db.cottages), b.cottageId).Some? && b.userId in old(db.users) then
        ok
        && var v := CorrectedInvoice(b, CottageById(old(db.cottages), b.cottageId).value, year,
                                     Invoicing.CounterOf(old(db.counters), year));
           db.invoices == if CanInsert(old(db.invoices), v) then old(db.invoices) + [v] else old(db.invoices)
      else
        !ok && db.invoices == old(db.invoices)
    ensures forall i :: 0 <= i < |db.invoices| && i >= |old(db.invoices)| ==>
      db.invoices[i].invoiceNumber == db.invoices[i].pdf.invoiceNumber
    ensures db.bookings == old(db.bookings) && db.blocks == old(db.blocks)
    ensures db.feeds == old(db.feeds) && db.cottages == old(db.cottages) && db.users == old(db.users)
    ensures db.reviews == old(db.reviews) && db.nextId == old(db.nextId)
  {
    ghost var c := Invoicing.CounterOf(db.counters, year);
    var number := Invoicing.GenerateInvoiceNumber(db, year);
    var pdf := Invoicing.GenerateInvoicePdf(db, b, Some(number), year);
    if pdf.Err? {
      return false;
    }
    var v := Invoice(b.id, number, pdf.value, DownloadUrl(b.id));
    assert v == CorrectedInvoice(b, CottageById(old(db.cottages), b.cottageId).value, year, c);
    ghost var before := db.invoices;
    var inserted := CreateInvoice(db, v);
    assert db.invoices == before || db.invoices == before + [v];
    ok := true;
  }

  /** The writes of the transaction: the booking row is replaced by its paid
      version and the lock named in the session is deleted. */
  method RecordPayment(db: Database, i: nat, paid: Booking, lockId: Option<string>)
    requires db.Valid()
    requires i < |db.bookings| && paid.id == db.bookings[i].id
    requires paid.stripeSessionId == db.bookings[i].stripeSessionId
    modifies db
    ensures db.Valid()
    ensures db.bookings == old(db.bookings)[i := paid]
    ensures db.blocks == RemoveLock(old(db.blocks), lockId)
    ensures db.invoices == old(db.invoices) && db.counters == old(db.counters)
    ensures db.feeds == old(db.feeds) && db.cottages == old(db.cottages) && db.users == old(db.users)
    ensures db.reviews == old(db.reviews) && db.nextId == old(db.nextId)
  {
    db.bookings := db.bookings[i := paid];
    assert BookingIdsDistinct(db.bookings) by {
      forall a, b | 0 <= a < b < |db.bookings|
        ensures db.bookings[a].id != db.bookings[b].id
      {
        assert db.bookings[a].id == old(db.bookings)[a].id;
        assert db.bookings[b].id == old(db.bookings)[b].id;
      }
    }
    assert SessionIdsDistinct(db.bookings) by {
      forall a, b | 0 <= a < b < |db.bookings| && db.bookings[a].stripeSessionId.Some?
        ensures db.bookings[a].stripeSessionId != db.bookings[b].stripeSessionId
      {
        assert db.bookings[a].stripeSessionId == old(db.bookings)[a].stripeSessionId;
        assert db.bookings[b].stripeSessionId == old(db.bookings)[b].stripeSessionId;
      }
    }
    if lockId.Some? && lockId.value != "" {
      FilterKeepsIds(db.blocks, (k: Block) => !(k.source == Internal && NatToString(k.id) == lockId.value), db.nextId);
    }
    db.blocks := RemoveLock(db.blocks, lockId);
  }

  /** `POST /api/stripe/webhook`. Returns the HTTP status.
      `stripeConfigured` and `secretConfigured` stand for `getStripe()`
      succeeding and `STRIPE_WEBHOOK_SECRET` being set; `year` is the current
      year. The invoice is issued after the transaction, only when the
      booking had none: an error other than a unique violation gives 500
      although the booking is already paid. */
  method HandleWebhook(db: Database, stripeConfigured: bool, secretConfigured: bool, d: Delivery, year: nat)
    returns (status: int)
    requires db.Valid()
    modifies db
    ensures db.Valid()
    ensures !stripeConfigured || !secretConfigured ==> status == 503 && unchanged(db)
    ensures stripeConfigured && secretConfigured && (d.signature.None? || d.signature.value == "" || d.verified.None?) ==>
      status == 400 && unchanged(db)
    ensures stripeConfigured && secretConfigured && d.signature.Some? && d.signature.value != "" && d.verified.Some? ==>
      var s := d.verified.value.session;
      if d.verified.value.kind != COMPLETED_EVENT then status == 200 && unchanged(db)
      else match Decide(old(db.bookings), s.id)
        case BookingNotFound => status == 404 && unchanged(db)
        case AlreadyPaid => status == 200 && unchanged(db)
        case MarkAsPaid(i) =>
          var b := old(db.bookings)[i];
          var c := Invoicing.CounterOf(old(db.counters), year);
          var cottage := CottageById(old(db.cottages), b.cottageId);
          && db.bookings == old(db.bookings)[i := MarkPaid(b, s)]
          && db.blocks == RemoveLock(old(db.blocks), s.lockId)
          && (InvoiceOf(old(db.invoices), b.id).Some? ==>
                status == 200 && db.invoices == old(db.invoices) && db.counters == old(db.counters))
          && (InvoiceOf(old(db.invoices), b.id).None? && cottage.Some? && b.userId in old(db.users) ==>
                var v := AsWrittenInvoice(b.(status := Paid), cottage.value, year, c);
                status == 200 && db.counters == old(db.counters)[year := c + 2]
                && db.invoices == (if CanInsert(old(db.invoices), v) then old(db.invoices) + [v] else old(db.invoices)))
          && (InvoiceOf(old(db.invoices), b.id).None? && (cottage.None? || b.userId !in old(db.users)) ==>
                status == 500 && db.counters == old(db.counters)[year := c + 1] && db.invoices == old(db.invoices))
    ensures db.feeds == old(db.feeds) && db.cottages == old(db.cottages) && db.users == old(db.users)
    ensures db.reviews == old(db.reviews) && db.nextId == old(db.nextId)
  {
    if !stripeConfigured || !secretConfigured {
      return 503;
    }
    if d.signature.None? || d.signature.value == "" || d.verified.None? {
      return 400;
    }
    var event := d.verified.value;
    if event.kind != COMPLETED_EVENT {
      return 200;
    }
    var s := event.session;
    var decision := Decide(db.bookings, s.id);
    match decision {
      case BookingNotFound =>
        return 404;
      case AlreadyPaid =>
        return 200;
      case MarkAsPaid(i) =>
        var booking := db.bookings[i];
        RecordPayment(db, i, MarkPaid(booking, s), s.lockId);
        if InvoiceOf(db.invoices, booking.id).Some? {
          return 200;
        }
        var ok := IssueInvoiceAsWritten(db, booking.(status := Paid), year);
        status := if ok then 200 else 500;
    }
  }

  /** `POST /api/stripe/webhook`, with the invoice step corrected to draw one number. Returns the HTTP status.
      `stripeConfigured` and `secretConfigured` stand for `getStripe()`
      succeeding and `STRIPE_WEBHOOK_SECRET` being set; `year` is the current
      year. The invoice is issued after the transaction, only when the
      booking had none: an error other than a unique violation gives 500
      although the booking is already paid. */
  method HandleWebhookCorrected(db: Database, stripeConfigured: bool, secretConfigured: bool, d: Delivery, year: nat)
    returns (status: int)
    requires db.Valid()
    modifies db
    ensures db.Valid()
    ensures !stripeConfigured || !secretConfigured ==> status == 503 && unchanged(db)
    ensures stripeConfigured && secretConfigured && (d.signature.None? || d.signature.value == "" || d.verified.None?) ==>
      status == 400 && unchanged(db)
    ensures stripeConfigured && secretConfigured && d.signature.Some? && d.signature.value != "" && d.verified.Some? ==>
      var s := d.verified.value.session;
      if d.verified.value.kind != COMPLETED_EVENT then status == 200 && unchanged(db)
      else match Decide(old(db.bookings), s.id)
        case BookingNotFound => status == 404 && unchanged(db)
        case AlreadyPaid => status == 200 && unchanged(db)
        case MarkAsPaid(i) =>
          var b := old(db.bookings)[i];
          var c := Invoicing.CounterOf(old(db.counters), year);
          var cottage := CottageById(old(db.cottages), b.cottageId);
          && db.bookings == old(db.bookings)[i := MarkPaid(b, s)]
          && db.blocks == RemoveLock(old(db.blocks), s.lockId)
          && (InvoiceOf(old(db.invoices), b.id).Some? ==>
                status == 200 && db.invoices == old(db.invoices) && db.counters == old(db.counters))
          && (InvoiceOf(old(db.invoices), b.id).None? && cottage.Some? && b.userId in old(db.users) ==>
                var v := CorrectedInvoice(b.(status := Paid), cottage.value, year, c);
                status == 200 && db.counters == old(db.counters)[year := c + 1]
                && db.invoices == (if CanInsert(old(db.invoices), v) then old(db.invoices) + [v] else old(db.invoices)))
          && (InvoiceOf(old(db.invoices), b.id).None? && (cottage.None? || b.userId !in old(db.users)) ==>
                status == 500 && db.counters == old(db.counters)[year := c + 1] && db.invoices == old(db.invoices))
    ensures db.feeds == old(db.feeds) && db.cottages == old(db.cottages) && db.users == old(db.users)
    ensures db.reviews == old(db.reviews) && db.nextId == old(db.nextId)
  {
    if !stripeConfigured || !secretConfigured {
      return 503;
    }
    if d.signature.None? || d.signature.value == "" || d.verified.None? {
      return 400;
    }
    var event := d.verified.value;
    if event.kind != COMPLETED_EVENT {
      return 200;
    }
    var s := event.session;
    var decision := Decide(db.bookings, s.id);
    match decision {
      case BookingNotFound =>
        return 404;
      case AlreadyPaid =>
        return 200;
      case MarkAsPaid(i) =>
        var booking := db.bookings[i];
        RecordPayment(db, i, MarkPaid(booking, s), s.lockId);
        if InvoiceOf(db.invoices, booking.id).Some? {
          return 200;
        }
        ghost var settled := db.invoices;
        var ok := IssueInvoice(db, booking.(status := Paid), year);
        assert settled == old(db.invoices);
        status := if ok then 200 else 500;
    }
  }
}

=== FILE: wrappers.dfy ===
/** Optional values and results with an error, used wherever the source returns
    `null`/`undefined` or throws. */
module Wrappers {
  datatype Option<+T> = None | Some(value: T) {
    /** `x ?? fallback` */
    function GetOr(fallback: T): T {
      if Some? then value else fallback
    }
  }

  datatype Result<+T, +E> = Ok(value: T) | Err(error: E)
}
